=== FILE: README.md ===
# doxyfmt in Dafny

A functional model of the core of doxyfmt, a tool that turns doxygen's XML
output into formatted documentation. It covers six pieces.

- **Node facade and text extractor** (`element`, `itermaptext`,
  `Maptext`): an immutable element tree, the `A`/`E`/`L`/`N`/`S`/`T`
  accessor suffixes with their absent sentinel, and the pre-order text
  extraction with per-tag text and tail rules and a child filter. The two
  copies of the extractor are one function with a mode. The
  whitespace-keeping copy honours a `%T` left-strip rule prefix. The
  stripping copy strips every text and tail piece. Modules `Nodes` and
  `TextMap`.
- **Compound catalogue** (`compound.element`): an index entry that parses
  its definition on first use and caches it. Module `Catalogue`.
- **Output stream** (`ostream`, `doxystream`): the blank-line squashing
  writer, modelled as a (buffered tail, blank count) state threaded
  through `write` calls. Module `Sink`.
- **Formatters** (`format`, `doxyfmt`): the depth-first walk over file,
  struct and union compounds, their sections and their members. The walk
  is recorded as the trace of override-point calls it makes: headings
  with their level, names, syntax lines, descriptions, and begin/end
  events. The shared parts are in `Hooks`, entry ordering in `Ordering`,
  and the two formatters in `LibFormat` and `FmtFormat`. The naming of
  output files, used by `main`, is also in `Hooks`.
- **Template translator** (`template_translate`): a copy line
  `: text ${expr}` becomes its indentation plus a list of
  write-literal / write-expression statements. Every other line is kept
  verbatim. Module `Template`.
- **Doxyfile reader** (`readconf`) and the `GENERATE_` rewrite of `run`:
  a fold over the file's lines into a dictionary. Module `Config`.

`Base` holds the string helpers these share: strip, lstrip, one-character
replace, join, and code-point string order.

Reading files is replaced by data.
- The catalogue is a map from compound identifier to compounddef element.
- A Doxyfile is a sequence of lines.
- `main` takes the index order as a sequence of identifiers.
- Opening an output file is a `Reset` entry in the trace.
- Hook bodies are empty override points, so a call to one is recorded as
  a trace entry.

## Model

| member | source | states |
|---|---|---|
| Nodes.Attr | doxylib.py:61-65 | `nameA` is the attribute when present and None (not "") when missing; the empty name gives "" |
| Nodes.Child | doxylib.py:66-70 | `nameE` is a child of that name, and the sentinel exactly when there is no such child; the empty name gives the element itself |
| Nodes.Children | doxylib.py:71-75 | `nameL` holds every child of that name and nothing else; an element without children gives []; the empty name gives the one-element list of the element |
| Nodes.ChildrenCons | doxylib.py:71-75 | `nameL` walks the children in order and keeps each one of that name once, which with the empty case fixes its order and multiplicity |
| Nodes.TagName | doxylib.py:76-81 | `nameN` is the name itself when such a child exists and "" exactly when none does; the empty name gives the element's own tag |
| Nodes.RawText | doxylib.py:82-90 | `nameS` is an attribute of that name when there is one, otherwise the joined text of every child of that name (so "" when there is none), and the whole text for the empty name |
| Nodes.TrimmedText | doxylib.py:82-91 | `nameT` returns an attribute as it is; otherwise the result has no surrounding whitespace; it is never longer than `nameS` |
| Nodes.AbsentIsNeutral | doxylib.py:48-81 | the sentinel is falsy; on it `A` gives None, `E` the sentinel, `L` [], `N` "" and `S`/`T` "" (the copy in doxyxml.py behaves the same) |
| Nodes.Lookup | doxylib.py:56-93 | dispatch on the selector's last character fails with AttributeError exactly when that character is not one of A, E, L, N, S, T or the selector is empty; with the rest of the selector as the name, `A` gives the attribute (`nameA`), `E` the first such child (`nameE`), `L` all such children (`nameL`), `N` the child's tag (`nameN`), and `S` and `T` the raw and stripped text (`nameS`, `nameT`); the copy in doxyxml.py dispatches the same |
| Nodes.StrAccessorsPreferAttribute | doxylib.py:82-91 | with an attribute of the name present, `S` returns it and `T` returns the same, unstripped |
| Nodes.TrimmedIsStrippedText | doxylib.py:87-91 | without such an attribute, `T` is `S` with surrounding whitespace stripped |
| Nodes.FindIsHeadOfFindAll | doxylib.py:66-75 | for one path, `find` gives the first element `findall` gives, and the sentinel exactly when `findall` gives none |
| TextMap.Piece | doxylib.py:15-25 | a ruled piece yields exactly one fragment, the rule's prefix, the escaped text and the rule's suffix, where a `%T` rule in the keeping extractor first strips the text's leading whitespace; an unruled piece yields the escaped text alone, or nothing when the text is empty; in the stripping extractor of doxyxml.py the text is stripped first, and an unruled piece yields nothing exactly when it is all whitespace |
| TextMap.Maptext | doxylib.py:94-100 | an absent element renders as the empty string |
| TextMap.RejectedChildContributesNothing | doxylib.py:26-34 | a child the filter rejects contributes neither its subtree nor its tail, in either extractor |
| TextMap.UnusedFilter | doxylib.py:28-33 | a filter that admits every element of the subtree yields the same fragments as no filter |
| TextMap.PlainFragmentsAreText | doxylib.py:13-45 | with no rules, no filter and the identity escape, the joined fragments are the element's text in document order |
| TextMap.HelloWorldFragments | doxylib.py:94-100 | `<p>Hello <b>World</b>!</p>` yields the fragments "Hello ", "World", "!" and Maptext "Hello World!" |
| TextMap.HelloWorldStarred | doxylib.py:15-25 | with the rule `*%s*` for `b`, `<p>Hello <b>World</b>!</p>` renders as "Hello *World*!": the rule wraps the element's text, not its tail |
| TextMap.HelloWorldFiltered | doxylib.py:26-33 | with `b` filtered out the same paragraph yields only "Hello " |
| TextMap.PlainStrippedFragments | doxyxml.py:13-41 | with no rules, no filter and the identity escape, the stripping copy joins the stripped pieces in document order |
| TextMap.StrippedEmptyIffBlank | doxyxml.py:16-23 | the stripped pieces are all empty exactly when the element's whole text is whitespace |
| TextMap.HelloWorldStripped | doxyxml.py:90-96 | the stripping copy renders `<p>Hello <b>World</b>!</p>` as "HelloWorld!" |
| Catalogue.Resolve | doxylib.py:109-112 | `element()` parses only when nothing is cached; a successful parse is cached, and a cached value is returned without parsing |
| Catalogue.ParsedAtMostOnce | doxylib.py:106-112 | any number of `element()` calls parse at most once and all return the same definition (the same for the catalogue of doxyxml.py) |
| Catalogue.CachedNeverLoads | doxyxml.py:105-108 | once cached, an entry is never parsed again and always answers with the cached value |
| Catalogue.Index | doxylib.py:117-120 | every listed identifier gets exactly one entry, not yet resolved |
| Sink.SplitLinesConcat | doxylib.py:133 | the pieces `splitlines(True)` yields rebuild the written text |
| Sink.SplitLinesTerminated | doxylib.py:133 | every piece but the last ends with a newline, and the last does too when the text does |
| Sink.WriteLines | doxylib.py:133-148 | every string forwarded to the underlying stream ends with a newline |
| Sink.BlanksSquashed | doxylib.py:140-148 | two bare newlines are forwarded one after the other only at the very start of a fresh stream, and after two blank lines in a row no further blank line is forwarded (`doxystream` in doxyfmt.py is the same) |
| Sink.BlankStep | doxylib.py:140-147 | a blank line, spaces before its newline included, is forwarded as a bare newline when fewer than two blank lines precede it, and dropped otherwise |
| Sink.NonBlankKept | doxylib.py:133-148 | fed whole lines, the stream forwards exactly their non-blank lines, unchanged and in order, every blank line it forwards is a bare newline, and nothing stays buffered |
| Sink.WriteKeepsText | doxylib.py:132-148 | one write of newline-terminated text to a fresh stream forwards the text's non-blank lines in order, with blank lines only as bare newlines |
| Sink.IsBlankIsLStripTest | doxylib.py:140-141 | a line counts as blank exactly when stripping its leading spaces leaves "\n" |
| Sink.UnterminatedIsBuffered | doxylib.py:137-139 | text without a newline forwards nothing and is appended to the buffered tail |
| Sink.WriteIsChunkInvariant | doxylib.py:132-148 | writing `a` then `b` forwards what writing `a + b` at once forwards, and leaves the same state (`doxystream` in doxyfmt.py is the same) |
| Sink.WriteAllIsOneWrite | doxylib.py:132-148 | however the text is cut into `write` calls, the stream behaves as one write of the whole text |
| Sink.TailJoinsNextWrite | doxylib.py:132-139 | writing "x\ny" then "z\n" forwards "x\n" and "yz\n", that is "x\nyz\n" |
| Sink.SquashExample | doxylib.py:140-148 | a line of text, three blank lines and a line of text leave the stream as the two lines with one blank line between |
| Template.Translate | pytempl.py:61-67 | a line is translated as a copy line exactly when only whitespace precedes its first `:`, and any other line is kept verbatim; a copy line's indentation is the whitespace the line starts with, and a `:` follows it |
| Template.TranslateSource | pytempl.py:61-67 | every input line yields exactly one output line, in order, and the non-copy lines pass unchanged |
| Template.IsCopyIffColonAfterSpace | pytempl.py:58 | a line of whitespace then `:` is a copy line whose indentation is exactly that whitespace |
| Template.CopyLineShape | pytempl.py:58 | a copy line is its indentation, the `:`, at most one space, and the copied text |
| Template.Leftmost | pytempl.py:59 | the expression search finds the leftmost match, and no match exists before it |
| Template.Split | pytempl.py:59 | the split with one group yields an odd number of pieces, literals and expressions alternating, starting and ending with a literal |
| Template.SplitRejoins | pytempl.py:59 | writing the expression pieces back as `${...}` between the literal pieces rebuilds the split text |
| Template.SplitExpressions | pytempl.py:59 | every expression piece is non-empty and holds no `}` |
| Template.SplitLiterals | pytempl.py:59 | no literal piece holds an expression, so the split takes every match |
| Template.StmtsSource | pytempl.py:65-66 | dropping empty pieces loses nothing: the statements write back exactly the split text |
| Template.TranslateRoundTrip | pytempl.py:58-66 | a copy line is rebuilt from its indentation, the colon, at most one space, and the template text its statements come from |
| Template.CopyStmtsWellFormed | pytempl.py:59-66 | a copy line's literals are non-empty and hold no expression; its expressions are non-empty and hold no `}` |
| Template.TrailingNewlineIsLiteral | pytempl.py:58-66 | a copy line ending with a newline ends by writing a literal that ends with that newline |
| Template.PlainTextCopiedVerbatim | pytempl.py:65-66 | copied text without `${...}` is written exactly as it is, whatever the expressions evaluate to |
| Template.RenderPlaceholders | pytempl.py:60 | rendering each expression as its own placeholder writes back the template text |
| Template.CopyLineRendersBack | pytempl.py:58-66 | a translated copy line, run with every expression written back as its placeholder, writes exactly the template text it came from |
| Template.TranslateCode | pytempl.py:63-67 | an unindented line that does not start with `:` is kept verbatim |
| Template.ValueExample | pytempl.py:61-67 | `x = 1` stays code and `: value is ${x}` plus newline becomes the literal "value is ", the expression `x`, and the literal newline |
| Template.ValueRendered | pytempl.py:60 | with `x` standing for 1 that copy line writes "value is 1\n" |
| Config.OnlyEq | doxyover.py:112-113 | the split point is an `=` with no other `=` on either side of it |
| Config.OnlyEqIffOne | doxyover.py:112-114 | `split("=", 2)` has two parts exactly when the line holds exactly one `=` |
| Config.Apply | doxyover.py:115-125 | the key is set, every other key is kept, and `+=` appends the value after a space to a non-empty previous value and otherwise sets it |
| Config.Step | doxyover.py:102-125 | a blank line changes nothing, and a line changes the dictionary at most by assigning the pending text joined to it |
| Config.CommentSkipped | doxyover.py:103-105 | a comment line changes nothing, even inside a continuation |
| Config.DanglingContinuationDropped | doxyover.py:101-108 | a continuation still pending at the end of the file is dropped |
| Config.MalformedLineIgnored | doxyover.py:109-114 | a completed line without exactly one `=` clears the continuation and leaves the dictionary unchanged |
| Config.ContinuationJoins | doxyover.py:106-111 | a continued line and the next line read as the two joined, without the backslash |
| Config.ParseSides | doxyover.py:112-120 | a line with one `=` yields its stripped key (less a trailing `+`), whether it appends, and its stripped value |
| Config.AssignmentApplies | doxyover.py:115-125 | `key = value` and `key += value` set the stripped key from the stripped value, appending for `+=` |
| Config.AssignmentOverwrites | doxyover.py:119-125 | a plain assignment overwrites the key's earlier value and changes nothing else |
| Config.ReadConfWellFormed | doxyover.py:98-126 | every key read is stripped, and no key or value holds an `=` |
| Config.ForceXml | doxyover.py:143-148 | the keys after the rewrite are the keys read plus the three forced switches |
| Config.ForceXmlPointwise | doxyover.py:143-148 | after the rewrite `GENERATE_XML` is "YES", every other `GENERATE_` key is "NO", and every other setting is as read |
| Config.ForceXmlIdempotent | doxyover.py:143-148 | rewriting twice is rewriting once |
| Ordering.OrderOf | doxylib.py:396-401 | "doxygen" and "alpha" select their orders; any other setting, or none, sorts by source location |
| Ordering.AlphaKey | doxylib.py:400 | the key is the compound name, or the member name when the compound name is empty |
| Ordering.SourceKey | doxylib.py:402-403 | the location key is the file name, a colon, the line right-justified to ten places, a colon and the column right-justified to ten places |
| Ordering.DigitsCompare | doxylib.py:402-403 | equally long digit strings compare as strings exactly as the numbers they denote |
| Ordering.PaddedOrder | doxylib.py:402-403 | numerals of at most ten digits, right-justified to ten places, compare as strings exactly as the numbers they denote |
| Ordering.SourceKeyLineOrder | doxylib.py:402-403 | within one file, an entry on an earlier line has the strictly smaller location key, whatever the columns |
| Ordering.SortBySorted | doxylib.py:399-403 | the sort leaves entries in key order and keeps every entry exactly as often |
| Ordering.SortByStable | doxylib.py:399-403 | entries with equal keys keep their listing order |
| Ordering.SortedUnchanged | doxylib.py:399-403 | entries already in key order are left where they are |
| Hooks.DepthPush | doxylib.py:248-253 | pushing an element raises the count of its tag by exactly one and leaves the other counts unchanged |
| Hooks.HeadingCall | doxylib.py:284-286 | a heading is called exactly for non-empty text, at one more than the number of enclosing sections |
| Hooks.SyntaxCall | doxylib.py:308-310 | the syntax hook is called exactly for non-empty text |
| Hooks.ParametersCall | doxylib.py:311-313 | the parameters hook is called, with the first parameter list, exactly when that list has non-blank text |
| Hooks.ReturnsCall | doxylib.py:314-316 | the returns hook is called, with the first return description, exactly when that description has non-blank text |
| Hooks.Push | doxylib.py:327-329 | a begin event pushes the element and records the event |
| Hooks.Pop | doxylib.py:330-332 | an end event records the event and pops the element |
| Hooks.PushPop | doxylib.py:326-332 | a begin event, hooks that keep the stack, and an end event leave the stack as it was |
| Hooks.OpenClose | doxylib.py:326-332 | a begin event, hooks that keep the stack, and the end event leave the element's begin event first and its end event last, even when the cache was rewritten just before |
| Hooks.Enclose | doxylib.py:326-332 | an element's hooks sit between its begin event and its end event, and the stack is back where it was |
| Hooks.FileTitle | doxylib.py:423-428 | a file's heading is its title when that is non-empty; with no title, it is the location's `file` attribute when that is a non-empty relative path, and the compound name when the attribute is missing, empty or absolute |
| Hooks.DefineSyntax | doxylib.py:365-368 | the syntax line is "#define " and the stripped name; a macro with a `param` child adds "(", its stripped `defname`s joined by ", ", and ")", and one without adds nothing |
| Hooks.MacroSyntax | doxylib.py:365-368 | a macro `N` with parameters `a` and `b` has the syntax line "#define N(a, b)" |
| Hooks.ParameterParaFiltered | doxylib.py:232-235 | a paragraph holding a parameter list is filtered out of descriptions |
| Hooks.PlainParaKept | doxylib.py:232-235 | a paragraph without parameter list or simplesect children is kept |
| Hooks.EscapeFileName | doxylib.py:455 | the output name holds no `:`, `/` or `\` |
| Hooks.EscapeOne | doxylib.py:455 | a single character escapes as `_` to `__`, `:` to nothing, `/` and `\` to `_`, anything else to itself |
| Hooks.EscapeCons | doxylib.py:455 | the chain of four replacements escapes the first character independently of the rest of the path |
| Hooks.EscapeIsPerCharacter | doxyfmt.py:246 | the output name equals the character-by-character escape of the path, so the empty path gives the empty name |
| Hooks.EscapeInvertible | doxyfmt.py:246 | for paths without separators or colons, undoubling underscores recovers the path |
| Hooks.UnderscoreSlashCollide | doxylib.py:455 | "_/" and "/_" escape to the same name "___" |
| Hooks.ColonDropped | doxyfmt.py:246 | "a:b" and "ab" escape to the same name |
| Hooks.OutputNameAsWritten | doxylib.py:452-455 | as written, any name produced holds no `:`, `/` or `\` (when there is no location file the code fails instead, see Hooks.NoLocationNoFile) |
| Hooks.NoLocationNoFile | doxylib.py:452-454 | as written, a file compound without a location element cannot be given an output name |
| Hooks.OutputName | doxylib.py:452-455 | the intended output name always exists and holds no `:`, `/` or `\` |
| Hooks.OutputNameExtends | doxylib.py:452-455 | the intended name agrees with the written one wherever that one succeeds, and otherwise is the escaped compound name |
| LibFormat.PercentS | doxylib.py:303 | finds the first `%s` of a kind title, or reports that there is none |
| LibFormat.NameText | doxylib.py:300-306 | a real name replaces the first `%s` of the title, or follows a title without one after a space |
| LibFormat.NameHook | doxylib.py:298-307 | no name hook exactly for an empty name; otherwise the hook carries the kind's title ("" for a kind without one), the text synthesised from that title and the name, and the description element it was given |
| LibFormat.FunctionName | doxylib.py:303-304 | a function named `f` gets the name text "f()" |
| LibFormat.StructName | doxylib.py:305-306 | a struct named `s` gets the name text "struct s" |
| LibFormat.AnonymousNamesAgree | doxylib.py:301-302 | all anonymous names of a kind give the same hook, the one the title with an empty name gives |
| LibFormat.AnonymousBlanked | doxylib.py:301-306 | an anonymous name is blanked: the title's `%s` is replaced by nothing, and a title without one is followed by a bare space |
| LibFormat.AnonymousStruct | doxylib.py:301-306 | an anonymous struct is announced with the text "struct " |
| LibFormat.InterfaceUntitled | doxylib.py:225 | an interface has no title, as the later of the two `interface` entries in the table wins, so its name follows a bare space |
| LibFormat.NamedTextShown | doxylib.py:298-307 | a real name appears in the hook's text |
| LibFormat.SummaryCall | doxylib.py:293-294 | the summary hook is called exactly when the element has text |
| LibFormat.DescriptionCall | doxylib.py:324-325 | the description hook is called exactly when the filtered text is not blank |
| LibFormat.DescriptionCallsDescribe | doxylib.py:320-325 | the calls end with the description hook exactly when the element has text and its filtered text is not blank; no earlier call describes |
| LibFormat.DescriptionShown | doxylib.py:320-325 | with the identity escape and nothing filtered, the description hook ends the calls exactly when the element has text |
| LibFormat.MemberCalls | doxylib.py:342-371 | an unknown member kind is a NotImplementedError carrying the kind; a define's hooks include its `#define` syntax line |
| LibFormat.MemberCallsShape | doxylib.py:343-370 | a member's hooks start with its name hook (a macro's titled by whether it takes parameters) and end with its detailed description |
| LibFormat.FunctionCallsShape | doxylib.py:343-346 | a function's name hook is followed by its definition joined to its argument list as syntax |
| LibFormat.VariableCallsShape | doxylib.py:347-358 | a variable's or typedef's name hook is followed by its definition as syntax |
| LibFormat.EnumCallsShape | doxylib.py:351-354 | an enum's hooks start with its name hook and end with its detailed description |
| LibFormat.EnumValuesShown | doxylib.py:351-354 | an enum with values shows them right after its name hook |
| LibFormat.EnumWithoutValues | doxylib.py:351-354 | an enum without values has nothing between its name hook and its detailed description |
| LibFormat.DefineCallsShape | doxylib.py:359-369 | a macro's name hook is followed by its `#define` line as syntax |
| LibFormat.Memberdef | doxylib.py:334-372 | a typedef naming a compound claims it; any other member's hooks sit between its events; unknown kinds fail |
| LibFormat.TypedefHidesCompound | doxylib.py:335-340 | once a typedef has claimed a compound, a section listing only that compound is skipped |
| LibFormat.TypedefRendersCompound | doxylib.py:335-340 | a typedef naming a struct or union formats that compound in its place: the compound's begin event comes first, then its name hook under the typedef's name (the compound name when the typedef's is empty) and the typedef's definition as syntax, and the compound's end event comes last |
| LibFormat.ClaimedSectionSkipped | doxylib.py:375-382 | a section with no members and only claimed inner compounds leaves no trace |
| LibFormat.Massage | doxylib.py:412-420 | inner-class children move into one trailing section of kind `innerclass`, after the other children in their original order; an element without inner classes is left exactly as it is |
| LibFormat.MassageIdempotent | doxylib.py:414-420 | massaging twice is massaging once |
| LibFormat.UnclaimedIds | doxylib.py:390-393 | the refids of the unclaimed inner compounds: as many as are counted, each unclaimed, none missed |
| LibFormat.UnclaimedIdsCons | doxylib.py:390-393 | the refids are taken in listing order, each unclaimed one once |
| LibFormat.InnerEntries | doxylib.py:390-393 | succeeds exactly when every unclaimed refid is in the catalogue, and then gives, in order, each refid with its cached definition; otherwise fails with the first unknown refid |
| LibFormat.Contents | doxylib.py:375-395 | the entries listed are as many as the count that decides whether the section is shown: the unclaimed inner compounds with their cached definitions, in order, then the members in listing order; it fails exactly when an unclaimed refid is unknown |
| LibFormat.Arrange | doxylib.py:396-403 | ordering keeps every entry exactly as often, and "doxygen" keeps the listing order |
| LibFormat.ArrangeSorted | doxylib.py:399-403 | "alpha" sorts by name and "source" by location |
| LibFormat.ArrangeStable | doxylib.py:399-403 | entries with equal keys keep their listing order |
| LibFormat.Compound | doxylib.py:336-339 | a reference to a compound missing from the catalogue fails; otherwise the walk only appends hooks |
| LibFormat.Compounddef | doxylib.py:411-443 | only file, struct and union compounds are formatted, others fail with their kind; a formatted compound's hooks sit between its own begin and end events, and the stack is back where it was |
| LibFormat.CompoundShapeOf | doxylib.py:422-443 | a formatted compound's trace is its begin event, its head, whatever its sections add, its tail, and its end event |
| LibFormat.FileCompoundShape | doxylib.py:422-433 | a file opens, after its begin event, with its title heading one level below the enclosing sections, then the summary of its brief and detailed descriptions together, and closes with the copyright notice, when there is one, just before its end event |
| LibFormat.NamedCompoundShape | doxylib.py:434-440 | a struct or union opens, after its begin event, with its name hook under the name given (or its own), the given definition as syntax and its detailed description, and has no tail before its end event |
| LibFormat.Sectiondef | doxylib.py:374-409 | a section with nothing to show leaves no trace; a shown one has its hooks between its own begin and end events, and the stack is back where it was |
| LibFormat.EntryStep | doxylib.py:404-408 | each entry only appends hooks and restores the stack |
| LibFormat.SectionHeadingLevel | doxylib.py:384-388 | a shown section opens with its begin event, then its heading one level below the enclosing sections, and closes with its end event |
| LibFormat.FileStep | doxylib.py:447-458 | the first hook a file adds announces its output file, under the intended output name of Hooks.OutputName |
| LibFormat.Generate | doxylib.py:445-458 | `main` only appends hooks, and succeeds only when every listed identifier is in the catalogue |
| FmtFormat.NameCall | doxyfmt.py:133-137 | no name hook exactly for an empty name; otherwise one hook with the kind and the description element it was given, carrying a real name as it is |
| FmtFormat.AnonymousNamed | doxyfmt.py:135-136 | an anonymous name becomes "anonymous " and the kind |
| FmtFormat.NamesDistinct | doxyfmt.py:133-137 | distinct real names give distinct hooks |
| FmtFormat.DescriptionCall | doxyfmt.py:154-155 | the description hook is called exactly when the stripping extractor's filtered text is not empty; that text is not stripped again |
| FmtFormat.DescriptionShown | doxyfmt.py:150-155 | with the identity escape and nothing filtered, the description hook ends the calls exactly when the element has text |
| FmtFormat.MemberCalls | doxyfmt.py:166-188 | an unknown member kind is a NotImplementedError carrying the kind; a typedef has no hooks; a define's hooks include its syntax line |
| FmtFormat.MemberCallsShape | doxyfmt.py:166-184 | a member's hooks other than a typedef's start with its name hook and end with its detailed description |
| FmtFormat.FunctionCallsShape | doxyfmt.py:166-169 | a function's name hook is followed by its definition joined to its argument list as syntax |
| FmtFormat.VariableCallsShape | doxyfmt.py:170-173 | a variable's name hook is followed by its definition as syntax |
| FmtFormat.EnumCallsShape | doxyfmt.py:174-177 | an enum's hooks start with its name hook and end with its detailed description |
| FmtFormat.EnumValuesShown | doxyfmt.py:174-177 | an enum with values shows them right after its name hook |
| FmtFormat.EnumWithoutValues | doxyfmt.py:174-177 | an enum without values has nothing between its name hook and its detailed description |
| FmtFormat.DefineCallsShape | doxyfmt.py:178-184 | a macro's name hook is followed by its `#define` line as syntax |
| FmtFormat.Memberdef | doxyfmt.py:164-189 | every known member's hooks sit between its events; unknown kinds fail |
| FmtFormat.TypedefOnlyEvents | doxyfmt.py:185-189 | a typedef leaves only its begin and end events |
| FmtFormat.Massage | doxyfmt.py:206-212 | inner-class children move into a trailing `innerclass` section after the other children in their original order; the section is appended even when there are none |
| FmtFormat.MassageGrows | doxyfmt.py:206-212 | massaging is not idempotent: each visit appends another section |
| FmtFormat.InnerSectionTitled | doxyfmt.py:210-212 | the appended section is titled "Data Structures" and lists the compound's inner compounds |
| FmtFormat.Compound | doxyfmt.py:198-199 | a reference to a compound missing from the catalogue fails; otherwise the walk only appends hooks |
| FmtFormat.Compounddef | doxyfmt.py:204-234 | only file, struct and union compounds are formatted, others fail with their kind; a formatted compound's hooks sit between its own begin and end events, and the stack is back where it was |
| FmtFormat.CompoundShapeOf | doxyfmt.py:213-234 | a formatted compound's trace is its begin event, its head, whatever its sections add, its tail, and its end event |
| FmtFormat.FileCompoundShape | doxyfmt.py:214-226 | a file opens, after its begin event, with its title heading one level below the enclosing sections, then its brief and its detailed description, each described on its own, and closes with the copyright notice, when there is one, just before its end event |
| FmtFormat.NamedCompoundShape | doxyfmt.py:227-231 | a struct or union opens, after its begin event, with its name hook under its own name and its detailed description, and has no tail before its end event |
| FmtFormat.Sectiondef | doxyfmt.py:191-202 | every section is shown, with no skipping: its hooks sit between its own begin and end events, and the stack is back where it was |
| FmtFormat.Members | doxyfmt.py:200-201 | an unknown first member kind fails with that kind; otherwise the walk only appends hooks |
| FmtFormat.SectionHeadingLevel | doxyfmt.py:192-196 | every section opens with its begin event, then its heading one level below the enclosing sections, and closes with its end event |
| FmtFormat.EmptySectionShown | doxyfmt.py:191-202 | a section with neither inner compounds nor members succeeds and leaves exactly its begin event, its heading and description calls, and its end event |
| FmtFormat.FileStep | doxyfmt.py:238-249 | the first hook a file adds announces its output file, under the intended output name of Hooks.OutputName |
| FmtFormat.Generate | doxyfmt.py:236-249 | `main` only appends hooks, and succeeds only when every listed identifier is in the catalogue |

## Left out

- Reading XML: `parser.__init__` and `parse_compound` open and parse files. A map from identifier to compounddef element stands in for them. A missing key stands for an unreadable file.
- ElementTree path queries are modelled as the subset the code uses: `tag`, `tag[@k='v']`, `.//tag` and `.//tag[@k='v']`.
- Python `%`-formatting of rules: a rule is modelled as one `%s` between a fixed prefix and suffix.
- `%T` in the stripping extractor: doxyxml.py does not strip this prefix, and Python would reject the format. The model gives the prefix no meaning there.
- `str.splitlines` also splits at `\r`, `\v`, `\f` and other separators. The model splits at `\n` only.
- `template_compile`, `template_load`, `finder` and `loader` compile and run the translated code through `exec` and import hooks. The model stops at the statement list. `%r` (`repr`) quoting of literals is not modelled.
- `open` in `readconf`, and the doxygen subprocess, `parsexml`, `parseindex` and argument parsing in `run`/`main`: this is I/O. Only the dictionary rewrite of `run` is modelled.
- format.py is not part of this model: its selectors are rejected by the accessor with AttributeError.
- Hook bodies are empty override points. Each call is recorded in the trace instead of being rendered.
- The `language` attribute saved by `main` is never read by the core, so it is not modelled.
- `os.path.isabs` is modelled for POSIX paths: a path is absolute when it starts with `/`.
- The walk carries fuel, one unit per compound it enters. A cycle of compound references makes Python exhaust its recursion limit; the model instead returns `Exhausted`.
- The output stream's underlying `write` is the list of strings each call forwards.
- LibFormat.Compounddef: its contract states the error cases and the compound's own begin and end events around its hooks. The hooks in between are stated by LibFormat.CompoundShapeOf, LibFormat.FileCompoundShape and LibFormat.NamedCompoundShape; what each section adds is stated by LibFormat.SectionHeadingLevel.
- LibFormat.Sectiondef: its contract states the skipped case and the section's own events around its hooks. The heading that follows the begin event is stated by LibFormat.SectionHeadingLevel.
- FmtFormat.Compounddef: as for LibFormat.Compounddef, with FmtFormat.CompoundShapeOf, FmtFormat.FileCompoundShape, FmtFormat.NamedCompoundShape and FmtFormat.SectionHeadingLevel.
- FmtFormat.Sectiondef: as for LibFormat.Sectiondef, with FmtFormat.SectionHeadingLevel and FmtFormat.EmptySectionShown.
- LibFormat.Memberdef: a member of unknown kind is an error that keeps no trace. The source has already called the member's begin event when it raises NotImplementedError. The exception ends the run, so that partial output is not modelled.
- LibFormat.TypedefRendersCompound: states the first hooks and the last event of a claiming typedef. It does not state that no event of the typedef itself follows, which would need a statement about every hook the compound's sections add.
- FmtFormat.Memberdef: as for LibFormat.Memberdef.
- LibFormat.Compounddef, unknown kind: the source has already rewritten the element's inner classes in the cached tree and called its begin event when it raises NotImplementedError. The model returns the error with the cache and trace untouched.
- FmtFormat.Compounddef, unknown kind: as for LibFormat.Compounddef.
- Template.Split: its contract states only the odd count of pieces. What the pieces hold is stated by Template.SplitRejoins, Template.SplitExpressions and Template.SplitLiterals.
- LibFormat.Generate: states trace growth, the index check and, through FileStep, that each file is announced first. It does not restate the hooks for each file.
- FmtFormat.Generate: as for LibFormat.Generate.
- Ordering.SourceKeyLineOrder: covers line numbers written as numerals of at most ten digits with no leading zero, as doxygen writes them. A longer line number is not padded and compares as text, which the lemma does not cover. Equal lines are ordered by column, which no lemma states numerically.

## Findings

| source | as written | input that shows it | evidently intended | confidence | as-written member | corrected member |
|---|---|---|---|---|---|---|
| doxylib.py:452-454 (also doxyfmt.py:243-245) | when the file compound has no location file, `main` falls back to `elem.compoundnameS`, but no `elem` is in scope there, so the fallback raises NameError | a compounddef of kind `file` with no `location` child, or one whose `file` attribute is empty | fall back to the compound's own name, `comp.compoundnameS` | high; not executed | Hooks.OutputNameAsWritten (with Hooks.NoLocationNoFile) | Hooks.OutputName (with Hooks.OutputNameExtends) |

=== FILE: base.dfy ===
/** Shared vocabulary: optional values, results, and the handful of Python
    string operations the rest of the model leans on (strip, lstrip, join,
    single-character replace, code-point ordering). */
module Base {

  datatype Option<+T> = None | Some(value: T) {
    function GetOr(default: T): T {
      match this
      case Some(v) => v
      case None => default
    }
  }

  datatype Result<+T, +E> = Ok(value: T) | Err(error: E)

  /** Python's `str.isspace()` set, which is also what `\s` matches in a
      `str` regular expression and what `str.strip()` removes. */
  predicate IsSpace(c: char) {
    || c == ' ' || c == '\t' || c == '\n' || c == '\r'
    || c == '\U{000B}' || c == '\U{000C}'
    || ('\U{001C}' <= c <= '\U{001F}')
    || c == '\U{0085}' || c == '\U{00A0}' || c == '\U{1680}'
    || ('\U{2000}' <= c <= '\U{200A}')
    || c == '\U{2028}' || c == '\U{2029}' || c == '\U{202F}'
    || c == '\U{205F}' || c == '\U{3000}'
  }

  predicate AllSpace(s: string) {
    forall i :: 0 <= i < |s| ==> IsSpace(s[i])
  }

  lemma AllSpaceConcat(a: string, b: string)
    ensures AllSpace(a + b) <==> AllSpace(a) && AllSpace(b)
  {
    if AllSpace(a + b) {
      forall i | 0 <= i < |b|
        ensures IsSpace(b[i])
      {
        assert b[i] == (a + b)[|a| + i];
      }
      forall i | 0 <= i < |a|
        ensures IsSpace(a[i])
      {
        assert a[i] == (a + b)[i];
      }
    }
  }

  /** `s.lstrip()`: the longest whitespace prefix is removed. */
  function LStrip(s: string): (r: string)
    ensures |r| <= |s| && r == s[|s| - |r|..]
    ensures r == [] || !IsSpace(r[0])
    ensures AllSpace(s[..|s| - |r|])
  {
    if s != [] && IsSpace(s[0]) then LStrip(s[1..]) else s
  }

  /** Leading whitespace is all `lstrip` removes: skipping some of it first
      changes nothing. */
  lemma {:induction false} LStripAfterSpaces(s: string, k: nat)
    requires k <= |s| && AllSpace(s[..k])
    ensures LStrip(s) == LStrip(s[k..])
    decreases k
  {
    if k > 0 {
      assert AllSpace(s[..k - 1]) by {
        assert s[..k] == s[..k - 1] + [s[k - 1]];
        AllSpaceConcat(s[..k - 1], [s[k - 1]]);
      }
      LStripAfterSpaces(s, k - 1);
      var t := s[k - 1..];
      assert IsSpace(t[0]) by {
        assert t[0] == s[..k][k - 1];
      }
      assert t[1..] == s[k..];
      assert LStrip(t) == LStrip(t[1..]);
    }
  }

  /** `s.rstrip()`: the longest whitespace suffix is removed. */
  function RStrip(s: string): (r: string)
    ensures |r| <= |s| && r == s[..|r|]
    ensures r == [] || !IsSpace(r[|r| - 1])
    ensures AllSpace(s[|r|..])
  {
    if s != [] && IsSpace(s[|s| - 1]) then RStrip(s[..|s| - 1]) else s
  }

  /** `s.strip()`. */
  function Strip(s: string): (r: string)
    ensures r == [] || (!IsSpace(r[0]) && !IsSpace(r[|r| - 1]))
    ensures |r| <= |s|
  {
    LStrip(RStrip(s))
  }

  lemma StripEmptyIffAllSpace(s: string)
    ensures Strip(s) == [] <==> AllSpace(s)
  {
    var r := RStrip(s);
    var t := LStrip(r);
    if t == [] {
      assert r == [] by { assert r[..|r|] == r; }
      forall i | 0 <= i < |s|
        ensures IsSpace(s[i])
      {
        assert s[i] == s[|r|..][i];
      }
    } else {
      var k := |r| - |t|;
      assert t[0] == r[k];
      assert s[k] == r[k];
      assert !IsSpace(s[k]);
    }
  }

  lemma StripKeeps(s: string)
    requires s != [] && !IsSpace(s[0]) && !IsSpace(s[|s| - 1])
    ensures Strip(s) == s
  {
    assert RStrip(s) == s;
  }

  /** `s.lstrip(c)` for one character `c`. */
  function LStripChar(s: string, c: char): (r: string)
    ensures |r| <= |s| && r == s[|s| - |r|..]
    ensures r == [] || r[0] != c
    ensures forall i :: 0 <= i < |s| - |r| ==> s[i] == c
  {
    if s != [] && s[0] == c then LStripChar(s[1..], c) else s
  }

  function Concat(parts: seq<string>): string {
    if parts == [] then "" else parts[0] + Concat(parts[1..])
  }

  lemma ConcatCons(h: string, t: seq<string>)
    ensures Concat([h] + t) == h + Concat(t)
  {
    assert ([h] + t)[0] == h && ([h] + t)[1..] == t;
  }

  lemma ConcatAppend(a: seq<string>, b: seq<string>)
    ensures Concat(a + b) == Concat(a) + Concat(b)
  {
    if a != [] {
      assert (a + b)[0] == a[0];
      assert (a + b)[1..] == a[1..] + b;
      ConcatAppend(a[1..], b);
    } else {
      assert a + b == b;
    }
  }

  lemma AppendAssoc<T>(a: seq<T>, b: seq<T>, c: seq<T>)
    ensures a + (b + c) == (a + b) + c
  {
  }

  /** `s` ends with `t`. */
  ghost predicate EndsWith<T>(s: seq<T>, t: seq<T>) {
    |t| <= |s| && s[|s| - |t|..] == t
  }

  /** Where the parts of a three-part concatenation sit. */
  lemma ThreeParts<T>(a: seq<T>, b: seq<T>, c: seq<T>)
    ensures a <= a + b + c && a + b <= a + b + c
    ensures |a| + |c| <= |a + b + c| && EndsWith(a + b + c, c)
  {
    assert (a + b + c)[..|a|] == a;
    assert (a + b + c)[..|a + b|] == a + b;
  }

  /** `sep.join(parts)`. */
  function Join(sep: string, parts: seq<string>): string {
    if parts == [] then ""
    else if |parts| == 1 then parts[0]
    else parts[0] + sep + Join(sep, parts[1..])
  }

  /** `s.replace(c, repl)` for a one-character pattern `c`. */
  function ReplaceChar(s: string, c: char, repl: string): (r: string)
    ensures c !in repl ==> c !in r
  {
    if s == [] then ""
    else (if s[0] == c then repl else [s[0]]) + ReplaceChar(s[1..], c, repl)
  }

  /** Replacing `c` neither adds nor removes any character that is neither
      `c` nor part of the replacement. */
  lemma {:induction false} ReplaceKeeps(s: string, c: char, repl: string, d: char)
    requires d != c && d !in repl
    ensures d in ReplaceChar(s, c, repl) <==> d in s
    decreases |s|
  {
    if s != [] {
      ReplaceKeeps(s[1..], c, repl, d);
      assert s == [s[0]] + s[1..];
    }
  }

  /** Replacing a character works piece by piece. */
  lemma {:induction false} ReplaceConcat(a: string, b: string, c: char, repl: string)
    ensures ReplaceChar(a + b, c, repl) == ReplaceChar(a, c, repl) + ReplaceChar(b, c, repl)
    decreases |a|
  {
    if a != [] {
      ReplaceConcat(a[1..], b, c, repl);
      var head := if a[0] == c then repl else [a[0]];
      assert (a + b)[0] == a[0] && (a + b)[1..] == a[1..] + b;
      assert ReplaceChar(a + b, c, repl) == head + ReplaceChar(a[1..] + b, c, repl);
      assert ReplaceChar(a, c, repl) == head + ReplaceChar(a[1..], c, repl);
    } else {
      assert a + b == b;
    }
  }

  function CountChar(s: string, c: char): nat {
    if s == [] then 0 else (if s[0] == c then 1 else 0) + CountChar(s[1..], c)
  }

  /** Python's `<=` on `str`: code-point lexicographic order. */
  predicate LexLe(a: string, b: string) {
    if a == [] then true
    else if b == [] then false
    else if a[0] != b[0] then a[0] < b[0]
    else LexLe(a[1..], b[1..])
  }

  lemma {:induction false} LexLeTotal(a: string, b: string)
    ensures LexLe(a, b) || LexLe(b, a)
  {
    if a != [] && b != [] && a[0] == b[0] {
      LexLeTotal(a[1..], b[1..]);
    }
  }

  lemma {:induction false} LexLeTransitive(a: string, b: string, c: string)
    requires LexLe(a, b) && LexLe(b, c)
    ensures LexLe(a, c)
  {
    if a != [] && b != [] && c != [] && a[0] == b[0] && b[0] == c[0] {
      LexLeTransitive(a[1..], b[1..], c[1..]);
    }
  }

  /** `"%Ns" % s`: right-justified in a field of width `w`. */
  function RJust(s: string, w: nat): (r: string)
    ensures |r| == if |s| < w then w else |s|
    ensures r[|r| - |s|..] == s
    ensures forall i :: 0 <= i < |r| - |s| ==> r[i] == ' '
  {
    if |s| < w then seq(w - |s|, _ => ' ') + s else s
  }
}

=== FILE: catalogue.dfy ===
/** The lazy compound catalogue: each index entry (`compound`) resolves its
    definition on first use and caches it.  Reading a compound's XML file is
    replaced by a store mapping identifiers to compounddef elements. */
module Catalogue {
  import opened Base
  import opened Nodes

  /** An index entry: the compound's identifier and the cached definition
      (`cdef`, None until the first `element()` call). */
  datatype Compound = Compound(refid: string, cdef: Option<Node>)

  /** What `parse_compound` can read: the compounddef element for every
      identifier whose file exists (the sentinel when that file holds no
      compounddef with the identifier).  A missing identifier stands for
      an unreadable file. */
  type Store = map<string, Node>

  datatype LoadError = Unreadable(id: string)

  /** The outcome of one `element()` call: the value (or the error it
      raised), the entry afterwards, and how many parses it performed. */
  datatype Resolution = Resolution(result: Result<Node, LoadError>, next: Compound, loads: nat)

  /** `compound.element()`. */
  function Resolve(c: Compound, store: Store): (r: Resolution)
    ensures r.loads <= 1
    ensures r.loads == 0 <==> c.cdef.Some?
    ensures c.cdef.Some? ==> r.result == Ok(c.cdef.value) && r.next == c
    ensures r.next.refid == c.refid
    ensures r.result.Ok? ==> r.next.cdef == Some(r.result.value)
    ensures r.result.Err? ==> r.next == c && c.refid !in store
  {
    match c.cdef
    case Some(d) => Resolution(Ok(d), c, 0)
    case None =>
      if c.refid in store then
        var d := store[c.refid];
        Resolution(Ok(d), c.(cdef := Some(d)), 1)
      else Resolution(Err(Unreadable(c.refid)), c, 1)
  }

  /** The value `element()` settles on: the cached one, else the store's. */
  function Settled(c: Compound, store: Store): Node
    requires c.cdef.Some? || c.refid in store
  {
    if c.cdef.Some? then c.cdef.value else store[c.refid]
  }

  datatype Calls = Calls(results: seq<Result<Node, LoadError>>, last: Compound, loads: nat)

  /** `k` successive `element()` calls on one entry, threading its cache. */
  function ResolveTimes(c: Compound, store: Store, k: nat): (r: Calls)
    ensures |r.results| == k
    ensures r.last.refid == c.refid
    decreases k
  {
    if k == 0 then Calls([], c, 0)
    else
      var first := Resolve(c, store);
      var rest := ResolveTimes(first.next, store, k - 1);
      Calls([first.result] + rest.results, rest.last, first.loads + rest.loads)
  }

  /** Once cached, an entry is never parsed again and keeps answering with
      the cached value. */
  lemma {:induction false} CachedNeverLoads(c: Compound, store: Store, k: nat)
    requires c.cdef.Some?
    ensures ResolveTimes(c, store, k).loads == 0
    ensures ResolveTimes(c, store, k).last == c
    ensures forall i :: 0 <= i < k ==> ResolveTimes(c, store, k).results[i] == Ok(c.cdef.value)
  {
    if k > 0 {
      CachedNeverLoads(c, store, k - 1);
    }
  }

  /** However often `element()` is called, the compound is parsed at most
      once and every call returns the same definition. */
  lemma {:induction false} ParsedAtMostOnce(c: Compound, store: Store, k: nat)
    requires c.cdef.Some? || c.refid in store
    ensures ResolveTimes(c, store, k).loads <= 1
    ensures forall i :: 0 <= i < k ==> ResolveTimes(c, store, k).results[i] == Ok(Settled(c, store))
  {
    if k > 0 {
      var first := Resolve(c, store);
      CachedNeverLoads(first.next, store, k - 1);
      var r := ResolveTimes(c, store, k);
      forall i | 0 <= i < k
        ensures r.results[i] == Ok(Settled(c, store))
      {
        if i > 0 {
          assert r.results[i] == ResolveTimes(first.next, store, k - 1).results[i - 1];
        }
      }
    }
  }

  /** `parser.__init__` without the file: every listed identifier gets an
      entry whose definition is not yet resolved. */
  function Index(ids: seq<string>): (m: map<string, Compound>)
    ensures m.Keys == set i | i in ids
    ensures forall id :: id in m ==> m[id] == Compound(id, None)
  {
    map id | id in ids :: Compound(id, None)
  }
}

=== FILE: config.dfy ===
/** The Doxyfile reader of the override tool (`readconf`) and the output
    switches it forces before running doxygen.  Reading a file is replaced
    by the sequence of its lines. */
module Config {
  import opened Base

  type Conf = map<string, string>

  /** The dictionary built so far and the pending continuation (`cont`). */
  datatype Reader = Reader(conf: Conf, cont: string)

  const Fresh: Reader := Reader(map[], "")

  /** The first occurrence of `c`. */
  function IndexOf(s: string, c: char): (r: Option<nat>)
    ensures r.Some? ==> r.value < |s| && s[r.value] == c && c !in s[..r.value]
    ensures r.None? ==> c !in s
  {
    if s == [] then None
    else if s[0] == c then Some(0)
    else match IndexOf(s[1..], c)
      case None => None
      case Some(i) =>
        assert s[..i + 1] == [s[0]] + s[1..][..i];
        Some(i + 1)
  }

  /** `line.split("=", 2)` yields two parts exactly when the line holds one
      `=`; this is its index. */
  function OnlyEq(s: string): (r: Option<nat>)
    ensures r.Some? ==> (r.value < |s| && s[r.value] == '='
      && '=' !in s[..r.value] && '=' !in s[r.value + 1..])
  {
    match IndexOf(s, '=')
    case None => None
    case Some(i) => if '=' in s[i + 1..] then None else Some(i)
  }

  lemma {:induction false} CountZero(s: string, c: char)
    ensures CountChar(s, c) == 0 <==> c !in s
    decreases |s|
  {
    if s != [] {
      CountZero(s[1..], c);
      assert s == [s[0]] + s[1..];
    }
  }

  lemma {:induction false} CountAppend(a: string, b: string, c: char)
    ensures CountChar(a + b, c) == CountChar(a, c) + CountChar(b, c)
    decreases |a|
  {
    if a == [] {
      assert a + b == b;
    } else {
      assert (a + b)[1..] == a[1..] + b;
      CountAppend(a[1..], b, c);
    }
  }

  /** `line.split("=", 2)` has two parts exactly when the line holds exactly
      one `=`. */
  lemma OnlyEqIffOne(s: string)
    ensures OnlyEq(s).Some? <==> CountChar(s, '=') == 1
  {
    match IndexOf(s, '=')
    case None =>
      CountZero(s, '=');
    case Some(i) =>
      var pre, post := s[..i], s[i + 1..];
      assert s == pre + ([s[i]] + post);
      CountAppend(pre, [s[i]] + post, '=');
      CountAppend([s[i]], post, '=');
      CountZero(pre, '=');
      CountZero(post, '=');
      assert CountChar([s[i]], '=') == 1;
  }

  /** What an assignment line says: the key (less a trailing `+`) and the
      value, both stripped, and whether it was `+=`. */
  datatype Setting = Setting(key: string, append: bool, value: string)

  /** Whether the text left of the `=` ends with `+`. */
  predicate Appends(lhs: string) {
    lhs != [] && lhs[|lhs| - 1] == '+'
  }

  /** The text left of the `=`, less a trailing `+`. */
  function KeyText(lhs: string): (r: string)
    ensures |r| <= |lhs| && r == lhs[..|r|]
  {
    if Appends(lhs) then lhs[..|lhs| - 1] else lhs
  }

  /** The line split at its only `=`, or None when it does not hold
      exactly one. */
  function Parse(line: string): Option<Setting> {
    match OnlyEq(line)
    case None => None
    case Some(i) => Some(Setting(Strip(KeyText(line[..i])), Appends(line[..i]), Strip(line[i + 1..])))
  }

  /** A setting applied to the dictionary: with `+=` the value is appended
      to a non-empty previous one after a space. */
  function Apply(conf: Conf, s: Setting): (r: Conf)
    ensures r.Keys == conf.Keys + {s.key}
    ensures forall k :: k in conf && k != s.key ==> r[k] == conf[k]
    ensures s.append && s.key in conf && conf[s.key] != "" ==> r[s.key] == conf[s.key] + " " + s.value
    ensures !(s.append && s.key in conf && conf[s.key] != "") ==> r[s.key] == s.value
  {
    var prev := if s.key in conf then conf[s.key] else "";
    conf[s.key := if s.append && prev != "" then prev + " " + s.value else s.value]
  }

  /** A complete (joined, stripped) line applied to the dictionary; a line
      without exactly one `=` changes nothing. */
  function Assign(conf: Conf, line: string): Conf {
    match Parse(line)
    case None => conf
    case Some(s) => Apply(conf, s)
  }

  /** One iteration of the `readconf` loop. */
  function Step(r: Reader, raw: string): (r': Reader)
    ensures Strip(raw) == "" ==> r' == r
    ensures r'.conf == r.conf || r'.conf == Assign(r.conf, r.cont + Strip(raw))
  {
    var line := Strip(raw);
    if line == "" || line[0] == '#' then r
    else if line[|line| - 1] == '\\' then Reader(r.conf, r.cont + line[..|line| - 1])
    else Reader(Assign(r.conf, r.cont + line), "")
  }

  function Fold(r: Reader, lines: seq<string>): Reader
    decreases |lines|
  {
    if lines == [] then r else Fold(Step(r, lines[0]), lines[1..])
  }

  /** `readconf`: a continuation still pending at the end is dropped. */
  function ReadConf(lines: seq<string>): Conf {
    Fold(Fresh, lines).conf
  }

  // ----- properties -----

  lemma {:induction false} FoldAppend(r: Reader, xs: seq<string>, ys: seq<string>)
    ensures Fold(r, xs + ys) == Fold(Fold(r, xs), ys)
    decreases |xs|
  {
    if xs == [] {
      assert xs + ys == ys;
    } else {
      assert (xs + ys)[0] == xs[0];
      assert (xs + ys)[1..] == xs[1..] + ys;
      FoldAppend(Step(r, xs[0]), xs[1..], ys);
    }
  }

  /** Blank lines and comments are skipped, even inside a continuation. */
  lemma CommentSkipped(r: Reader, raw: string)
    requires Strip(raw) != [] && Strip(raw)[0] == '#'
    ensures Step(r, raw) == r
  {
  }

  /** A line ending with a backslash is only remembered; if nothing
      follows, it is lost. */
  lemma DanglingContinuationDropped(lines: seq<string>, last: string)
    requires Strip(last) != [] && Strip(last)[|Strip(last)| - 1] == '\\'
    ensures ReadConf(lines + [last]) == ReadConf(lines)
  {
    FoldAppend(Fresh, lines, [last]);
    assert Fold(Fold(Fresh, lines), [last]) == Step(Fold(Fresh, lines), last);
  }

  /** A line with no `=` or with more than one clears the continuation and
      leaves the dictionary alone. */
  lemma MalformedLineIgnored(r: Reader, raw: string)
    requires var line := Strip(raw); line != [] && line[0] != '#' && line[|line| - 1] != '\\'
    requires OnlyEq(r.cont + Strip(raw)).None?
    ensures Step(r, raw) == Reader(r.conf, "")
  {
  }

  /** A line ending with a backslash extends the continuation. */
  lemma StepContinues(r: Reader, raw: string)
    requires var line := Strip(raw); line != [] && line[0] != '#' && line[|line| - 1] == '\\'
    ensures var line := Strip(raw); Step(r, raw) == Reader(r.conf, r.cont + line[..|line| - 1])
  {
  }

  /** The pending text followed by a stripped line is itself stripped and
      ends as that line does. */
  lemma JoinedShape(c: string, sb: string)
    requires c == [] || (!IsSpace(c[0]) && c[0] != '#')
    requires sb != [] && sb[0] != '#' && Strip(sb) == sb
    ensures var j := c + sb; Strip(j) == j && j[0] != '#' && j[|j| - 1] == sb[|sb| - 1]
    ensures (c + sb)[..|c + sb| - 1] == c + sb[..|sb| - 1]
  {
    var j := c + sb;
    if c == [] {
      assert j == sb;
    } else {
      assert j[0] == c[0];
      StripKeeps(j);
    }
  }

  /** The pending text joined to a stripped line. */
  lemma JoinedLine(c: string, b: string)
    requires c == [] || (!IsSpace(c[0]) && c[0] != '#')
    requires var sb := Strip(b); sb != [] && sb[0] != '#'
    ensures var j := c + Strip(b); Strip(j) == j && j[0] != '#' && j[|j| - 1] == Strip(b)[|Strip(b)| - 1]
    ensures var j := c + Strip(b); j[..|j| - 1] == c + Strip(b)[..|Strip(b)| - 1]
  {
    StripIdempotent(b);
    JoinedShape(c, Strip(b));
  }

  /** Reading a line with pending text `c` is reading `c` joined to it. */
  lemma StepJoins(conf: Conf, c: string, b: string)
    requires c == [] || (!IsSpace(c[0]) && c[0] != '#')
    requires var sb := Strip(b); sb != [] && sb[0] != '#'
    ensures Step(Reader(conf, c), b) == Step(Reader(conf, ""), c + Strip(b))
  {
    var sb := Strip(b);
    JoinedLine(c, b);
    if sb[|sb| - 1] == '\\' {
      JoinContinued(conf, c, b);
    } else {
      JoinCompleted(conf, c, b);
    }
  }

  lemma JoinContinued(conf: Conf, c: string, b: string)
    requires var sb := Strip(b); sb != [] && sb[0] != '#' && sb[|sb| - 1] == '\\'
    requires var j := c + Strip(b); Strip(j) == j && j[0] != '#' && j[|j| - 1] == '\\'
    requires var j := c + Strip(b); j[..|j| - 1] == c + Strip(b)[..|Strip(b)| - 1]
    ensures Step(Reader(conf, c), b) == Step(Reader(conf, ""), c + Strip(b))
  {
    var sb := Strip(b);
    var j := c + sb;
    assert Step(Reader(conf, c), b) == Reader(conf, c + sb[..|sb| - 1]) by {
      StepContinues(Reader(conf, c), b);
    }
    assert Step(Reader(conf, ""), j) == Reader(conf, j[..|j| - 1]) by {
      FreshContinues(conf, j);
    }
  }

  /** With nothing pending, a stripped line ending in a backslash becomes
      the pending text. */
  lemma FreshContinues(conf: Conf, j: string)
    requires Strip(j) == j && j != [] && j[0] != '#' && j[|j| - 1] == '\\'
    ensures Step(Reader(conf, ""), j) == Reader(conf, j[..|j| - 1])
  {
    StepContinues(Reader(conf, ""), j);
    assert "" + j[..|j| - 1] == j[..|j| - 1];
  }

  lemma JoinCompleted(conf: Conf, c: string, b: string)
    requires var sb := Strip(b); sb != [] && sb[0] != '#' && sb[|sb| - 1] != '\\'
    requires var j := c + Strip(b); Strip(j) == j && j[0] != '#' && j[|j| - 1] != '\\'
    ensures Step(Reader(conf, c), b) == Step(Reader(conf, ""), c + Strip(b))
  {
    var j := c + Strip(b);
    StepCompletes(Reader(conf, c), b);
    StepCompletes(Reader(conf, ""), j);
    assert "" + j == j;
  }

  /** A continued line and the line after it read as the two joined
      (without the backslash) on one line. */
  lemma ContinuationJoins(conf: Conf, a: string, b: string)
    requires var sa := Strip(a); sa != [] && sa[0] != '#' && sa[|sa| - 1] == '\\'
    requires var sb := Strip(b); sb != [] && sb[0] != '#'
    ensures var sa := Strip(a);
      Step(Step(Reader(conf, ""), a), b) == Step(Reader(conf, ""), sa[..|sa| - 1] + Strip(b))
  {
    var sa := Strip(a);
    var c := sa[..|sa| - 1];
    StepContinues(Reader(conf, ""), a);
    assert "" + c == c;
    assert c == [] || c[0] == sa[0];
    StepJoins(conf, c, b);
  }

  /** Stripping adds no character. */
  lemma StripAddsNothing(s: string, c: char)
    requires c !in s
    ensures c !in Strip(s)
  {
  }

  lemma NotInPrefix(s: string, k: nat, c: char)
    requires k <= |s| && c !in s
    ensures c !in s[..k]
  {
  }

  lemma StripIdempotent(s: string)
    ensures Strip(Strip(s)) == Strip(s)
  {
    if Strip(s) != [] {
      StripKeeps(Strip(s));
    }
  }

  /** What every key and value read from a Doxyfile looks like: keys are
      stripped, and neither keys nor values hold `=`. */
  ghost predicate WellFormed(conf: Conf) {
    forall k :: k in conf ==> Strip(k) == k && '=' !in k && '=' !in conf[k]
  }

  lemma ParseWellFormed(line: string)
    requires Parse(line).Some?
    ensures var s := Parse(line).value;
      Strip(s.key) == s.key && '=' !in s.key && '=' !in s.value
  {
    var i := OnlyEq(line).value;
    var lhs := line[..i];
    var base := KeyText(lhs);
    StripIdempotent(base);
    NotInPrefix(lhs, |base|, '=');
    StripAddsNothing(base, '=');
    StripAddsNothing(line[i + 1..], '=');
  }

  lemma AssignKeepsWellFormed(conf: Conf, line: string)
    requires WellFormed(conf)
    ensures WellFormed(Assign(conf, line))
  {
    if Parse(line).Some? {
      var s := Parse(line).value;
      ParseWellFormed(line);
      var r := Apply(conf, s);
      forall k | k in r
        ensures Strip(k) == k && '=' !in k && '=' !in r[k]
      {
        if k == s.key {
          var prev := if s.key in conf then conf[s.key] else "";
          assert '=' !in prev;
          assert '=' !in prev + " " + s.value;
        }
      }
    }
  }

  lemma StepKeepsWellFormed(r: Reader, raw: string)
    requires WellFormed(r.conf)
    ensures WellFormed(Step(r, raw).conf)
  {
    AssignKeepsWellFormed(r.conf, r.cont + Strip(raw));
  }

  lemma {:induction false} FoldKeepsWellFormed(r: Reader, lines: seq<string>)
    requires WellFormed(r.conf)
    ensures WellFormed(Fold(r, lines).conf)
    decreases |lines|
  {
    if lines != [] {
      StepKeepsWellFormed(r, lines[0]);
      FoldKeepsWellFormed(Step(r, lines[0]), lines[1..]);
    }
  }

  lemma ReadConfWellFormed(lines: seq<string>)
    ensures WellFormed(ReadConf(lines))
  {
    FoldKeepsWellFormed(Fresh, lines);
  }

  /** An assignment line `key = value` or `key += value`, already free of
      surrounding whitespace. */
  predicate AssignmentLine(key: string, op: string, value: string) {
    && (op == "=" || op == "+=")
    && key != [] && !IsSpace(key[0]) && key[0] != '#' && key[|key| - 1] != '+'
    && '=' !in key && '=' !in value
    && (value == [] || (!IsSpace(value[|value| - 1]) && value[|value| - 1] != '\\'))
  }

  lemma {:induction false} IndexOfAt(s: string, i: nat, c: char)
    requires i < |s| && s[i] == c && c !in s[..i]
    ensures IndexOf(s, c) == Some(i)
    decreases i
  {
    if i > 0 {
      assert s[0] == s[..i][0];
      assert s[1..][..i - 1] == s[1..i];
      assert forall m :: 0 <= m < i - 1 ==> s[1..i][m] == s[..i][m + 1];
      IndexOfAt(s[1..], i - 1, c);
    }
  }

  lemma AssignmentStripped(key: string, op: string, value: string)
    requires AssignmentLine(key, op, value)
    ensures var line := key + op + value;
      && Strip(line) == line && line != [] && line[0] != '#' && line[|line| - 1] != '\\'
  {
    var line := key + op + value;
    assert line[0] == key[0];
    assert line[|line| - 1] == if value == [] then '=' else value[|value| - 1];
    StripKeeps(line);
  }

  /** A line with one `=` parses into its two sides. */
  lemma ParseSides(lhs: string, value: string)
    requires '=' !in lhs && '=' !in value
    ensures Parse(lhs + "=" + value) == Some(Setting(Strip(KeyText(lhs)), Appends(lhs), Strip(value)))
  {
    var line := lhs + "=" + value;
    OnlyEqAt(lhs, value);
    assert line[..|lhs|] == lhs;
    assert line[|lhs| + 1..] == value;
  }

  /** The `=` between the sides is the only one. */
  lemma OnlyEqAt(lhs: string, value: string)
    requires '=' !in lhs && '=' !in value
    ensures OnlyEq(lhs + "=" + value) == Some(|lhs|)
  {
    var line := lhs + "=" + value;
    assert line[..|lhs|] == lhs;
    assert line[|lhs| + 1..] == value;
    IndexOfAt(line, |lhs|, '=');
  }

  lemma ParseAssignment(key: string, op: string, value: string)
    requires AssignmentLine(key, op, value)
    ensures Parse(key + op + value) == Some(Setting(Strip(key), op == "+=", Strip(value)))
  {
    var lhs := key + op[..|op| - 1];
    assert key + op + value == lhs + "=" + value;
    assert '=' !in lhs;
    ParseSides(lhs, value);
    KeyTextOf(key, op);
  }

  lemma KeyTextOf(key: string, op: string)
    requires op == "=" || op == "+="
    requires key != [] && key[|key| - 1] != '+'
    ensures KeyText(key + op[..|op| - 1]) == key
    ensures Appends(key + op[..|op| - 1]) <==> op == "+="
  {
    if op == "+=" {
      assert key + op[..|op| - 1] == key + "+";
    } else {
      assert key + op[..|op| - 1] == key;
    }
  }

  /** A line that neither is blank, a comment nor continues completes the
      pending continuation. */
  lemma StepCompletes(r: Reader, raw: string)
    requires var line := Strip(raw); line != [] && line[0] != '#' && line[|line| - 1] != '\\'
    ensures Step(r, raw) == Reader(Assign(r.conf, r.cont + Strip(raw)), "")
  {
  }

  /** A complete line that parses applies its setting and clears the
      continuation. */
  lemma StepApplies(conf: Conf, line: string, s: Setting)
    requires Strip(line) == line && line != [] && line[0] != '#' && line[|line| - 1] != '\\'
    requires Parse(line) == Some(s)
    ensures Step(Reader(conf, ""), line) == Reader(Apply(conf, s), "")
  {
    StepFromEmpty(conf, line);
    AssignParsed(conf, line, s);
  }

  lemma StepFromEmpty(conf: Conf, line: string)
    requires Strip(line) == line && line != [] && line[0] != '#' && line[|line| - 1] != '\\'
    ensures Step(Reader(conf, ""), line) == Reader(Assign(conf, line), "")
  {
    StepCompletes(Reader(conf, ""), line);
    assert "" + Strip(line) == line;
  }

  lemma AssignParsed(conf: Conf, line: string, s: Setting)
    requires Parse(line) == Some(s)
    ensures Assign(conf, line) == Apply(conf, s)
  {
  }

  /** An assignment line sets its stripped key from its stripped value,
      appending when the operator is `+=`. */
  lemma AssignmentApplies(conf: Conf, key: string, op: string, value: string)
    requires AssignmentLine(key, op, value)
    ensures Step(Reader(conf, ""), key + op + value)
      == Reader(Apply(conf, Setting(Strip(key), op == "+=", Strip(value))), "")
  {
    AssignmentStripped(key, op, value);
    ParseAssignment(key, op, value);
    StepApplies(conf, key + op + value, Setting(Strip(key), op == "+=", Strip(value)));
  }

  /** A plain assignment overwrites: the (stripped) key now maps to the
      (stripped) value, whatever it held before, and nothing else changes. */
  lemma AssignmentOverwrites(conf: Conf, key: string, value: string)
    requires AssignmentLine(key, "=", value)
    ensures Step(Reader(conf, ""), key + "=" + value) == Reader(conf[Strip(key) := Strip(value)], "")
  {
    AssignmentApplies(conf, key, "=", value);
  }

  // ----- the forced output switches -----

  predicate Generates(k: string) {
    |k| >= 9 && k[..9] == "GENERATE_"
  }

  /** `run()`: every `GENERATE_` switch off, then HTML and LaTeX off and
      XML on, so that doxygen produces exactly the XML output. */
  function ForceXml(conf: Conf): (r: Conf)
    ensures r.Keys == conf.Keys + {"GENERATE_HTML", "GENERATE_LATEX", "GENERATE_XML"}
  {
    var off := map k | k in conf :: if Generates(k) then "NO" else conf[k];
    off["GENERATE_HTML" := "NO"]["GENERATE_LATEX" := "NO"]["GENERATE_XML" := "YES"]
  }

  /** Pointwise: XML on, every other `GENERATE_` switch off, every other
      setting as read. */
  lemma ForceXmlPointwise(conf: Conf, k: string)
    requires k in ForceXml(conf)
    ensures k == "GENERATE_XML" ==> ForceXml(conf)[k] == "YES"
    ensures k != "GENERATE_XML" && Generates(k) ==> ForceXml(conf)[k] == "NO"
    ensures !Generates(k) ==> k in conf && ForceXml(conf)[k] == conf[k]
  {
    assert Generates("GENERATE_HTML") && Generates("GENERATE_LATEX") && Generates("GENERATE_XML");
  }

  lemma ForceXmlIdempotent(conf: Conf)
    ensures ForceXml(ForceXml(conf)) == ForceXml(conf)
  {
    var once := ForceXml(conf);
    forall k | k in once
      ensures ForceXml(once)[k] == once[k]
    {
      ForceXmlPointwise(conf, k);
      ForceXmlPointwise(once, k);
    }
  }
}

=== FILE: fmtformat.dfy ===
/** The whitespace-stripping formatter (`doxyfmt`): the same depth-first
    walk over file, struct and union compounds as the other formatter, but
    every section is shown (none is skipped, nothing is sorted), typedefs
    leave only their events, anonymous names are spelled out, and the
    innerclass section is appended on every visit. */
module FmtFormat {
  import opened Base
  import opened Nodes
  import opened TextMap
  import opened Hooks

  datatype Settings = Settings(escape: string -> string, copytext: string)

  // ----- hooks -----

  /** `__name(kind, text, desc)`: nothing for an empty name; an anonymous
      name becomes "anonymous <kind>", any other is passed as it is. */
  function NameCall(kind: string, text: string, desc: Node): (r: seq<Hook>)
    ensures r == [] <==> text == ""
    ensures |r| <= 1 && forall h :: h in r ==> h.Name? && h.kind == kind && h.desc == desc
    ensures text != "" && !IsAnonymous(text) ==> r == [Name(kind, text, desc)]
  {
    if text == "" then []
    else [Name(kind, if IsAnonymous(text) then "anonymous " + kind else text, desc)]
  }

  /** Every anonymous entity of a kind gets the same name ... */
  lemma AnonymousNamed(kind: string, text: string, desc: Node)
    requires IsAnonymous(text)
    ensures NameCall(kind, text, desc) == [Name(kind, "anonymous " + kind, desc)]
  {
  }

  /** ... while distinct real names stay distinct. */
  lemma NamesDistinct(kind: string, a: string, b: string, desc: Node)
    requires a != "" && b != "" && !IsAnonymous(a) && !IsAnonymous(b) && a != b
    ensures NameCall(kind, a, desc) != NameCall(kind, b, desc)
  {
    assert NameCall(kind, a, desc)[0].text == a;
    assert NameCall(kind, b, desc)[0].text == b;
  }

  /** The stripped text a description shows, through the formatter's
      escape, without parameter lists and copyright paragraphs. */
  function DescribedText(s: Settings, n: Node): string {
    Maptext(n, StripAll, Some(s.escape), map[], map[], DescriptionFilter)
  }

  /** The description hook itself: only when the filtered text is not empty
      (its pieces are stripped already, so no further strip). */
  function DescriptionCall(s: Settings, n: Node): (r: seq<Hook>)
    ensures r == [] || r == [Description(n)]
    ensures r != [] <==> DescribedText(s, n) != ""
  {
    if DescribedText(s, n) != "" then [Description(n)] else []
  }

  /** `__description(elem)`: for an element with text, its parameter list
      and return section (each when it has text), then the description. */
  function DescriptionCalls(s: Settings, n: Node): (r: seq<Hook>)
    ensures Trimmed(n) == "" ==> r == []
    ensures |r| <= 3
  {
    if Trimmed(n) == "" then []
    else ParametersCall(n) + ReturnsCall(n) + DescriptionCall(s, n)
  }

  lemma DescriptionCallsParts(s: Settings, n: Node)
    ensures DescriptionCalls(s, n)
      == if Trimmed(n) != "" then ParametersCall(n) + ReturnsCall(n) + DescriptionCall(s, n) else []
    ensures DescriptionCall(s, n) == [] || DescriptionCall(s, n) == [Description(n)]
    ensures forall x :: x in ParametersCall(n) + ReturnsCall(n) ==> !x.Description?
  {
    var p, q := ParametersCall(n), ReturnsCall(n);
    forall x: Hook | x in p + q
      ensures !x.Description?
    {
      if x !in p {
        assert x in q;
      }
    }
  }

  /** With an identity escape and nothing for the filter to remove, the
      calls end with the description hook exactly when the element has
      text. */
  lemma DescriptionShown(s: Settings, n: Node)
    requires forall x :: s.escape(x) == x
    requires Present(n) && AllKept(DescriptionFilter, n)
    ensures var r := DescriptionCalls(s, n);
      (r != [] && r[|r| - 1] == Description(n)) <==> Trimmed(n) != ""
  {
    DescribedTextIsStripped(s, n);
    StrippedEmptyIffBlank(n);
    StripEmptyIffAllSpace(Text(n));
    DescriptionCallsParts(s, n);
    LastDescribes(Trimmed(n) != "", Description(n), ParametersCall(n) + ReturnsCall(n),
                  DescriptionCall(s, n), DescriptionCalls(s, n));
  }

  lemma DescribedTextIsStripped(s: Settings, n: Node)
    requires forall x :: s.escape(x) == x
    requires Present(n) && AllKept(DescriptionFilter, n)
    ensures DescribedText(s, n) == StrippedText(n)
  {
    var c := Config(StripAll, s.escape, map[], map[], DescriptionFilter);
    UnusedFilter(c, n);
    PlainStrippedFragments(c.(filter := map[]), n);
    assert Some(s.escape).GetOr(Identity) == s.escape;
  }

  // ----- members -----

  /** The hooks between a member's begin and end events; a typedef has
      none. */
  function MemberCalls(s: Settings, m: Node): (r: Result<seq<Hook>, Error>)
    ensures r.Err? <==> !KnownMember(Attr(m, "kind"))
    ensures r.Err? ==> r.error == Unimplemented(Attr(m, "kind"))
    ensures Attr(m, "kind") == Some("typedef") ==> r == Ok([])
    ensures Attr(m, "kind") == Some("define") ==> Syntax(DefineSyntax(m)) in r.value
  {
    var kind := Attr(m, "kind");
    var brief := Child(m, "briefdescription");
    var detail := DescriptionCalls(s, Child(m, "detaileddescription"));
    if kind == Some("function") then
      Ok(NameCall("function", RawText(m, "name"), brief)
        + SyntaxCall(TrimmedText(m, "definition") + TrimmedText(m, "argsstring")) + detail)
    else if kind == Some("variable") then
      Ok(NameCall("variable", RawText(m, "name"), brief) + SyntaxCall(TrimmedText(m, "definition")) + detail)
    else if kind == Some("enum") then
      var values := Children(m, "enumvalue");
      Ok(NameCall("enum", RawText(m, "name"), brief)
        + (if values != [] then [EnumValues(values)] else []) + detail)
    else if kind == Some("define") then
      Ok(NameCall("define", RawText(m, "name"), brief) + [Syntax(DefineSyntax(m))] + detail)
    else if kind == Some("typedef") then Ok([])
    else Err(Unimplemented(kind))
  }

  /** The name hook of a member, titled by its kind. */
  function MemberName(m: Node): seq<Hook> {
    NameCall(Attr(m, "kind").GetOr(""), RawText(m, "name"), Child(m, "briefdescription"))
  }

  /** A member's hooks other than a typedef's: its name hook first and its
      detailed description last, with what its kind shows in between
      (`FunctionCallsShape` and its neighbours say what that is). */
  lemma MemberCallsShape(s: Settings, m: Node)
    ensures var r := MemberCalls(s, m);
      var detail := DescriptionCalls(s, Child(m, "detaileddescription"));
      r.Ok? && Attr(m, "kind") != Some("typedef") ==>
        MemberName(m) <= r.value && |MemberName(m)| + |detail| <= |r.value| && EndsWith(r.value, detail)
  {
    var kind := Attr(m, "kind");
    if kind == Some("function") {
      FunctionCallsShape(s, m);
    } else if kind == Some("variable") {
      VariableCallsShape(s, m);
    } else if kind == Some("enum") {
      EnumCallsShape(s, m);
    } else if kind == Some("define") {
      DefineCallsShape(s, m);
    }
  }

  /** A function shows its definition followed by its argument list. */
  lemma FunctionCallsShape(s: Settings, m: Node)
    requires Attr(m, "kind") == Some("function")
    ensures var r := MemberCalls(s, m);
      var detail := DescriptionCalls(s, Child(m, "detaileddescription"));
      r.Ok? && MemberName(m) + SyntaxCall(TrimmedText(m, "definition") + TrimmedText(m, "argsstring")) <= r.value &&
      |MemberName(m)| + |detail| <= |r.value| && EndsWith(r.value, detail)
  {
    ThreeParts(MemberName(m), SyntaxCall(TrimmedText(m, "definition") + TrimmedText(m, "argsstring")),
               DescriptionCalls(s, Child(m, "detaileddescription")));
  }

  /** A variable shows its definition. */
  lemma VariableCallsShape(s: Settings, m: Node)
    requires Attr(m, "kind") == Some("variable")
    ensures var r := MemberCalls(s, m);
      var detail := DescriptionCalls(s, Child(m, "detaileddescription"));
      r.Ok? && MemberName(m) + SyntaxCall(TrimmedText(m, "definition")) <= r.value &&
      |MemberName(m)| + |detail| <= |r.value| && EndsWith(r.value, detail)
  {
    KindsDiffer(Attr(m, "kind"));
    ThreeParts(MemberName(m), SyntaxCall(TrimmedText(m, "definition")),
               DescriptionCalls(s, Child(m, "detaileddescription")));
  }

  /** An enum's hooks start with its name hook and end with its detailed
      description. */
  lemma EnumCallsShape(s: Settings, m: Node)
    requires Attr(m, "kind") == Some("enum")
    ensures var r := MemberCalls(s, m);
      var detail := DescriptionCalls(s, Child(m, "detaileddescription"));
      r.Ok? && MemberName(m) <= r.value && |MemberName(m)| + |detail| <= |r.value| && EndsWith(r.value, detail)
  {
    EnumCallsUnfold(s, m);
    EnumParts(MemberCalls(s, m).value, MemberName(m), Children(m, "enumvalue"),
              DescriptionCalls(s, Child(m, "detaileddescription")));
  }

  /** An enum with values shows them right after its name hook. */
  lemma EnumValuesShown(s: Settings, m: Node)
    requires Attr(m, "kind") == Some("enum") && Children(m, "enumvalue") != []
    ensures var r := MemberCalls(s, m);
      r.Ok? && MemberName(m) + [EnumValues(Children(m, "enumvalue"))] <= r.value
  {
    EnumCallsUnfold(s, m);
    EnumParts(MemberCalls(s, m).value, MemberName(m), Children(m, "enumvalue"),
              DescriptionCalls(s, Child(m, "detaileddescription")));
  }

  /** An enum without values shows nothing between its name hook and its
      description: with `EnumCallsShape`'s prefix and suffix, the length
      leaves no room. */
  lemma EnumWithoutValues(s: Settings, m: Node)
    requires Attr(m, "kind") == Some("enum") && Children(m, "enumvalue") == []
    ensures var r := MemberCalls(s, m);
      r.Ok? && |r.value| == |MemberName(m)| + |DescriptionCalls(s, Child(m, "detaileddescription"))|
  {
    EnumCallsUnfold(s, m);
    EnumParts(MemberCalls(s, m).value, MemberName(m), Children(m, "enumvalue"),
              DescriptionCalls(s, Child(m, "detaileddescription")));
  }

  lemma EnumCallsUnfold(s: Settings, m: Node)
    requires Attr(m, "kind") == Some("enum")
    ensures MemberCalls(s, m) == Ok(MemberName(m)
      + (if Children(m, "enumvalue") != [] then [EnumValues(Children(m, "enumvalue"))] else [])
      + DescriptionCalls(s, Child(m, "detaileddescription")))
  {
    var kind := Attr(m, "kind");
    KindsDiffer(kind);
    var values := Children(m, "enumvalue");
    var listed := if values != [] then [EnumValues(values)] else [];
    assert MemberCalls(s, m) == Ok(MemberName(m) + listed + DescriptionCalls(s, Child(m, "detaileddescription")));
  }

  /** A macro shows its `#define` line. */
  lemma DefineCallsShape(s: Settings, m: Node)
    requires Attr(m, "kind") == Some("define")
    ensures var r := MemberCalls(s, m);
      var detail := DescriptionCalls(s, Child(m, "detaileddescription"));
      r.Ok? && MemberName(m) + [Syntax(DefineSyntax(m))] <= r.value &&
      |MemberName(m)| + |detail| <= |r.value| && EndsWith(r.value, detail)
  {
    KindsDiffer(Attr(m, "kind"));
    ThreeParts(MemberName(m), [Syntax(DefineSyntax(m))], DescriptionCalls(s, Child(m, "detaileddescription")));
  }

  /** `memberdef(elem)`: the member's hooks between its events. */
  function Memberdef(s: Settings, st: State, m: Node): (r: Result<State, Error>)
    ensures !KnownMember(Attr(m, "kind")) ==> r == Err(Unimplemented(Attr(m, "kind")))
    ensures r.Ok? ==> Enclosed(st, m, r.value)
  {
    match MemberCalls(s, m)
    case Err(e) => Err(e)
    case Ok(hs) => Ok(Enclose(st, m, hs))
  }

  /** A typedef leaves nothing but its two events. */
  lemma TypedefOnlyEvents(s: Settings, st: State, m: Node)
    requires Attr(m, "kind") == Some("typedef")
    ensures Memberdef(s, st, m) == Ok(st.(trace := st.trace + [Event(m, Begin), Event(m, End)]))
  {
    var e := Enclose(st, m, []);
    assert MemberCalls(s, m) == Ok([]);
    assert Memberdef(s, st, m) == Ok(e);
    assert e.trace == st.trace + [Event(m, Begin), Event(m, End)];
    assert e == st.(trace := st.trace + [Event(m, Begin), Event(m, End)]);
  }

  // ----- compounds and sections -----

  /** Moves the compound's `innerclass` children into a new trailing
      `sectiondef` of kind `innerclass`, which is appended even when there
      are none. */
  function Massage(c: Node): (r: Node)
    ensures r.tag == c.tag && r.attrs == c.attrs && r.text == c.text && r.tail == c.tail
    ensures forall k :: k in r.kids ==> k.tag != "innerclass"
    ensures |r.kids| == |Others(c.kids, "innerclass")| + 1
    ensures r.kids[|r.kids| - 1] == InnerSection(Children(c, "innerclass"))
    ensures r.kids[..|r.kids| - 1] == Others(c.kids, "innerclass")
  {
    c.(kids := Others(c.kids, "innerclass") + [InnerSection(Children(c, "innerclass"))])
  }

  function InnerSection(inner: seq<Node>): Node {
    Node("sectiondef", map["kind" := "innerclass"], "", "", inner)
  }

  /** Massaging is not idempotent: every visit adds another section. */
  lemma MassageGrows(c: Node)
    ensures |Massage(Massage(c)).kids| == |Massage(c).kids| + 1
    ensures Massage(Massage(c)) != Massage(c)
  {
    OthersNone(Massage(c).kids, "innerclass");
  }

  /** The appended section is titled "Data Structures" and lists the
      compound's inner compounds. */
  lemma InnerSectionTitled(c: Node)
    ensures var last := Massage(c).kids[|Massage(c).kids| - 1];
      SectionHeading(last) == "Data Structures" && Children(last, "innerclass") == Children(c, "innerclass")
  {
    InnerSectionHeading(Children(c, "innerclass"));
    InnerSectionKids(Children(c, "innerclass"));
  }

  lemma InnerSectionHeading(inner: seq<Node>)
    requires forall i :: 0 <= i < |inner| ==> inner[i].tag == "innerclass"
    ensures SectionHeading(InnerSection(inner)) == "Data Structures"
  {
    InnerSectionHeaderless(inner);
  }

  lemma InnerSectionHeaderless(inner: seq<Node>)
    requires forall i :: 0 <= i < |inner| ==> inner[i].tag == "innerclass"
    ensures TrimmedText(InnerSection(inner), "header") == ""
  {
    InnerSectionKids(inner);
    assert RawText(InnerSection(inner), "header") == "";
  }

  lemma InnerSectionKids(inner: seq<Node>)
    requires forall i :: 0 <= i < |inner| ==> inner[i].tag == "innerclass"
    ensures Children(InnerSection(inner), "header") == []
    ensures Children(InnerSection(inner), "innerclass") == inner
  {
    var last := InnerSection(inner);
    assert forall x :: x in inner ==> x.tag == "innerclass";
    FilterNone(last.kids, ChildPath("header"));
    FilterAll(last.kids, ChildPath("innerclass"));
  }

  lemma {:induction false} FilterAll(s: seq<Node>, p: Path)
    requires p.where.None? && forall x :: x in s ==> x.tag == p.tag
    ensures Filter(s, p) == s
    decreases |s|
  {
    if s != [] {
      assert s[0] in s;
      FilterAll(s[1..], p);
      assert s == [s[0]] + s[1..];
    }
  }

  /** The hooks after a compound's begin event and before its sections. */
  function CompoundHead(s: Settings, stack: seq<Node>, c: Node): seq<Hook> {
    if Attr(c, "kind") == Some("file") then
      HeadingCall(FileTitle(c), stack) + DescriptionCalls(s, Child(c, "briefdescription"))
        + DescriptionCalls(s, Child(c, "detaileddescription"))
    else
      NameCall(Attr(c, "kind").GetOr(""), RawText(c, "compoundname"), Child(c, "briefdescription"))
        + DescriptionCalls(s, Child(c, "detaileddescription"))
  }

  /** The hooks after a compound's sections: a file's copyright notice. */
  function CompoundTail(s: Settings, c: Node): seq<Hook> {
    if Attr(c, "kind") == Some("file") && s.copytext != "" then [Copyright(s.copytext)] else []
  }

  /** The hooks after a section's begin event and before its entries. */
  function SectionHead(s: Settings, stack: seq<Node>, sect: Node): seq<Hook> {
    HeadingCall(SectionHeading(sect), stack) + DescriptionCalls(s, Child(sect, "description"))
  }

  /** The cache after massaging compound `id` once more. */
  function Massaged(st: State, id: string): (r: State)
    requires id in st.store
    ensures Grows(st, r) && r.store == st.store[id := Massage(st.store[id])]
  {
    st.(store := st.store[id := Massage(st.store[id])])
  }

  // ----- the walk -----

  /** A compound looked up by identifier and formatted; each such step
      spends one unit of fuel. */
  function Compound(s: Settings, fuel: nat, st: State, id: Option<string>): (r: Result<State, Error>)
    ensures r.Ok? ==> Grows(st, r.value)
    ensures id.None? || id.value !in st.store ==> r == Err(UnknownRef(id))
    decreases fuel, 0
  {
    if id.None? || id.value !in st.store then Err(UnknownRef(id))
    else if fuel == 0 then Err(Exhausted)
    else Compounddef(s, fuel - 1, st, id.value)
  }

  /** `compounddef(elem)`: the compound is massaged (in the cache, so a
      second visit sees the first one's section), then formatted. */
  function Compounddef(s: Settings, fuel: nat, st: State, id: string): (r: Result<State, Error>)
    requires id in st.store
    ensures r.Ok? ==> Grows(st, r.value)
    ensures !KnownCompound(Attr(st.store[id], "kind")) ==> r == Err(Unimplemented(Attr(st.store[id], "kind")))
    ensures r.Ok? ==> Enclosed(st, Massage(st.store[id]), r.value)
    decreases fuel, 4
  {
    var c := Massage(st.store[id]);
    if !KnownCompound(Attr(c, "kind")) then Err(Unimplemented(Attr(c, "kind")))
    else
      var st0 := Push(Massaged(st, id), c);
      var st1 := Append(st0, CompoundHead(s, st0.stack, c));
      match Sections(s, fuel, st1, Children(c, "sectiondef"))
      case Err(e) => Err(e)
      case Ok(st2) =>
        var st3 := Append(st2, CompoundTail(s, c));
        GrowsTransitive(st0, st1, st2);
        OpenClose(st, Massaged(st, id), c, st3);
        Ok(Pop(st3, c))
  }

  function Sections(s: Settings, fuel: nat, st: State, sects: seq<Node>): (r: Result<State, Error>)
    ensures r.Ok? ==> Grows(st, r.value)
    decreases fuel, 3, |sects|
  {
    if sects == [] then Ok(st)
    else match Sectiondef(s, fuel, st, sects[0])
      case Err(e) => Err(e)
      case Ok(st1) => Sections(s, fuel, st1, sects[1..])
  }

  /** `sectiondef(elem)`: always shown, even with nothing in it: the heading,
      the description, every inner compound in listing order, then every
      member, between the section's events. */
  function Sectiondef(s: Settings, fuel: nat, st: State, sect: Node): (r: Result<State, Error>)
    ensures r.Ok? ==> Enclosed(st, sect, r.value)
    decreases fuel, 2
  {
    var st0 := Push(st, sect);
    var st1 := Append(st0, SectionHead(s, st0.stack, sect));
    match Inners(s, fuel, st1, Children(sect, "innerclass"))
    case Err(e) => Err(e)
    case Ok(st2) =>
      match Members(s, st2, Children(sect, "memberdef"))
      case Err(e) => Err(e)
      case Ok(st3) =>
        GrowsTransitive(st0, st1, st2);
        GrowsTransitive(st0, st2, st3);
        OpenClose(st, st, sect, st3);
        Ok(Pop(st3, sect))
  }

  /** Every inner compound of a section, looked up by its `refid`. */
  function Inners(s: Settings, fuel: nat, st: State, inner: seq<Node>): (r: Result<State, Error>)
    ensures r.Ok? ==> Grows(st, r.value)
    decreases fuel, 1, |inner|
  {
    if inner == [] then Ok(st)
    else match Compound(s, fuel, st, Attr(inner[0], "refid"))
      case Err(e) => Err(e)
      case Ok(st1) => Inners(s, fuel, st1, inner[1..])
  }

  function Members(s: Settings, st: State, ms: seq<Node>): (r: Result<State, Error>)
    ensures r.Ok? ==> Grows(st, r.value)
    ensures ms != [] && !KnownMember(Attr(ms[0], "kind")) ==> r == Err(Unimplemented(Attr(ms[0], "kind")))
    decreases |ms|
  {
    if ms == [] then Ok(st)
    else match Memberdef(s, st, ms[0])
      case Err(e) => Err(e)
      case Ok(st1) => Members(s, st1, ms[1..])
  }

  // ----- properties of the walk -----

  /** Every section is shown, even one with nothing in it: its begin event,
      its heading one level below the enclosing sections, its end event. */
  lemma SectionHeadingLevel(s: Settings, fuel: nat, st: State, sect: Node)
    requires sect.tag == "sectiondef"
    requires Sectiondef(s, fuel, st, sect).Ok?
    ensures SectionShape(st, sect, SectionHeading(sect), Sectiondef(s, fuel, st, sect).value.trace)
  {
    var st2 := SectiondefUnfold(s, fuel, st, sect);
    ShownSectionShape(st, sect, SectionHeading(sect), SectionHead(s, st.stack + [sect], sect), st2.trace);
  }

  lemma SectiondefUnfold(s: Settings, fuel: nat, st: State, sect: Node) returns (st2: State)
    requires Sectiondef(s, fuel, st, sect).Ok?
    ensures Grows(Append(Push(st, sect), SectionHead(s, st.stack + [sect], sect)), st2)
    ensures Sectiondef(s, fuel, st, sect).value == Pop(st2, sect)
  {
    var st0 := Push(st, sect);
    var st1 := Append(st0, SectionHead(s, st0.stack, sect));
    var st3 := Inners(s, fuel, st1, Children(sect, "innerclass")).value;
    st2 := Members(s, st3, Children(sect, "memberdef")).value;
    GrowsTransitive(st1, st3, st2);
  }

  /** A section with neither inner compounds nor members still leaves its
      events and its head. */
  lemma EmptySectionShown(s: Settings, fuel: nat, st: State, sect: Node)
    requires Children(sect, "innerclass") == [] && Children(sect, "memberdef") == []
    ensures var head := SectionHead(s, st.stack + [sect], sect);
      Sectiondef(s, fuel, st, sect).Ok?
      && Sectiondef(s, fuel, st, sect).value.trace
         == st.trace + [Event(sect, Begin)] + head + [Event(sect, End)]
  {
  }

  /** One file compound of `main()`: the output file is announced, then the
      compound is formatted with the copyright text found in it. */
  function FileStep(escape: string -> string, fuel: nat, st: State, id: string, comp: Node): (r: Result<State, Error>)
    ensures r.Ok? ==> Grows(st, r.value)
    ensures r.Ok? ==> |r.value.trace| > |st.trace| && r.value.trace[|st.trace|] == Reset(OutputName(comp))
  {
    var copytext := Trimmed(Find(comp, Path(true, "simplesect", Some(("kind", "copyright")))));
    var st0 := Append(st, [Reset(OutputName(comp))]);
    var r := Compound(Settings(escape, copytext), fuel, st0, Some(id));
    if r.Ok? then
      assert st0.trace <= r.value.trace && r.value.trace[|st.trace|] == st0.trace[|st.trace|];
      r
    else r
  }

  /** `main()` over the index: every file compound, in index order, each
      announced by the name of its output file. */
  function Generate(escape: string -> string, fuel: nat, st: State, ids: seq<string>): (r: Result<State, Error>)
    ensures r.Ok? ==> Grows(st, r.value)
    ensures r.Ok? ==> forall id :: id in ids ==> id in st.store
    decreases |ids|
  {
    if ids == [] then Ok(st)
    else if ids[0] !in st.store then Err(UnknownRef(Some(ids[0])))
    else if Attr(st.store[ids[0]], "kind") != Some("file") then Generate(escape, fuel, st, ids[1..])
    else
      match FileStep(escape, fuel, st, ids[0], st.store[ids[0]])
      case Err(e) => Err(e)
      case Ok(st1) => Generate(escape, fuel, st1, ids[1..])
  }

  /** A formatted compound leaves its begin event and head, then whatever
      its sections add, then its tail and its end event. */
  lemma CompoundShapeOf(s: Settings, fuel: nat, st: State, id: string)
    requires id in st.store
    ensures Compounddef(s, fuel, st, id).Ok? ==>
      var c := Massage(st.store[id]);
      CompoundShape(st, c, CompoundHead(s, st.stack + [c], c), CompoundTail(s, c), Compounddef(s, fuel, st, id).value.trace)
  {
    if Compounddef(s, fuel, st, id).Ok? {
      var c := Massage(st.store[id]);
      var head := CompoundHead(s, st.stack + [c], c);
      var st1 := Append(Push(Massaged(st, id), c), head);
      var rs := Sections(s, fuel, st1, Children(c, "sectiondef"));
      assert rs.Ok?;
      assert st1.trace == st.trace + [Event(c, Begin)] + head;
      ClosedCompoundShape(st, c, head, rs.value.trace, CompoundTail(s, c));
    }
  }

  /** The trace of a formatted file, read against the state before it: its
      begin event, its title heading one level below the compounds around
      it, then its brief and its detailed description, each described on
      its own; last before its end event, the copyright notice when there
      is one. */
  ghost predicate FileShape(s: Settings, st: State, c: Node, t: seq<Hook>) {
    && |t| >= |st.trace| + 2 && t[|t| - 1] == Event(c, End)
    && st.trace + [Event(c, Begin)] + HeadingCall(FileTitle(c), st.stack + [c])
         + DescriptionCalls(s, Child(c, "briefdescription")) + DescriptionCalls(s, Child(c, "detaileddescription")) <= t
    && (FileTitle(c) != "" ==> t[|st.trace| + 1] == Heading(FileTitle(c), Level(st.stack + [c])))
    && (s.copytext != "" ==> t[|t| - 2] == Copyright(s.copytext))
  }

  /** A formatted file compound has the shape of a file. */
  lemma FileCompoundShape(s: Settings, fuel: nat, st: State, id: string)
    requires id in st.store && Attr(st.store[id], "kind") == Some("file")
    ensures Compounddef(s, fuel, st, id).Ok? ==>
      FileShape(s, st, Massage(st.store[id]), Compounddef(s, fuel, st, id).value.trace)
  {
    if Compounddef(s, fuel, st, id).Ok? {
      CompoundShapeOf(s, fuel, st, id);
      FileShapeAt(s, st, Massage(st.store[id]), Compounddef(s, fuel, st, id).value.trace);
    }
  }

  lemma FileShapeAt(s: Settings, st: State, c: Node, t: seq<Hook>)
    requires Attr(c, "kind") == Some("file")
    requires CompoundShape(st, c, CompoundHead(s, st.stack + [c], c), CompoundTail(s, c), t)
    ensures FileShape(s, st, c, t)
  {
    var h := HeadingCall(FileTitle(c), st.stack + [c]);
    var b := DescriptionCalls(s, Child(c, "briefdescription"));
    var d := DescriptionCalls(s, Child(c, "detaileddescription"));
    assert CompoundHead(s, st.stack + [c], c) == h + b + d;
    HeadedShape(st, c, h, b, d, CompoundTail(s, c), t);
  }

  /** The trace of a formatted struct or union, read against the state
      before it: its begin event, its name hook under its own name, then
      its detailed description; its end event last, with no tail before
      it. */
  ghost predicate NamedShape(s: Settings, st: State, c: Node, t: seq<Hook>) {
    && |t| >= |st.trace| + 2 && t[|t| - 1] == Event(c, End)
    && st.trace + [Event(c, Begin)] + NameCall(Attr(c, "kind").GetOr(""), RawText(c, "compoundname"), Child(c, "briefdescription"))
         + DescriptionCalls(s, Child(c, "detaileddescription")) <= t
    && CompoundTail(s, c) == []
  }

  /** A formatted struct or union has the shape of a named compound. */
  lemma NamedCompoundShape(s: Settings, fuel: nat, st: State, id: string)
    requires id in st.store && Attr(st.store[id], "kind") != Some("file")
    ensures Compounddef(s, fuel, st, id).Ok? ==>
      NamedShape(s, st, Massage(st.store[id]), Compounddef(s, fuel, st, id).value.trace)
  {
    if Compounddef(s, fuel, st, id).Ok? {
      CompoundShapeOf(s, fuel, st, id);
      NamedShapeAt(s, st, Massage(st.store[id]), Compounddef(s, fuel, st, id).value.trace);
    }
  }

  lemma NamedShapeAt(s: Settings, st: State, c: Node, t: seq<Hook>)
    requires Attr(c, "kind") != Some("file")
    requires CompoundShape(st, c, CompoundHead(s, st.stack + [c], c), CompoundTail(s, c), t)
    ensures NamedShape(s, st, c, t)
  {
    var n := NameCall(Attr(c, "kind").GetOr(""), RawText(c, "compoundname"), Child(c, "briefdescription"));
    var d := DescriptionCalls(s, Child(c, "detaileddescription"));
    ShapePair(st, c, n, d, CompoundTail(s, c), t);
  }
}

=== FILE: hooks.dfy ===
/** What the two formatters have in common: the override points they call
    (recorded as a trace instead of rendered), the section-depth count that
    sets heading levels, the anonymous-name test, the description filter,
    and the escaping that turns a source path into an output file name. */
module Hooks {
  import opened Base
  import opened Nodes
  import opened TextMap

  datatype Ev = Begin | End

  /** One call of an override point, with its arguments. */
  datatype Hook =
    | Reset(file: string)
    | Heading(text: string, level: nat)
    | Summary(elem: Node)
    | Copyright(text: string)
    | Name(kind: string, text: string, desc: Node)
    | Syntax(text: string)
    | Parameters(elem: Node)
    | Returns(elem: Node)
    | EnumValues(elems: seq<Node>)
    | Description(elem: Node)
    | Event(elem: Node, ev: Ev)

  /** The section titles by section kind; both formatters carry the same
      table, the last entry for the section that gathers inner compounds. */
  const SectionTitles: map<string, string> := map[
    "user-defined" := "", "public-type" := "", "public-func" := "Methods",
    "public-attrib" := "Fields", "public-slot" := "", "signal" := "",
    "dcop-func" := "", "property" := "", "event" := "",
    "public-static-func" := "Static Methods", "public-static-attrib" := "Static Fields",
    "protected-type" := "", "protected-func" := "Protected Methods",
    "protected-attrib" := "Protected Fields", "protected-slot" := "",
    "protected-static-func" := "Protected Static Methods",
    "protected-static-attrib" := "Protected Static Fields",
    "package-type" := "", "package-func" := "Package Methods",
    "package-attrib" := "Package Fields", "package-static-func" := "Package Static Methods",
    "package-static-attrib" := "Package Static Fields", "private-type" := "",
    "private-func" := "Private Methods", "private-attrib" := "Private Fields",
    "private-slot" := "", "private-static-func" := "Private Static Methods",
    "private-static-attrib" := "Private Static Fields", "friend" := "", "related" := "",
    "define" := "Macros", "prototype" := "", "typedef" := "Typedefs", "enum" := "Enums",
    "func" := "Functions", "var" := "", "innerclass" := "Data Structures"]

  /** `table.get(key, "")` for a key that may be missing. */
  function TitleOf(table: map<string, string>, key: Option<string>): string {
    if key.Some? && key.value in table then table[key.value] else ""
  }

  /** A section's heading: its header, else the title of its kind. */
  function SectionHeading(sect: Node): string {
    var header := TrimmedText(sect, "header");
    if header != "" then header else TitleOf(SectionTitles, Attr(sect, "kind"))
  }

  /** The member kinds both formatters handle. */
  predicate KnownMember(kind: Option<string>) {
    kind in {Some("function"), Some("variable"), Some("enum"), Some("typedef"), Some("define")}
  }

  /** The member kinds are different words, so a member takes one branch. */
  lemma KindsDiffer(kind: Option<string>)
    ensures kind == Some("define") ==>
      kind != Some("function") && kind != Some("variable") && kind != Some("typedef") && kind != Some("enum")
    ensures kind == Some("enum") ==> kind != Some("function") && kind != Some("variable") && kind != Some("typedef")
    ensures kind == Some("variable") || kind == Some("typedef") ==> kind != Some("function")
  {
  }

  /** The compound kinds both formatters handle. */
  predicate KnownCompound(kind: Option<string>) {
    kind in {Some("file"), Some("struct"), Some("union")}
  }

  /** `depth(tag)`: how many elements on the stack are called `tag`. */
  function Depth(stack: seq<Node>, tag: string): (r: nat)
    ensures r <= |stack|
  {
    if stack == [] then 0
    else Depth(stack[..|stack| - 1], tag) + (if stack[|stack| - 1].tag == tag then 1 else 0)
  }

  /** The level a heading gets: one more than the enclosing sections. */
  function Level(stack: seq<Node>): nat {
    1 + Depth(stack, "sectiondef")
  }

  lemma DepthPush(stack: seq<Node>, n: Node, tag: string)
    ensures Depth(stack + [n], tag) == Depth(stack, tag) + (if n.tag == tag then 1 else 0)
  {
    assert (stack + [n])[..|stack|] == stack;
  }

  /** `anon_re.match(text)`: an `@` followed by an ASCII digit at the start,
      doxygen's spelling of an unnamed entity. */
  predicate IsAnonymous(text: string) {
    |text| >= 2 && text[0] == '@' && '0' <= text[1] <= '9'
  }

  /** `elem.T`: the element's whole text, stripped. */
  function Trimmed(n: Node): (r: string)
    ensures r == Strip(Text(n))
  {
    TrimmedText(n, "")
  }

  /** `.//parameterlist` and `.//simplesect[@kind='return']`. */
  const ParameterListPath: Path := Path(true, "parameterlist", None)
  const ReturnPath: Path := Path(true, "simplesect", Some(("kind", "return")))

  /** A paragraph is part of a description unless it holds a parameter list
      or a copyright notice as a direct child. */
  predicate ParaKept(p: Node) {
    && Find(p, ChildPath("parameterlist")) == Absent
    && Find(p, Path(false, "simplesect", Some(("kind", "copyright")))) == Absent
  }

  const DescriptionFilter: map<string, Keep> := map["para" := When(ParaKept)]

  /** A paragraph with a parameter list among its children is filtered out
      of a description, together with its tail. */
  lemma ParameterParaFiltered(p: Node)
    requires p.tag == "para"
    requires exists k :: k in p.kids && k.tag == "parameterlist"
    ensures !Kept(DescriptionFilter, p)
  {
    FindIsHeadOfFindAll(p, ChildPath("parameterlist"));
    var k :| k in p.kids && k.tag == "parameterlist";
    assert k in FindAll(p, ChildPath("parameterlist"));
  }

  /** Every other paragraph (and any other element) is kept. */
  lemma PlainParaKept(p: Node)
    requires forall k :: k in p.kids ==> k.tag != "parameterlist" && k.tag != "simplesect"
    ensures Kept(DescriptionFilter, p)
  {
    FindIsHeadOfFindAll(p, ChildPath("parameterlist"));
    FindIsHeadOfFindAll(p, Path(false, "simplesect", Some(("kind", "copyright"))));
  }

  /** The shape shared by both formatters' description calls: a call list
      that ends with the description hook exactly when the element is shown
      and the hook is made, and holds no earlier description hook. */
  lemma LastDescribes(shown: bool, h: Hook, ps: seq<Hook>, d: seq<Hook>, r: seq<Hook>)
    requires h.Description? && forall x :: x in ps ==> !x.Description?
    requires d == [] || d == [h]
    requires r == if shown then ps + d else []
    ensures (r != [] && r[|r| - 1] == h) <==> shown && d != []
    ensures forall i :: 0 <= i < |r| - 1 ==> !r[i].Description?
  {
    if shown {
      if ps != [] {
        assert ps[|ps| - 1] in ps;
      }
      forall i | 0 <= i < |r| - 1
        ensures !r[i].Description?
      {
        assert r[i] == ps[i];
        assert ps[i] in ps;
      }
    }
  }

  // ----- the define syntax line -----

  function TrimmedAll(ns: seq<Node>): (r: seq<string>)
    ensures |r| == |ns|
    ensures forall i :: 0 <= i < |ns| ==> r[i] == Trimmed(ns[i])
  {
    seq(|ns|, i requires 0 <= i < |ns| => Trimmed(ns[i]))
  }

  const DefnamePath: Path := Path(true, "defname", None)

  /** `"#define " + nameT + param`, where `param` lists the parameter names
      in parentheses when the macro has a `param` child. */
  function DefineSyntax(m: Node): (r: string)
    ensures |r| >= 8 + |TrimmedText(m, "name")| && r[..8] == "#define "
    ensures r[8..8 + |TrimmedText(m, "name")|] == TrimmedText(m, "name")
    ensures !Present(Child(m, "param")) <==> |r| == 8 + |TrimmedText(m, "name")|
    ensures Present(Child(m, "param")) ==>
      r[8 + |TrimmedText(m, "name")|..] == "(" + Join(", ", TrimmedAll(FindAll(m, DefnamePath))) + ")"
  {
    var param := if Present(Child(m, "param"))
      then "(" + Join(", ", TrimmedAll(FindAll(m, DefnamePath))) + ")" else "";
    "#define " + TrimmedText(m, "name") + param
  }

  /** `#define N(a, b)`: a macro `N` with parameters `a` and `b`. */
  const DefnameA: Node := Node("defname", map[], "a", "", [])
  const DefnameB: Node := Node("defname", map[], "b", "", [])
  const ParamA: Node := Node("param", map[], "", "", [DefnameA])
  const ParamB: Node := Node("param", map[], "", "", [DefnameB])
  const MacroName: Node := Node("name", map[], "N", "", [])
  const Macro: Node := Node("memberdef", map["kind" := "define"], "", "", [MacroName, ParamA, ParamB])

  lemma MacroSyntax()
    ensures DefineSyntax(Macro) == "#define N(a, b)"
  {
    MacroNameText();
    MacroParams();
    MacroStrings();
  }

  lemma MacroParams()
    ensures Present(Child(Macro, "param"))
    ensures TrimmedAll(FindAll(Macro, DefnamePath)) == ["a", "b"]
  {
    assert Macro.kids[1] == ParamA;
    MacroDefnames();
    LeafTrimmed(DefnameA);
    LeafTrimmed(DefnameB);
    TrimmedPair(DefnameA, DefnameB);
  }

  /** A leaf whose text has no surrounding blanks reads back unchanged. */
  lemma LeafTrimmed(n: Node)
    requires n.kids == [] && n.text != [] && !IsSpace(n.text[0]) && !IsSpace(n.text[|n.text| - 1])
    ensures Trimmed(n) == n.text
  {
    assert Text(n) == n.text;
    StripKeeps(n.text);
  }

  lemma TrimmedPair(a: Node, b: Node)
    ensures TrimmedAll([a, b]) == [Trimmed(a), Trimmed(b)]
  {
    var ns := [a, b];
    var r := TrimmedAll(ns);
    assert ns[0] == a && ns[1] == b;
    PairOf(r, Trimmed(a), Trimmed(b));
  }

  lemma PairOf<T>(r: seq<T>, x: T, y: T)
    requires |r| == 2 && r[0] == x && r[1] == y
    ensures r == [x, y]
  {
  }

  lemma MacroStrings()
    ensures Join(", ", ["a", "b"]) == "a, b"
    ensures "#define " + "N" + ("(" + "a, b" + ")") == "#define N(a, b)"
  {
    assert ["a", "b"][1..] == ["b"];
  }

  lemma MacroNameText()
    ensures TrimmedText(Macro, "name") == "N"
  {
    var namePath := ChildPath("name");
    FirstOfThree(MacroName, ParamA, ParamB, namePath);
    assert Children(Macro, "name") == [MacroName];
    assert Text(MacroName) == "N";
    assert TextOfAll([MacroName]) == "N" by {
      assert [MacroName][1..] == [];
    }
    StripKeeps("N");
  }

  /** Of three elements only the first matches. */
  lemma FirstOfThree(a: Node, b: Node, c: Node, p: Path)
    requires Matches(a, p) && !Matches(b, p) && !Matches(c, p)
    ensures Filter([a, b, c], p) == [a]
  {
    FilterCons(a, [b, c], p);
    FilterCons(b, [c], p);
    FilterCons(c, [], p);
  }

  lemma FilterCons(x: Node, s: seq<Node>, p: Path)
    ensures Filter([x] + s, p) == (if Matches(x, p) then [x] else []) + Filter(s, p)
  {
    assert ([x] + s)[0] == x && ([x] + s)[1..] == s;
  }

  lemma MacroDefnames()
    ensures FindAll(Macro, DefnamePath) == [DefnameA, DefnameB]
  {
    MacroDescendants();
    EverySecondOfFive(MacroName, ParamA, DefnameA, ParamB, DefnameB, DefnamePath);
  }

  /** Of five elements the third and the fifth match. */
  lemma EverySecondOfFive(a: Node, b: Node, c: Node, d: Node, e: Node, p: Path)
    requires !Matches(a, p) && !Matches(b, p) && Matches(c, p) && !Matches(d, p) && Matches(e, p)
    ensures Filter([a, b, c, d, e], p) == [c, e]
  {
    LastTwoMatch(b, c, d, e, p);
    assert [a, b, c, d, e][1..] == [b, c, d, e];
  }

  lemma LastTwoMatch(b: Node, c: Node, d: Node, e: Node, p: Path)
    requires !Matches(b, p) && Matches(c, p) && !Matches(d, p) && Matches(e, p)
    ensures Filter([b, c, d, e], p) == [c, e]
  {
    FirstAndLast(c, d, e, p);
    assert [b, c, d, e][1..] == [c, d, e];
  }

  lemma FirstAndLast(c: Node, d: Node, e: Node, p: Path)
    requires Matches(c, p) && !Matches(d, p) && Matches(e, p)
    ensures Filter([c, d, e], p) == [c, e]
  {
    OnlyLast(d, e, p);
    assert [c, d, e][1..] == [d, e];
  }

  lemma OnlyLast(d: Node, e: Node, p: Path)
    requires !Matches(d, p) && Matches(e, p)
    ensures Filter([d, e], p) == [e]
  {
    assert [d, e][1..] == [e];
    assert [e][1..] == [];
  }

  lemma MacroDescendants()
    ensures Descendants(Macro) == [MacroName, ParamA, DefnameA, ParamB, DefnameB]
  {
    NameAndTwoParams(Macro, MacroName, ParamA, DefnameA, ParamB, DefnameB);
  }

  /** An element with a leaf and two one-leaf children, in document order. */
  lemma NameAndTwoParams(n: Node, a: Node, p: Node, pk: Node, q: Node, qk: Node)
    requires n.kids == [a, p, q] && a.kids == [] && pk.kids == [] && qk.kids == []
    requires p.kids == [pk] && q.kids == [qk]
    ensures Descendants(n) == [a, p, pk, q, qk]
  {
    TwoParams(p, pk, q, qk);
    assert [a, p, q][1..] == [p, q];
    assert Descendants(a) == [];
  }

  lemma TwoParams(p: Node, pk: Node, q: Node, qk: Node)
    requires pk.kids == [] && qk.kids == [] && p.kids == [pk] && q.kids == [qk]
    ensures KidsDescendants([p, q]) == [p, pk, q, qk]
  {
    OneLeaf(p, pk);
    OneLeaf(q, qk);
    assert [p, q][1..] == [q];
    assert [q][1..] == [];
  }

  lemma OneLeaf(p: Node, k: Node)
    requires p.kids == [k] && k.kids == []
    ensures Descendants(p) == [k]
  {
    assert [k][1..] == [];
    assert Descendants(k) == [];
  }

  // ----- the formatter state -----

  /** The cached compound definitions (as massaged so far), the stack of
      elements being formatted, the compounds claimed by typedefs (only the
      whitespace-keeping formatter claims any), and the hooks called so far. */
  datatype State = State(store: map<string, Node>, stack: seq<Node>, claimed: set<string>, trace: seq<Hook>)

  datatype Error =
    | Unimplemented(kind: Option<string>)   // NotImplementedError
    | UnknownRef(id: Option<string>)        // the index has no such compound
    | Exhausted                             // the walk ran out of fuel

  /** Formatting moves from `a` to `b`: hooks are only appended, the stack is
      as it was, no compound is forgotten and no claim withdrawn. */
  ghost predicate Grows(a: State, b: State) {
    && a.trace <= b.trace
    && b.stack == a.stack
    && b.store.Keys == a.store.Keys
    && a.claimed <= b.claimed
  }

  /** `__event(elem, "begin")`. */
  function Push(st: State, n: Node): (r: State)
    ensures r.trace == st.trace + [Event(n, Begin)] && r.stack == st.stack + [n]
    ensures r.store == st.store && r.claimed == st.claimed
  {
    st.(stack := st.stack + [n], trace := st.trace + [Event(n, Begin)])
  }

  /** `__event(elem, "end")`. */
  function Pop(st: State, n: Node): (r: State)
    ensures r.trace == st.trace + [Event(n, End)]
    ensures st.stack != [] ==> r.stack == st.stack[..|st.stack| - 1]
    ensures r.store == st.store && r.claimed == st.claimed
  {
    st.(trace := st.trace + [Event(n, End)],
        stack := if st.stack == [] then [] else st.stack[..|st.stack| - 1])
  }

  /** A begin event, hooks that keep the stack, and the end event. */
  lemma PushPop(st: State, n: Node, mid: State)
    requires Grows(Push(st, n), mid)
    ensures Grows(st, Pop(mid, n))
  {
    assert (st.stack + [n])[..|st.stack|] == st.stack;
  }

  /** `b` grew from `a` by hooks that open with `n`'s begin event and close
      with its end event. */
  ghost predicate Enclosed(a: State, n: Node, b: State) {
    && Grows(a, b)
    && |b.trace| >= |a.trace| + 2
    && b.trace[|a.trace|] == Event(n, Begin) && b.trace[|b.trace| - 1] == Event(n, End)
  }

  /** A begin event on a state that differs from `a` at most in its cache,
      hooks that keep the stack, and the end event enclose those hooks. */
  lemma OpenClose(a: State, b: State, n: Node, mid: State)
    requires Grows(a, b) && b.trace == a.trace && Grows(Push(b, n), mid)
    ensures Enclosed(a, n, Pop(mid, n))
  {
  }

  /** An element's hooks between its begin and end events; the stack is
      back where it was. */
  function Enclose(st: State, n: Node, hs: seq<Hook>): (r: State)
    ensures Enclosed(st, n, r)
    ensures r == st.(trace := st.trace + [Event(n, Begin)] + hs + [Event(n, End)])
  {
    var st1 := Append(Push(st, n), hs);
    PushPop(st, n, st1);
    Pop(st1, n)
  }

  lemma GrowsTransitive(a: State, b: State, c: State)
    requires Grows(a, b) && Grows(b, c)
    ensures Grows(a, c)
  {
  }

  /** Hooks appended, nothing else touched. */
  function Append(st: State, hs: seq<Hook>): (r: State)
    ensures Grows(st, r) && r.trace == st.trace + hs
  {
    st.(trace := st.trace + hs)
  }

  /** `__heading(text)`, on a stack of the given height. */
  function HeadingCall(text: string, stack: seq<Node>): (r: seq<Hook>)
    ensures text == "" <==> r == []
    ensures text != "" ==> r == [Heading(text, Level(stack))]
  {
    if text == "" then [] else [Heading(text, Level(stack))]
  }

  function SyntaxCall(text: string): (r: seq<Hook>)
    ensures r == [] <==> text == ""
    ensures r != [] ==> r == [Syntax(text)]
  {
    if text != "" then [Syntax(text)] else []
  }

  /** `__parameters(elem[".//parameterlistE"])`: only when it has text. */
  function ParametersCall(n: Node): (r: seq<Hook>)
    ensures |r| <= 1 && forall h :: h in r ==> h.Parameters?
    ensures r != [] <==> Trimmed(Find(n, ParameterListPath)) != ""
    ensures r != [] ==> r == [Parameters(Find(n, ParameterListPath))]
  {
    var pl := Find(n, ParameterListPath);
    if Trimmed(pl) != "" then [Parameters(pl)] else []
  }

  /** `__returns(elem[".//simplesect[@kind='return']E"])`. */
  function ReturnsCall(n: Node): (r: seq<Hook>)
    ensures |r| <= 1 && forall h :: h in r ==> h.Returns?
    ensures r != [] <==> Trimmed(Find(n, ReturnPath)) != ""
    ensures r != [] ==> r == [Returns(Find(n, ReturnPath))]
  {
    var rt := Find(n, ReturnPath);
    if Trimmed(rt) != "" then [Returns(rt)] else []
  }

  /** The heading of a file: its title, else its location when that is a
      relative path, else its compound name. */
  function FileTitle(c: Node): (r: string)
    ensures TrimmedText(c, "title") != "" ==> r == TrimmedText(c, "title")
    ensures || r == TrimmedText(c, "title") || r == RawText(c, "compoundname")
            || (Attr(Child(c, "location"), "file") == Some(r) && r != "" && !IsAbs(r))
    ensures var f := Attr(Child(c, "location"), "file");
      TrimmedText(c, "title") == "" && f.Some? && f.value != "" && !IsAbs(f.value) ==> r == f.value
    ensures var f := Attr(Child(c, "location"), "file");
      TrimmedText(c, "title") == "" && (f.None? || f.value == "" || IsAbs(f.value)) ==> r == RawText(c, "compoundname")
  {
    var title := TrimmedText(c, "title");
    if title != "" then title
    else
      var f := Attr(Child(c, "location"), "file");
      if f.None? || f.value == "" || IsAbs(f.value) then RawText(c, "compoundname") else f.value
  }

  /** `os.path.isabs` on POSIX. */
  predicate IsAbs(p: string) {
    p != [] && p[0] == '/'
  }

  /** The trace a shown section leaves after the one before it: its begin
      event, its heading `text` (when it has one) one level below the
      sections enclosing it, and its end event last. */
  ghost predicate SectionShape(st: State, sect: Node, text: string, t: seq<Hook>) {
    && |t| >= |st.trace| + 2
    && t[|st.trace|] == Event(sect, Begin) && t[|t| - 1] == Event(sect, End)
    && (text != "" ==> t[|st.trace| + 1] == Heading(text, Level(st.stack) + 1))
  }

  /** A section's begin event, a head that opens with its heading, hooks
      that keep the stack, and its end event make a section's shape. */
  lemma ShownSectionShape(st: State, sect: Node, text: string, head: seq<Hook>, body: seq<Hook>)
    requires sect.tag == "sectiondef"
    requires text != "" ==> head != [] && head[0] == Heading(text, Level(st.stack + [sect]))
    requires st.trace + [Event(sect, Begin)] + head <= body
    ensures SectionShape(st, sect, text, body + [Event(sect, End)])
  {
    var n := |st.trace|;
    var pre := st.trace + [Event(sect, Begin)] + head;
    var t := body + [Event(sect, End)];
    assert t[n] == Event(sect, Begin) by {
      PrefixAt(pre, body, n);
    }
    if text != "" {
      assert Level(st.stack + [sect]) == Level(st.stack) + 1 by {
        DepthPush(st.stack, sect, "sectiondef");
      }
      assert t[n + 1] == head[0] by {
        PrefixAt(pre, body, n + 1);
      }
    }
  }

  /** The trace a formatted compound leaves after the one before it: its
      begin event and `head` first, `tail` just before its end event, and
      the end event last. */
  ghost predicate CompoundShape(st: State, c: Node, head: seq<Hook>, tail: seq<Hook>, t: seq<Hook>) {
    && st.trace + [Event(c, Begin)] + head <= t
    && |t| >= |st.trace| + 1 + |head| + |tail| + 1
    && t[|t| - 1 - |tail|..|t| - 1] == tail
    && t[|t| - 1] == Event(c, End)
  }

  /** A compound's begin event and head, whatever its sections add, then
      its tail and its end event make a compound's shape. */
  lemma ClosedCompoundShape(st: State, c: Node, head: seq<Hook>, body: seq<Hook>, tail: seq<Hook>)
    requires st.trace + [Event(c, Begin)] + head <= body
    ensures CompoundShape(st, c, head, tail, body + tail + [Event(c, End)])
  {
    var t := body + tail + [Event(c, End)];
    assert t[..|body|] == body;
    assert t[|body|..|t| - 1] == tail;
  }

  /** A head made of three parts opens the compound's trace part by part. */
  lemma ShapeParts(st: State, c: Node, x: seq<Hook>, y: seq<Hook>, z: seq<Hook>, tail: seq<Hook>, t: seq<Hook>)
    requires CompoundShape(st, c, x + y + z, tail, t)
    ensures st.trace + [Event(c, Begin)] + x + y + z <= t
  {
    var p := st.trace + [Event(c, Begin)];
    AppendAssoc(p, x + y, z);
    AppendAssoc(p, x, y);
  }

  /** A head made of two parts opens the compound's trace part by part. */
  lemma ShapePair(st: State, c: Node, x: seq<Hook>, z: seq<Hook>, tail: seq<Hook>, t: seq<Hook>)
    requires CompoundShape(st, c, x + z, tail, t)
    ensures st.trace + [Event(c, Begin)] + x + z <= t
  {
    AppendAssoc(st.trace + [Event(c, Begin)], x, z);
  }

  /** An enum's hooks: its name hooks, then its values when it has some,
      then its description hooks. */
  lemma EnumParts(r: seq<Hook>, name: seq<Hook>, values: seq<Node>, detail: seq<Hook>)
    requires r == name + (if values != [] then [EnumValues(values)] else []) + detail
    ensures name <= r && |name| + |detail| <= |r| && EndsWith(r, detail)
    ensures values != [] ==> name + [EnumValues(values)] <= r
    ensures values == [] ==> |r| == |name| + |detail|
  {
    ThreeParts(name, if values != [] then [EnumValues(values)] else [], detail);
  }

  /** Where a three-part head's first hook and a one-hook tail sit. */
  lemma HeadedShape(st: State, c: Node, x: seq<Hook>, y: seq<Hook>, z: seq<Hook>, tail: seq<Hook>, t: seq<Hook>)
    requires CompoundShape(st, c, x + y + z, tail, t)
    ensures st.trace + [Event(c, Begin)] + x + y + z <= t
    ensures x != [] ==> t[|st.trace| + 1] == x[0]
    ensures |tail| == 1 ==> t[|t| - 2] == tail[0]
  {
    ShapeParts(st, c, x, y, z, tail, t);
    if x != [] {
      PrefixAt(st.trace + [Event(c, Begin)] + x + y + z, t, |st.trace| + 1);
    }
    if |tail| == 1 {
      assert t[|t| - 2] == t[|t| - 2..|t| - 1][0];
    }
  }

  /** An element of a prefix is at the same place in the whole. */
  lemma PrefixAt<T>(pre: seq<T>, s: seq<T>, i: nat)
    requires pre <= s && i < |pre|
    ensures s[i] == pre[i]
  {
  }

  // ----- output file names -----

  /** The output name of a source path: `_` doubled, `:` dropped, `/` and
      `\` turned into `_`, applied in that order. */
  function EscapeFileName(file: string): (r: string)
    ensures ':' !in r && '/' !in r && '\\' !in r
  {
    var doubled := ReplaceChar(file, '_', "__");
    var nocolon := ReplaceChar(doubled, ':', "");
    var slashed := ReplaceChar(nocolon, '/', "_");
    ReplaceKeeps(nocolon, '/', "_", ':');
    ReplaceKeeps(slashed, '\\', "_", ':');
    ReplaceKeeps(slashed, '\\', "_", '/');
    ReplaceChar(slashed, '\\', "_")
  }

  /** What one character of a source path becomes in the output name. */
  function EscapeChar(c: char): string {
    if c == '_' then "__"
    else if c == ':' then ""
    else if c == '/' || c == '\\' then "_"
    else [c]
  }

  /** The output name written character by character: a reference
      definition for the chain of replacements. */
  function EscapeEach(file: string): string {
    if file == [] then "" else EscapeChar(file[0]) + EscapeEach(file[1..])
  }

  /** A single character goes through the four replacements as
      `EscapeChar` says. */
  lemma EscapeOne(c: char)
    ensures EscapeFileName([c]) == EscapeChar(c)
  {
    assert [c] + "" == [c];
    var doubled := ReplaceChar([c], '_', "__");
    ReplaceCons(c, "", '_', "__");
    assert doubled == if c == '_' then "__" else [c];
    var nocolon := ReplaceChar(doubled, ':', "");
    if c == '_' {
      ReplaceAbsent("__", ':', "");
      ReplaceAbsent("__", '/', "_");
      ReplaceAbsent("__", '\\', "_");
    } else {
      ReplaceCons(c, "", ':', "");
      assert nocolon == if c == ':' then "" else [c];
      var slashed := ReplaceChar(nocolon, '/', "_");
      if c != ':' {
        ReplaceCons(c, "", '/', "_");
        assert slashed == if c == '/' then "_" else [c];
        if c == '/' {
          ReplaceAbsent("_", '\\', "_");
        } else {
          ReplaceCons(c, "", '\\', "_");
        }
      }
    }
  }

  /** The chain of replacements escapes each character on its own. */
  lemma EscapeCons(c: char, s: string)
    ensures EscapeFileName([c] + s) == EscapeChar(c) + EscapeFileName(s)
  {
    var d1, d2 := ReplaceChar([c], '_', "__"), ReplaceChar(s, '_', "__");
    ReplaceConcat([c], s, '_', "__");
    var n1, n2 := ReplaceChar(d1, ':', ""), ReplaceChar(d2, ':', "");
    ReplaceConcat(d1, d2, ':', "");
    var s1, s2 := ReplaceChar(n1, '/', "_"), ReplaceChar(n2, '/', "_");
    ReplaceConcat(n1, n2, '/', "_");
    ReplaceConcat(s1, s2, '\\', "_");
    EscapeOne(c);
  }

  /** The output name is the per-character escape of the path, and the
      empty path gives the empty name. */
  lemma {:induction false} EscapeIsPerCharacter(file: string)
    ensures EscapeFileName(file) == EscapeEach(file)
    decreases |file|
  {
    if file != [] {
      EscapeCons(file[0], file[1..]);
      EscapeIsPerCharacter(file[1..]);
      assert file == [file[0]] + file[1..];
    }
  }

  lemma {:induction false} ReplaceAbsent(s: string, c: char, repl: string)
    requires c !in s
    ensures ReplaceChar(s, c, repl) == s
    decreases |s|
  {
    if s != [] {
      ReplaceAbsent(s[1..], c, repl);
      assert s == [s[0]] + s[1..];
    }
  }

  /** Reading doubled underscores back as one. */
  function Undouble(s: string): string {
    if |s| >= 2 && s[0] == '_' && s[1] == '_' then "_" + Undouble(s[2..])
    else if s == [] then ""
    else [s[0]] + Undouble(s[1..])
  }

  lemma {:induction false} UndoubleDoubled(s: string)
    ensures Undouble(ReplaceChar(s, '_', "__")) == s
    decreases |s|
  {
    if s != [] {
      UndoubleDoubled(s[1..]);
      var d := ReplaceChar(s, '_', "__");
      var rest := ReplaceChar(s[1..], '_', "__");
      if s[0] == '_' {
        assert d == "__" + rest;
        assert d[2..] == rest;
      } else {
        assert d == [s[0]] + rest;
        assert d[1..] == rest;
        assert s == [s[0]] + s[1..];
      }
    }
  }

  /** For paths without separators or colons the escaping loses nothing. */
  lemma EscapeInvertible(file: string)
    requires ':' !in file && '/' !in file && '\\' !in file
    ensures Undouble(EscapeFileName(file)) == file
  {
    var doubled := ReplaceChar(file, '_', "__");
    ReplaceKeeps(file, '_', "__", ':');
    ReplaceKeeps(file, '_', "__", '/');
    ReplaceKeeps(file, '_', "__", '\\');
    ReplaceAbsent(doubled, ':', "");
    ReplaceAbsent(doubled, '/', "_");
    ReplaceAbsent(doubled, '\\', "_");
    UndoubleDoubled(file);
  }

  /** With separators it does lose information: `_` next to a separator
      reads the same on either side ... */
  lemma UnderscoreSlashCollide()
    ensures EscapeFileName("_/") == EscapeFileName("/_") == "___"
  {
    UnderscoreBeforeSlash();
    UnderscoreAfterSlash();
  }

  lemma UnderscoreBeforeSlash()
    ensures EscapeFileName("_/") == "___"
  {
    assert ReplaceChar("_/", '_', "__") == "__/" by {
      ReplaceCons('_', "/", '_', "__");
      ReplaceAbsent("/", '_', "__");
    }
    ReplaceAbsent("__/", ':', "");
    assert ReplaceChar("__/", '/', "_") == "___" by {
      ReplaceCons('_', "_/", '/', "_");
      ReplaceCons('_', "/", '/', "_");
      ReplaceCons('/', "", '/', "_");
    }
    ReplaceAbsent("___", '\\', "_");
  }

  lemma UnderscoreAfterSlash()
    ensures EscapeFileName("/_") == "___"
  {
    assert ReplaceChar("/_", '_', "__") == "/__" by {
      ReplaceCons('/', "_", '_', "__");
      ReplaceCons('_', "", '_', "__");
    }
    ReplaceAbsent("/__", ':', "");
    assert ReplaceChar("/__", '/', "_") == "___" by {
      ReplaceCons('/', "__", '/', "_");
      ReplaceAbsent("__", '/', "_");
    }
    ReplaceAbsent("___", '\\', "_");
  }

  lemma ReplaceCons(h: char, t: string, c: char, repl: string)
    ensures ReplaceChar([h] + t, c, repl) == (if h == c then repl else [h]) + ReplaceChar(t, c, repl)
  {
    assert ([h] + t)[0] == h && ([h] + t)[1..] == t;
  }

  /** ... and a colon vanishes. */
  lemma ColonDropped()
    ensures EscapeFileName("a:b") == EscapeFileName("ab") == "ab"
  {
    ReplaceAbsent("ab", '_', "__");
    ReplaceAbsent("ab", ':', "");
    ReplaceAbsent("ab", '/', "_");
    ReplaceAbsent("ab", '\\', "_");
    ReplaceAbsent("a:b", '_', "__");
    assert ReplaceChar("a:b", ':', "") == "ab" by {
      assert ReplaceChar(":b", ':', "") == "b" by {
        ReplaceAbsent("b", ':', "");
      }
    }
  }

  datatype NameError = NameError

  /** The file a compound is written to, as the code is written: the
      compound's location file, escaped; when that is missing or empty the
      fallback names a variable that does not exist. */
  function OutputNameAsWritten(comp: Node): (r: Result<string, NameError>)
    ensures r.Ok? ==> ':' !in r.value && '/' !in r.value && '\\' !in r.value
  {
    match Attr(Child(comp, "location"), "file")
    case Some(f) => if f != "" then Ok(EscapeFileName(f)) else Err(NameError)
    case None => Err(NameError)
  }

  /** A file compound without a location element cannot be written. */
  lemma NoLocationNoFile(comp: Node)
    requires forall k :: k in comp.kids ==> k.tag != "location"
    ensures OutputNameAsWritten(comp) == Err(NameError)
  {
  }

  /** The evidently intended file name: the location file, or else the
      compound's own name, escaped. */
  function OutputName(comp: Node): (r: string)
    ensures ':' !in r && '/' !in r && '\\' !in r
  {
    var f := Attr(Child(comp, "location"), "file");
    EscapeFileName(if f.Some? && f.value != "" then f.value else RawText(comp, "compoundname"))
  }

  /** The intended name agrees with the written one wherever that one
      succeeds, and always exists. */
  lemma OutputNameExtends(comp: Node)
    ensures OutputNameAsWritten(comp).Ok? ==> OutputNameAsWritten(comp).value == OutputName(comp)
    ensures OutputNameAsWritten(comp).Err? ==>
      OutputName(comp) == EscapeFileName(RawText(comp, "compoundname"))
  {
  }
}

=== FILE: libformat.dfy ===
/** The whitespace-keeping formatter (`format`): a depth-first walk over
    file, struct and union compounds, their sections and their members,
    recorded as the sequence of override-point calls it makes.  Beyond the
    walk it drops sections with nothing to show, lets a typedef claim the
    struct it names, and orders each section's entries. */
module LibFormat {
  import opened Base
  import opened Nodes
  import opened TextMap
  import opened Ordering
  import opened Hooks

  const KindTitles: map<string, string> := map[
    "class" := "class", "struct" := "struct", "union" := "union",
    "interface" := "", "protocol" := "protocol", "category" := "category",
    "exception" := "", "service" := "", "singleton" := "", "module" := "", "type" := "",
    "file" := "", "namespace" := "", "group" := "", "page" := "", "example" := "",
    "dir" := "", "define" := "", "property" := "", "event" := "", "variable" := "",
    "typedef" := "typedef", "enum" := "enum", "function" := "%s()", "signal" := "",
    "prototype" := "", "friend" := "", "dcop" := "", "slot" := "",
    "FUNCTION-MACRO" := "%s()", "OBJECT-MACRO" := ""]

  // ----- names -----

  /** Where `%s` first occurs in a title, if anywhere. */
  function PercentS(title: string): (r: Option<nat>)
    ensures r.Some? ==> r.value + 1 < |title| && title[r.value] == '%' && title[r.value + 1] == 's'
    ensures r.None? ==> forall i :: 0 <= i < |title| - 1 ==> !(title[i] == '%' && title[i + 1] == 's')
  {
    if |title| < 2 then None
    else if title[0] == '%' && title[1] == 's' then Some(0)
    else match PercentS(title[1..])
      case None => None
      case Some(i) => Some(i + 1)
  }

  /** The text handed to the name hook: an anonymous name counts as empty;
      a title with `%s` takes the name in its place, any other title is
      joined to it with a space. */
  function NameText(title: string, text: string): (r: string)
    ensures PercentS(title).None? && !IsAnonymous(text) ==> r == title + " " + text
    ensures PercentS(title).Some? && !IsAnonymous(text) ==>
      var i := PercentS(title).value; r == title[..i] + text + title[i + 2..]
  {
    var t := if IsAnonymous(text) then "" else text;
    match PercentS(title)
    case Some(i) => title[..i] + t + title[i + 2..]
    case None => title + " " + t
  }

  /** `__name(kind, text, desc)`: nothing for an empty name, otherwise the
      hook with the kind's title and the synthesised text. */
  function NameHook(kind: Option<string>, text: string, desc: Node): (r: Option<Hook>)
    ensures r.None? <==> text == ""
    ensures r.Some? ==> r.value.Name? && r.value.kind == TitleOf(KindTitles, kind) && r.value.desc == desc
    ensures r.Some? ==> r.value.text == NameText(r.value.kind, text)
  {
    if text == "" then None
    else
      var title := TitleOf(KindTitles, kind);
      Some(Name(title, NameText(title, text), desc))
  }

  /** A function's name gets `()` appended ... */
  lemma FunctionName(text: string, desc: Node)
    requires text != "" && !IsAnonymous(text)
    ensures NameHook(Some("function"), text, desc) == Some(Name("%s()", text + "()", desc))
  {
    assert "function" in KindTitles && KindTitles["function"] == "%s()";
    assert PercentS("%s()") == Some(0);
    assert NameText("%s()", text) == text + "()" by {
      assert "%s()"[..0] == "" && "%s()"[2..] == "()";
      assert "" + text + "()" == text + "()";
    }
  }

  /** ... and a struct's is prefixed with the word. */
  lemma StructName(text: string, desc: Node)
    requires text != "" && !IsAnonymous(text)
    ensures NameHook(Some("struct"), text, desc) == Some(Name("struct", "struct " + text, desc))
  {
    assert "struct" in KindTitles && KindTitles["struct"] == "struct";
    assert PercentS("struct") == None by {
      assert PercentS("truct") == None by {
        assert PercentS("ruct") == None by {
          assert PercentS("uct") == None by {
            assert PercentS("ct") == None;
          }
        }
      }
    }
    assert "struct" + " " + text == "struct " + text;
  }

  /** An anonymous name is blanked: the title's `%s` is replaced by
      nothing, and a title without one is followed by a bare space. */
  lemma AnonymousBlanked(title: string, a: string)
    requires IsAnonymous(a)
    ensures NameText(title, a) == match PercentS(title)
      case Some(i) => title[..i] + title[i + 2..]
      case None => title + " "
  {
    match PercentS(title)
    case Some(i) => BlankedAt(title, a, i);
    case None => BlankedAfter(title, a);
  }

  lemma BlankedAt(title: string, a: string, i: nat)
    requires IsAnonymous(a) && PercentS(title) == Some(i)
    ensures NameText(title, a) == title[..i] + title[i + 2..]
  {
    assert title[..i] + "" + title[i + 2..] == title[..i] + title[i + 2..];
  }

  lemma BlankedAfter(title: string, a: string)
    requires IsAnonymous(a) && PercentS(title).None?
    ensures NameText(title, a) == title + " "
  {
    assert title + " " + "" == title + " ";
  }

  /** An anonymous name reveals nothing of itself: all anonymous names of a
      kind produce the same hook, the one an empty name would give. */
  lemma AnonymousNamesAgree(kind: Option<string>, a: string, b: string, desc: Node)
    requires IsAnonymous(a) && IsAnonymous(b)
    ensures NameHook(kind, a, desc) == NameHook(kind, b, desc)
    ensures var title := TitleOf(KindTitles, kind);
      NameHook(kind, a, desc) == Some(Name(title, NameText(title, ""), desc))
  {
  }

  /** An anonymous struct is announced as "struct " and nothing else. */
  lemma AnonymousStruct(a: string, desc: Node)
    requires IsAnonymous(a)
    ensures NameHook(Some("struct"), a, desc) == Some(Name("struct", "struct ", desc))
  {
    assert "struct" in KindTitles && KindTitles["struct"] == "struct";
    assert PercentS("struct") == None by {
      assert PercentS("truct") == None by {
        assert PercentS("ruct") == None by {
          assert PercentS("uct") == None by {
            assert PercentS("ct") == None;
          }
        }
      }
    }
    AnonymousBlanked("struct", a);
    assert NameText("struct", a) == "struct ";
    assert NameHook(Some("struct"), a, desc).value.text == "struct ";
  }

  /** An interface has no title: the repeated key of the title table keeps
      its later, empty entry, so the name follows a bare space. */
  lemma InterfaceUntitled(text: string, desc: Node)
    requires text != "" && !IsAnonymous(text)
    ensures NameHook(Some("interface"), text, desc) == Some(Name("", " " + text, desc))
  {
    assert "interface" in KindTitles && KindTitles["interface"] == "";
    assert PercentS("") == None;
    assert "" + " " + text == " " + text;
  }

  /** A named (non-anonymous) entity's name is in the hook's text. */
  lemma NamedTextShown(kind: Option<string>, text: string, desc: Node)
    requires text != "" && !IsAnonymous(text)
    ensures var t := NameHook(kind, text, desc).value.text;
      exists i :: 0 <= i <= |t| && text <= t[i..]
  {
    var title := TitleOf(KindTitles, kind);
    assert NameHook(kind, text, desc).value.text == NameText(title, text);
    NameTextShows(title, text);
  }

  lemma NameTextShows(title: string, text: string)
    requires !IsAnonymous(text)
    ensures var t := NameText(title, text); exists i :: 0 <= i <= |t| && text <= t[i..]
  {
    var t := NameText(title, text);
    match PercentS(title)
    case Some(i) =>
      assert t == title[..i] + text + title[i + 2..];
      assert text <= t[i..];
    case None =>
      assert t == title + " " + text;
      var j := |title| + 1;
      assert t[j..] == text;
      assert text <= t[j..];
  }

  // ----- the formatter state -----

  datatype Settings = Settings(order: Order, escape: string -> string, copytext: string)

  /** `__summary(elem)`: only when the element has text. */
  function SummaryCall(n: Node): (r: seq<Hook>)
    ensures r == [] <==> Trimmed(n) == ""
    ensures r != [] ==> r == [Summary(n)]
  {
    if Trimmed(n) != "" then [Summary(n)] else []
  }

  function NameCall(kind: Option<string>, text: string, desc: Node): (r: seq<Hook>)
    ensures r == [] <==> text == ""
    ensures |r| <= 1
  {
    match NameHook(kind, text, desc)
    case Some(h) => [h]
    case None => []
  }

  /** The text a description shows: everything but parameter lists and
      copyright paragraphs, through the formatter's escape. */
  function DescribedText(s: Settings, n: Node): string {
    Maptext(n, KeepSpace, Some(s.escape), map[], map[], DescriptionFilter)
  }

  /** The description hook itself: only when the filtered text is not
      blank. */
  function DescriptionCall(s: Settings, n: Node): (r: seq<Hook>)
    ensures r == [] || r == [Description(n)]
    ensures r != [] <==> Strip(DescribedText(s, n)) != ""
  {
    if Strip(DescribedText(s, n)) != "" then [Description(n)] else []
  }

  /** `__description(elem)`: for an element with text, its parameter list
      and return section (each when it has text), then the description
      itself when the filtered text is not blank. */
  function DescriptionCalls(s: Settings, n: Node): (r: seq<Hook>)
    ensures Trimmed(n) == "" ==> r == []
    ensures |r| <= 3
  {
    if Trimmed(n) == "" then []
    else ParametersCall(n) + ReturnsCall(n) + DescriptionCall(s, n)
  }

  /** The calls end with the description hook exactly when the element has
      text and its filtered text is not blank; no other call describes. */
  lemma DescriptionCallsDescribe(s: Settings, n: Node)
    ensures var r := DescriptionCalls(s, n);
      (r != [] && r[|r| - 1] == Description(n)) <==> Trimmed(n) != "" && DescriptionCall(s, n) != []
    ensures forall i :: 0 <= i < |DescriptionCalls(s, n)| - 1 ==> !DescriptionCalls(s, n)[i].Description?
  {
    DescriptionCallsParts(s, n);
    LastDescribes(Trimmed(n) != "", Description(n), ParametersCall(n) + ReturnsCall(n),
                  DescriptionCall(s, n), DescriptionCalls(s, n));
  }

  lemma DescriptionCallsParts(s: Settings, n: Node)
    ensures DescriptionCalls(s, n)
      == if Trimmed(n) != "" then ParametersCall(n) + ReturnsCall(n) + DescriptionCall(s, n) else []
    ensures DescriptionCall(s, n) == [] || DescriptionCall(s, n) == [Description(n)]
    ensures forall x :: x in ParametersCall(n) + ReturnsCall(n) ==> !x.Description?
  {
    var p, q := ParametersCall(n), ReturnsCall(n);
    forall x: Hook | x in p + q
      ensures !x.Description?
    {
      if x !in p {
        assert x in q;
      }
    }
  }

  // ----- members -----

  const CompoundRefPath: Path := Path(true, "ref", Some(("kindref", "compound")))

  /** The name hook of a macro: a function-like macro's title appends `()`. */
  function MacroKind(m: Node): string {
    if Present(Child(m, "param")) then "FUNCTION-MACRO" else "OBJECT-MACRO"
  }

  /** The name hook of a member, titled by its kind (a macro's by
      `MacroKind`). */
  function MemberName(m: Node): seq<Hook> {
    var kind := Attr(m, "kind");
    NameCall(if kind == Some("define") then Some(MacroKind(m)) else kind,
             RawText(m, "name"), Child(m, "briefdescription"))
  }

  /** The hooks between a member's begin and end events. */
  function MemberCalls(s: Settings, m: Node): (r: Result<seq<Hook>, Error>)
    ensures r.Err? <==> !KnownMember(Attr(m, "kind"))
    ensures r.Err? ==> r.error == Unimplemented(Attr(m, "kind"))
    ensures Attr(m, "kind") == Some("define") ==> Syntax(DefineSyntax(m)) in r.value
  {
    var kind := Attr(m, "kind");
    var name := MemberName(m);
    var detail := DescriptionCalls(s, Child(m, "detaileddescription"));
    if kind == Some("function") then
      Ok(name + SyntaxCall(TrimmedText(m, "definition") + TrimmedText(m, "argsstring")) + detail)
    else if kind == Some("variable") || kind == Some("typedef") then
      Ok(name + SyntaxCall(TrimmedText(m, "definition")) + detail)
    else if kind == Some("enum") then
      var values := Children(m, "enumvalue");
      Ok(name + (if values != [] then [EnumValues(values)] else []) + detail)
    else if kind == Some("define") then
      Ok(name + [Syntax(DefineSyntax(m))] + detail)
    else Err(Unimplemented(kind))
  }

  /** A member's hooks: its name hook first and its detailed description
      last, with what its kind shows in between (`FunctionCallsShape` and
      its neighbours say what that is). */
  lemma MemberCallsShape(s: Settings, m: Node)
    ensures var r := MemberCalls(s, m);
      var detail := DescriptionCalls(s, Child(m, "detaileddescription"));
      r.Ok? ==> MemberName(m) <= r.value && |MemberName(m)| + |detail| <= |r.value| && EndsWith(r.value, detail)
  {
    var kind := Attr(m, "kind");
    if kind == Some("function") {
      FunctionCallsShape(s, m);
    } else if kind == Some("variable") || kind == Some("typedef") {
      VariableCallsShape(s, m);
    } else if kind == Some("enum") {
      EnumCallsShape(s, m);
    } else if kind == Some("define") {
      DefineCallsShape(s, m);
    }
  }

  /** A function shows its definition followed by its argument list. */
  lemma FunctionCallsShape(s: Settings, m: Node)
    requires Attr(m, "kind") == Some("function")
    ensures var r := MemberCalls(s, m);
      var detail := DescriptionCalls(s, Child(m, "detaileddescription"));
      r.Ok? && MemberName(m) + SyntaxCall(TrimmedText(m, "definition") + TrimmedText(m, "argsstring")) <= r.value &&
      |MemberName(m)| + |detail| <= |r.value| && EndsWith(r.value, detail)
  {
    ThreeParts(MemberName(m), SyntaxCall(TrimmedText(m, "definition") + TrimmedText(m, "argsstring")),
               DescriptionCalls(s, Child(m, "detaileddescription")));
  }

  /** A variable or a typedef shows its definition. */
  lemma VariableCallsShape(s: Settings, m: Node)
    requires Attr(m, "kind") == Some("variable") || Attr(m, "kind") == Some("typedef")
    ensures var r := MemberCalls(s, m);
      var detail := DescriptionCalls(s, Child(m, "detaileddescription"));
      r.Ok? && MemberName(m) + SyntaxCall(TrimmedText(m, "definition")) <= r.value &&
      |MemberName(m)| + |detail| <= |r.value| && EndsWith(r.value, detail)
  {
    KindsDiffer(Attr(m, "kind"));
    ThreeParts(MemberName(m), SyntaxCall(TrimmedText(m, "definition")),
               DescriptionCalls(s, Child(m, "detaileddescription")));
  }

  /** An enum's hooks start with its name hook and end with its detailed
      description. */
  lemma EnumCallsShape(s: Settings, m: Node)
    requires Attr(m, "kind") == Some("enum")
    ensures var r := MemberCalls(s, m);
      var detail := DescriptionCalls(s, Child(m, "detaileddescription"));
      r.Ok? && MemberName(m) <= r.value && |MemberName(m)| + |detail| <= |r.value| && EndsWith(r.value, detail)
  {
    EnumCallsUnfold(s, m);
    EnumParts(MemberCalls(s, m).value, MemberName(m), Children(m, "enumvalue"),
              DescriptionCalls(s, Child(m, "detaileddescription")));
  }

  /** An enum with values shows them right after its name hook. */
  lemma EnumValuesShown(s: Settings, m: Node)
    requires Attr(m, "kind") == Some("enum") && Children(m, "enumvalue") != []
    ensures var r := MemberCalls(s, m);
      r.Ok? && MemberName(m) + [EnumValues(Children(m, "enumvalue"))] <= r.value
  {
    EnumCallsUnfold(s, m);
    EnumParts(MemberCalls(s, m).value, MemberName(m), Children(m, "enumvalue"),
              DescriptionCalls(s, Child(m, "detaileddescription")));
  }

  /** An enum without values shows nothing between its name hook and its
      description: with `EnumCallsShape`'s prefix and suffix, the length
      leaves no room. */
  lemma EnumWithoutValues(s: Settings, m: Node)
    requires Attr(m, "kind") == Some("enum") && Children(m, "enumvalue") == []
    ensures var r := MemberCalls(s, m);
      r.Ok? && |r.value| == |MemberName(m)| + |DescriptionCalls(s, Child(m, "detaileddescription"))|
  {
    EnumCallsUnfold(s, m);
    EnumParts(MemberCalls(s, m).value, MemberName(m), Children(m, "enumvalue"),
              DescriptionCalls(s, Child(m, "detaileddescription")));
  }

  lemma EnumCallsUnfold(s: Settings, m: Node)
    requires Attr(m, "kind") == Some("enum")
    ensures MemberCalls(s, m) == Ok(MemberName(m)
      + (if Children(m, "enumvalue") != [] then [EnumValues(Children(m, "enumvalue"))] else [])
      + DescriptionCalls(s, Child(m, "detaileddescription")))
  {
    var kind := Attr(m, "kind");
    KindsDiffer(kind);
    var values := Children(m, "enumvalue");
    var listed := if values != [] then [EnumValues(values)] else [];
    assert MemberCalls(s, m) == Ok(MemberName(m) + listed + DescriptionCalls(s, Child(m, "detaileddescription")));
  }

  /** A macro shows its `#define` line. */
  lemma DefineCallsShape(s: Settings, m: Node)
    requires Attr(m, "kind") == Some("define")
    ensures var r := MemberCalls(s, m);
      var detail := DescriptionCalls(s, Child(m, "detaileddescription"));
      r.Ok? && MemberName(m) + [Syntax(DefineSyntax(m))] <= r.value &&
      |MemberName(m)| + |detail| <= |r.value| && EndsWith(r.value, detail)
  {
    KindsDiffer(Attr(m, "kind"));
    ThreeParts(MemberName(m), [Syntax(DefineSyntax(m))], DescriptionCalls(s, Child(m, "detaileddescription")));
  }

  /** A typedef naming a compound stands in for it. */
  predicate ClaimsCompound(m: Node) {
    Attr(m, "kind") == Some("typedef") && Present(Find(m, CompoundRefPath))
  }

  function ClaimedId(m: Node): Option<string> {
    Attr(Find(m, CompoundRefPath), "refid")
  }

  // ----- compounds and sections -----

  /** Moves the compound's `innerclass` children into a new trailing
      `sectiondef` of kind `innerclass`; a compound without any is left as
      it is. */
  function Massage(c: Node): (r: Node)
    ensures r.tag == c.tag && r.attrs == c.attrs && r.text == c.text && r.tail == c.tail
    ensures forall k :: k in r.kids ==> k.tag != "innerclass"
    ensures Children(c, "innerclass") != [] ==>
      r.kids != [] && r.kids[|r.kids| - 1] == Node("sectiondef", map["kind" := "innerclass"], "", "", Children(c, "innerclass"))
    ensures Children(c, "innerclass") != [] ==> r.kids[..|r.kids| - 1] == Others(c.kids, "innerclass")
    ensures Children(c, "innerclass") == [] ==> r == c
  {
    var inner := Children(c, "innerclass");
    if inner == [] then c
    else
      var rest := Others(c.kids, "innerclass");
      c.(kids := rest + [Node("sectiondef", map["kind" := "innerclass"], "", "", inner)])
  }

  /** The compound is massaged once: after that it has no `innerclass`
      children and massaging changes nothing. */
  lemma MassageIdempotent(c: Node)
    ensures Massage(Massage(c)) == Massage(c)
  {
    NoInnerAfterMassage(c);
    MassageWithoutInner(Massage(c));
  }

  lemma NoInnerAfterMassage(c: Node)
    ensures Children(Massage(c), "innerclass") == []
  {
    FilterNone(Massage(c).kids, ChildPath("innerclass"));
  }

  lemma MassageWithoutInner(c: Node)
    requires Children(c, "innerclass") == []
    ensures Massage(c) == c
  {
  }

  /** The brief and detailed paragraphs of a file under one description. */
  function MergedDescription(c: Node): Node {
    Node("description", map[], "", "", Children(Child(c, "briefdescription"), "para")
      + Children(Child(c, "detaileddescription"), "para"))
  }

  /** A section entry: an unclaimed inner compound (with its definition as
      cached when the section was listed) or a member. */
  datatype Entry = Inner(id: string, cdef: Node) | Member(mdef: Node)

  function EntryNode(e: Entry): Node {
    match e
    case Inner(_, c) => c
    case Member(m) => m
  }

  function EntryAlphaKey(e: Entry): string {
    AlphaKey(EntryNode(e))
  }

  function EntrySourceKey(e: Entry): string {
    SourceKey(EntryNode(e))
  }

  /** Whether an inner compound is still shown in its section. */
  predicate Unclaimed(claimed: set<string>, id: Option<string>) {
    id.None? || id.value !in claimed
  }

  function CountUnclaimed(claimed: set<string>, inner: seq<Node>): (r: nat)
    ensures r <= |inner|
  {
    if inner == [] then 0
    else
      (if Unclaimed(claimed, Attr(inner[0], "refid")) then 1 else 0)
        + CountUnclaimed(claimed, inner[1..])
  }

  /** How many entries the section would show. */
  function Count(claimed: set<string>, sect: Node): nat {
    CountUnclaimed(claimed, Children(sect, "innerclass")) + |Children(sect, "memberdef")|
  }

  /** The refids of the inner compounds the section still shows, in order. */
  function UnclaimedIds(claimed: set<string>, inner: seq<Node>): (r: seq<Option<string>>)
    ensures |r| == CountUnclaimed(claimed, inner)
    ensures forall i :: 0 <= i < |r| ==> Unclaimed(claimed, r[i])
    ensures forall j :: 0 <= j < |inner| && Unclaimed(claimed, Attr(inner[j], "refid")) ==>
              Attr(inner[j], "refid") in r
    ensures inner == [] ==> r == []
  {
    if inner == [] then []
    else
      var id := Attr(inner[0], "refid");
      var rest := UnclaimedIds(claimed, inner[1..]);
      assert forall j :: 1 <= j < |inner| ==> inner[j] == inner[1..][j - 1];
      (if Unclaimed(claimed, id) then [id] else []) + rest
  }

  /** `UnclaimedIds` walks the inner compounds in order, keeping the refid
      of each unclaimed one once: with the empty case this fixes both the
      order and the multiplicity of the ids. */
  lemma UnclaimedIdsCons(claimed: set<string>, k: Node, ks: seq<Node>)
    ensures UnclaimedIds(claimed, [k] + ks) ==
      (if Unclaimed(claimed, Attr(k, "refid")) then [Attr(k, "refid")] else []) + UnclaimedIds(claimed, ks)
  {
    assert ([k] + ks)[1..] == ks;
  }

  /** Whether a refid names a compound in the cache. */
  predicate Known(store: map<string, Node>, id: Option<string>) {
    id.Some? && id.value in store
  }

  /** Every refid listed names a compound in the cache. */
  predicate AllKnown(store: map<string, Node>, u: seq<Option<string>>) {
    forall i :: 0 <= i < |u| ==> Known(store, u[i])
  }

  /** `es` holds, in order, the cached definitions the refids `u` name. */
  predicate Resolved(store: map<string, Node>, u: seq<Option<string>>, es: seq<Entry>) {
    && |es| == |u|
    && forall i :: 0 <= i < |u| ==> Known(store, u[i]) && es[i] == Inner(u[i].value, store[u[i].value])
  }

  /** `u[j]` is the first refid listed that names nothing in the cache. */
  predicate FirstUnknown(store: map<string, Node>, u: seq<Option<string>>, j: int) {
    && 0 <= j < |u| && !Known(store, u[j])
    && forall k :: 0 <= k < j ==> Known(store, u[k])
  }

  lemma AllKnownCons(store: map<string, Node>, id: Option<string>, u: seq<Option<string>>)
    ensures AllKnown(store, [id] + u) <==> Known(store, id) && AllKnown(store, u)
  {
    assert ([id] + u)[0] == id;
    assert forall i :: 0 <= i < |u| ==> ([id] + u)[i + 1] == u[i];
  }

  lemma ResolvedCons(store: map<string, Node>, id: Option<string>, u: seq<Option<string>>, es: seq<Entry>)
    requires Known(store, id) && Resolved(store, u, es)
    ensures Resolved(store, [id] + u, [Inner(id.value, store[id.value])] + es)
  {
    var u', es' := [id] + u, [Inner(id.value, store[id.value])] + es;
    forall i | 1 <= i < |u'|
      ensures Known(store, u'[i]) && es'[i] == Inner(u'[i].value, store[u'[i].value])
    {
      assert u'[i] == u[i - 1] && es'[i] == es[i - 1];
    }
  }

  lemma FirstUnknownCons(store: map<string, Node>, id: Option<string>, u: seq<Option<string>>, j: int)
    requires Known(store, id) && FirstUnknown(store, u, j)
    ensures FirstUnknown(store, [id] + u, j + 1)
  {
    var u' := [id] + u;
    assert u'[j + 1] == u[j];
    forall k | 1 <= k < j + 1
      ensures Known(store, u'[k])
    {
      assert u'[k] == u[k - 1];
    }
  }

  /** The definitions of the unclaimed inner compounds, in order; the first
      unclaimed refid that names nothing in the cache is an error. */
  function InnerEntries(st: State, inner: seq<Node>): (r: Result<seq<Entry>, Error>)
    ensures r.Ok? <==> AllKnown(st.store, UnclaimedIds(st.claimed, inner))
    ensures r.Ok? ==> Resolved(st.store, UnclaimedIds(st.claimed, inner), r.value)
    ensures var u := UnclaimedIds(st.claimed, inner);
      r.Err? ==> exists j :: FirstUnknown(st.store, u, j) && r.error == UnknownRef(u[j])
  {
    if inner == [] then Ok([])
    else
      var id := Attr(inner[0], "refid");
      if !Unclaimed(st.claimed, id) then
        assert UnclaimedIds(st.claimed, inner) == UnclaimedIds(st.claimed, inner[1..]);
        InnerEntries(st, inner[1..])
      else
        var u, u' := UnclaimedIds(st.claimed, inner), UnclaimedIds(st.claimed, inner[1..]);
        assert u == [id] + u';
        AllKnownCons(st.store, id, u');
        if id.None? || id.value !in st.store then
          assert FirstUnknown(st.store, u, 0);
          Err(UnknownRef(id))
        else match InnerEntries(st, inner[1..])
          case Err(e) =>
            var j :| FirstUnknown(st.store, u', j) && e == UnknownRef(u'[j]);
            FirstUnknownCons(st.store, id, u', j);
            assert u[j + 1] == u'[j];
            Err(e)
          case Ok(es) =>
            ResolvedCons(st.store, id, u', es);
            Ok([Inner(id.value, st.store[id.value])] + es)
  }

  function Members(ms: seq<Node>): (r: seq<Entry>)
    ensures |r| == |ms|
    ensures forall i :: 0 <= i < |ms| ==> r[i] == Member(ms[i])
  {
    if ms == [] then [] else [Member(ms[0])] + Members(ms[1..])
  }

  /** The section's entries before ordering: inner compounds, then members. */
  function Contents(st: State, sect: Node): (r: Result<seq<Entry>, Error>)
    ensures r.Ok? ==> |r.value| == Count(st.claimed, sect)
    ensures r.Ok? <==> AllKnown(st.store, UnclaimedIds(st.claimed, Children(sect, "innerclass")))
    ensures var u := UnclaimedIds(st.claimed, Children(sect, "innerclass"));
      r.Ok? ==> |u| <= |r.value| && Resolved(st.store, u, r.value[..|u|])
    ensures var ms := Children(sect, "memberdef");
      r.Ok? ==> |ms| <= |r.value| && r.value[|r.value| - |ms|..] == Members(ms)
  {
    match InnerEntries(st, Children(sect, "innerclass"))
    case Err(e) => Err(e)
    case Ok(es) =>
      var ms := Members(Children(sect, "memberdef"));
      assert (es + ms)[|es|..] == ms && (es + ms)[..|es|] == es;
      Ok(es + ms)
  }

  /** The entries in the configured order. */
  function Arrange(order: Order, es: seq<Entry>): (r: seq<Entry>)
    ensures multiset(r) == multiset(es)
    ensures order == Doxygen ==> r == es
  {
    match order
    case Doxygen => es
    case Alpha => SortBy(EntryAlphaKey, es)
    case Source => SortBy(EntrySourceKey, es)
  }

  /** "alpha" sorts by name, "source" by location. */
  lemma ArrangeSorted(order: Order, es: seq<Entry>)
    ensures order == Alpha ==> SortedBy(EntryAlphaKey, Arrange(order, es))
    ensures order == Source ==> SortedBy(EntrySourceKey, Arrange(order, es))
  {
    SortBySorted(EntryAlphaKey, es);
    SortBySorted(EntrySourceKey, es);
  }

  /** Entries that share a sort key keep their listing order. */
  lemma ArrangeStable(order: Order, k: string, es: seq<Entry>)
    ensures order == Alpha ==> WithKey(EntryAlphaKey, k, Arrange(order, es)) == WithKey(EntryAlphaKey, k, es)
    ensures order == Source ==> WithKey(EntrySourceKey, k, Arrange(order, es)) == WithKey(EntrySourceKey, k, es)
  {
    if order == Alpha {
      SortByStable(EntryAlphaKey, k, es);
    } else if order == Source {
      SortByStable(EntrySourceKey, k, es);
    }
  }

  /** The hooks after a compound's begin event and before its sections. */
  function CompoundHead(s: Settings, stack: seq<Node>, c: Node, oname: string, odef: string): seq<Hook> {
    if Attr(c, "kind") == Some("file") then
      HeadingCall(FileTitle(c), stack) + SummaryCall(MergedDescription(c))
    else
      var name := if oname != "" then oname else RawText(c, "compoundname");
      NameCall(Attr(c, "kind"), name, Child(c, "briefdescription")) + SyntaxCall(odef)
        + DescriptionCalls(s, Child(c, "detaileddescription"))
  }

  /** The hooks after a compound's sections: a file's copyright notice. */
  function CompoundTail(s: Settings, c: Node): seq<Hook> {
    if Attr(c, "kind") == Some("file") && s.copytext != "" then [Copyright(s.copytext)] else []
  }

  /** The hooks after a section's begin event and before its entries. */
  function SectionHead(stack: seq<Node>, sect: Node): seq<Hook> {
    HeadingCall(SectionHeading(sect), stack) + SummaryCall(Child(sect, "description"))
  }

  /** The cache after massaging compound `id`. */
  function Massaged(st: State, id: string): (r: State)
    requires id in st.store
    ensures Grows(st, r) && r.store == st.store[id := Massage(st.store[id])]
  {
    st.(store := st.store[id := Massage(st.store[id])])
  }

  // ----- the walk -----

  /** A compound looked up by identifier and formatted; each such step
      spends one unit of fuel. */
  function Compound(s: Settings, fuel: nat, st: State, id: Option<string>,
                    oname: string, odef: string): (r: Result<State, Error>)
    ensures r.Ok? ==> Grows(st, r.value)
    ensures id.None? || id.value !in st.store ==> r == Err(UnknownRef(id))
    decreases fuel, 0
  {
    if id.None? || id.value !in st.store then Err(UnknownRef(id))
    else if fuel == 0 then Err(Exhausted)
    else Compounddef(s, fuel - 1, st, id.value, oname, odef)
  }

  /** `compounddef(elem, override_name, override_definition)`. */
  function Compounddef(s: Settings, fuel: nat, st: State, id: string,
                       oname: string, odef: string): (r: Result<State, Error>)
    requires id in st.store
    ensures r.Ok? ==> Grows(st, r.value)
    ensures !KnownCompound(Attr(st.store[id], "kind")) ==> r == Err(Unimplemented(Attr(st.store[id], "kind")))
    ensures r.Ok? ==> Enclosed(st, Massage(st.store[id]), r.value)
    decreases fuel, 5
  {
    var c := Massage(st.store[id]);
    assert Attr(c, "kind") == Attr(st.store[id], "kind");
    if !KnownCompound(Attr(c, "kind")) then Err(Unimplemented(Attr(c, "kind")))
    else
      var st0 := Push(Massaged(st, id), c);
      match Sections(s, fuel, Append(st0, CompoundHead(s, st0.stack, c, oname, odef)), Children(c, "sectiondef"))
      case Err(e) => Err(e)
      case Ok(st1) =>
        var st2 := Append(st1, CompoundTail(s, c));
        OpenClose(st, Massaged(st, id), c, st2);
        Ok(Pop(st2, c))
  }

  function Sections(s: Settings, fuel: nat, st: State, sects: seq<Node>): (r: Result<State, Error>)
    ensures r.Ok? ==> Grows(st, r.value)
    decreases fuel, 4, |sects|
  {
    if sects == [] then Ok(st)
    else match Sectiondef(s, fuel, st, sects[0])
      case Err(e) => Err(e)
      case Ok(st1) => Sections(s, fuel, st1, sects[1..])
  }

  /** `sectiondef(elem)`: nothing at all for a section with no unclaimed
      inner compound and no member; otherwise the heading, the summary and
      the ordered entries between the section's events. */
  function Sectiondef(s: Settings, fuel: nat, st: State, sect: Node): (r: Result<State, Error>)
    ensures r.Ok? ==> Grows(st, r.value)
    ensures Count(st.claimed, sect) == 0 ==> r == Ok(st)
    ensures Count(st.claimed, sect) > 0 && r.Ok? ==> Enclosed(st, sect, r.value)
    decreases fuel, 3
  {
    if Count(st.claimed, sect) == 0 then Ok(st)
    else
      var st0 := Push(st, sect);
      var st1 := Append(st0, SectionHead(st0.stack, sect));
      match Contents(st1, sect)
      case Err(e) => Err(e)
      case Ok(es) =>
        match Entries(s, fuel, st1, Arrange(s.order, es))
        case Err(e) => Err(e)
        case Ok(st2) =>
          GrowsTransitive(st0, st1, st2);
          OpenClose(st, st, sect, st2);
          Ok(Pop(st2, sect))
  }

  /** One entry: an inner entry whose definition is not a compounddef is
      passed over. */
  function EntryStep(s: Settings, fuel: nat, st: State, e: Entry): (r: Result<State, Error>)
    ensures r.Ok? ==> Grows(st, r.value)
    decreases fuel, 1, 1
  {
    match e
    case Inner(id, c) => if c.tag == "compounddef" then Compound(s, fuel, st, Some(id), "", "") else Ok(st)
    case Member(m) => Memberdef(s, fuel, st, m)
  }

  function Entries(s: Settings, fuel: nat, st: State, es: seq<Entry>): (r: Result<State, Error>)
    ensures r.Ok? ==> Grows(st, r.value)
    decreases fuel, 2, |es|
  {
    if es == [] then Ok(st)
    else match EntryStep(s, fuel, st, es[0])
      case Err(e) => Err(e)
      case Ok(st1) => Entries(s, fuel, st1, es[1..])
  }

  /** `memberdef(elem)`: a typedef naming a compound claims it and formats
      it under the typedef's name and definition; any other known member
      has its hooks between its events. */
  function Memberdef(s: Settings, fuel: nat, st: State, m: Node): (r: Result<State, Error>)
    ensures r.Ok? ==> Grows(st, r.value)
    ensures !KnownMember(Attr(m, "kind")) ==> r == Err(Unimplemented(Attr(m, "kind")))
    ensures ClaimsCompound(m) && ClaimedId(m).Some? && r.Ok? ==> ClaimedId(m).value in r.value.claimed
    ensures !ClaimsCompound(m) && r.Ok? ==> Enclosed(st, m, r.value)
    decreases fuel, 1, 0
  {
    if ClaimsCompound(m) then
      var id := ClaimedId(m);
      var st1 := if id.Some? then st.(claimed := st.claimed + {id.value}) else st;
      Compound(s, fuel, st1, id, RawText(m, "name"), TrimmedText(m, "definition"))
    else match MemberCalls(s, m)
      case Err(e) => Err(e)
      case Ok(hs) => Ok(Enclose(st, m, hs))
  }

  // ----- properties of the walk -----

  /** A section's heading sits one level below the sections enclosing it,
      right after the section's begin event; its end event closes it. */
  lemma SectionHeadingLevel(s: Settings, fuel: nat, st: State, sect: Node)
    requires sect.tag == "sectiondef" && Count(st.claimed, sect) > 0
    requires Sectiondef(s, fuel, st, sect).Ok?
    ensures SectionShape(st, sect, SectionHeading(sect), Sectiondef(s, fuel, st, sect).value.trace)
  {
    var st2 := SectiondefUnfold(s, fuel, st, sect);
    var head := SectionHead(st.stack + [sect], sect);
    if SectionHeading(sect) != "" {
      SectionHeadStarts(st.stack + [sect], sect);
    }
    ShownSectionShape(st, sect, SectionHeading(sect), head, st2.trace);
  }

  lemma SectionHeadStarts(stack: seq<Node>, sect: Node)
    requires SectionHeading(sect) != ""
    ensures SectionHead(stack, sect) != []
    ensures SectionHead(stack, sect)[0] == Heading(SectionHeading(sect), Level(stack))
  {
  }

  /** A section that is shown: its begin event and head, hooks that keep the
      stack, its end event. */
  lemma SectiondefUnfold(s: Settings, fuel: nat, st: State, sect: Node) returns (st2: State)
    requires Count(st.claimed, sect) > 0
    requires Sectiondef(s, fuel, st, sect).Ok?
    ensures Grows(Append(Push(st, sect), SectionHead(st.stack + [sect], sect)), st2)
    ensures Sectiondef(s, fuel, st, sect).value == Pop(st2, sect)
  {
    var st0 := Push(st, sect);
    var st1 := Append(st0, SectionHead(st0.stack, sect));
    var es := Contents(st1, sect).value;
    st2 := Entries(s, fuel, st1, Arrange(s.order, es)).value;
  }

  lemma {:induction false} AllClaimedCountZero(claimed: set<string>, inner: seq<Node>)
    requires forall k :: k in inner ==> !Unclaimed(claimed, Attr(k, "refid"))
    ensures CountUnclaimed(claimed, inner) == 0
    decreases |inner|
  {
    if inner != [] {
      assert inner[0] in inner;
      AllClaimedCountZero(claimed, inner[1..]);
    }
  }

  /** A section whose inner compounds are all claimed and which has no
      members leaves no trace at all. */
  lemma ClaimedSectionSkipped(s: Settings, fuel: nat, st: State, sect: Node)
    requires forall k :: k in Children(sect, "innerclass") ==> !Unclaimed(st.claimed, Attr(k, "refid"))
    requires Children(sect, "memberdef") == []
    ensures Sectiondef(s, fuel, st, sect) == Ok(st)
  {
    AllClaimedCountZero(st.claimed, Children(sect, "innerclass"));
  }

  /** Once a typedef has been formatted in place of the compound it names, a
      section listing only that compound is skipped. */
  lemma TypedefHidesCompound(s: Settings, fuel: nat, st: State, m: Node, sect: Node)
    requires ClaimsCompound(m) && ClaimedId(m).Some?
    requires Memberdef(s, fuel, st, m).Ok?
    requires forall k :: k in Children(sect, "innerclass") ==> Attr(k, "refid") == ClaimedId(m)
    requires Children(sect, "memberdef") == []
    ensures var st1 := Memberdef(s, fuel, st, m).value;
      Sectiondef(s, fuel, st1, sect) == Ok(st1)
  {
    ClaimedSectionSkipped(s, fuel, Memberdef(s, fuel, st, m).value, sect);
  }

  /** A typedef naming a struct or union formats that compound in its own
      place: the compound's begin event comes first, then its name hook
      under the typedef's name (or the compound's own name when the typedef
      has none) and the typedef's definition as syntax; the compound's end
      event comes last. */
  lemma TypedefRendersCompound(s: Settings, fuel: nat, st: State, m: Node)
    requires ClaimsCompound(m) && ClaimedId(m).Some? && ClaimedId(m).value in st.store
    requires Attr(st.store[ClaimedId(m).value], "kind") != Some("file")
    ensures Memberdef(s, fuel, st, m).Ok? ==>
      var c := Massage(st.store[ClaimedId(m).value]);
      var name := if RawText(m, "name") != "" then RawText(m, "name") else RawText(c, "compoundname");
      var t := Memberdef(s, fuel, st, m).value.trace;
      && st.trace + [Event(c, Begin)] + NameCall(Attr(c, "kind"), name, Child(c, "briefdescription"))
           + SyntaxCall(TrimmedText(m, "definition")) <= t
      && t[|t| - 1] == Event(c, End)
  {
    if Memberdef(s, fuel, st, m).Ok? {
      var c := Massage(st.store[ClaimedId(m).value]);
      var oname, odef := RawText(m, "name"), TrimmedText(m, "definition");
      var stS := TypedefUnfold(s, fuel, st, m);
      var name := if oname != "" then oname else RawText(c, "compoundname");
      NamedHead(s, st.stack + [c], c, oname, odef);
      PrefixThroughHead(st.trace, Event(c, Begin), NameCall(Attr(c, "kind"), name, Child(c, "briefdescription")),
        SyntaxCall(odef), CompoundHead(s, st.stack + [c], c, oname, odef), stS.trace + [Event(c, End)]);
      assert Memberdef(s, fuel, st, m).value.trace == stS.trace + [Event(c, End)];
    }
  }

  /** A formatted compound leaves its begin event and head, then whatever
      its sections add, then its tail and its end event. */
  lemma CompoundShapeOf(s: Settings, fuel: nat, st: State, id: string, oname: string, odef: string)
    requires id in st.store
    ensures Compounddef(s, fuel, st, id, oname, odef).Ok? ==>
      var c := Massage(st.store[id]);
      CompoundShape(st, c, CompoundHead(s, st.stack + [c], c, oname, odef), CompoundTail(s, c),
                    Compounddef(s, fuel, st, id, oname, odef).value.trace)
  {
    if Compounddef(s, fuel, st, id, oname, odef).Ok? {
      var c := Massage(st.store[id]);
      var head := CompoundHead(s, st.stack + [c], c, oname, odef);
      var sa := Append(Push(Massaged(st, id), c), head);
      var rs := Sections(s, fuel, sa, Children(c, "sectiondef"));
      assert rs.Ok?;
      OpenedTrace(st, id, c, head);
      ClosedCompoundShape(st, c, head, rs.value.trace, CompoundTail(s, c));
    }
  }

  /** The trace of a formatted file, read against the state before it: its
      begin event, its title heading one level below the compounds around
      it, then the summary of its brief and detailed descriptions together;
      last before its end event, the copyright notice when there is one. */
  ghost predicate FileShape(s: Settings, st: State, c: Node, t: seq<Hook>) {
    && |t| >= |st.trace| + 2 && t[|t| - 1] == Event(c, End)
    && st.trace + [Event(c, Begin)] + HeadingCall(FileTitle(c), st.stack + [c]) + SummaryCall(MergedDescription(c)) <= t
    && (FileTitle(c) != "" ==> t[|st.trace| + 1] == Heading(FileTitle(c), Level(st.stack + [c])))
    && (s.copytext != "" ==> t[|t| - 2] == Copyright(s.copytext))
  }

  /** A formatted file compound has the shape of a file. */
  lemma FileCompoundShape(s: Settings, fuel: nat, st: State, id: string, oname: string, odef: string)
    requires id in st.store && Attr(st.store[id], "kind") == Some("file")
    ensures Compounddef(s, fuel, st, id, oname, odef).Ok? ==>
      FileShape(s, st, Massage(st.store[id]), Compounddef(s, fuel, st, id, oname, odef).value.trace)
  {
    if Compounddef(s, fuel, st, id, oname, odef).Ok? {
      CompoundShapeOf(s, fuel, st, id, oname, odef);
      FileShapeAt(s, st, Massage(st.store[id]), oname, odef, Compounddef(s, fuel, st, id, oname, odef).value.trace);
    }
  }

  lemma FileShapeAt(s: Settings, st: State, c: Node, oname: string, odef: string, t: seq<Hook>)
    requires Attr(c, "kind") == Some("file")
    requires CompoundShape(st, c, CompoundHead(s, st.stack + [c], c, oname, odef), CompoundTail(s, c), t)
    ensures FileShape(s, st, c, t)
  {
    var h, b := HeadingCall(FileTitle(c), st.stack + [c]), SummaryCall(MergedDescription(c));
    assert h + b + [] == h + b;
    HeadedShape(st, c, h, b, [], CompoundTail(s, c), t);
  }

  /** The trace of a formatted struct or union, read against the state
      before it: its begin event, its name hook (under the name given, or
      its own) and the given definition as syntax, then its detailed
      description; its end event last, with no tail before it. */
  ghost predicate NamedShape(s: Settings, st: State, c: Node, oname: string, odef: string, t: seq<Hook>) {
    var name := if oname != "" then oname else RawText(c, "compoundname");
    && |t| >= |st.trace| + 2 && t[|t| - 1] == Event(c, End)
    && st.trace + [Event(c, Begin)] + NameCall(Attr(c, "kind"), name, Child(c, "briefdescription"))
         + SyntaxCall(odef) + DescriptionCalls(s, Child(c, "detaileddescription")) <= t
    && CompoundTail(s, c) == []
  }

  /** A formatted struct or union has the shape of a named compound. */
  lemma NamedCompoundShape(s: Settings, fuel: nat, st: State, id: string, oname: string, odef: string)
    requires id in st.store && Attr(st.store[id], "kind") != Some("file")
    ensures Compounddef(s, fuel, st, id, oname, odef).Ok? ==>
      NamedShape(s, st, Massage(st.store[id]), oname, odef, Compounddef(s, fuel, st, id, oname, odef).value.trace)
  {
    if Compounddef(s, fuel, st, id, oname, odef).Ok? {
      CompoundShapeOf(s, fuel, st, id, oname, odef);
      NamedShapeAt(s, st, Massage(st.store[id]), oname, odef, Compounddef(s, fuel, st, id, oname, odef).value.trace);
    }
  }

  lemma NamedShapeAt(s: Settings, st: State, c: Node, oname: string, odef: string, t: seq<Hook>)
    requires Attr(c, "kind") != Some("file")
    requires CompoundShape(st, c, CompoundHead(s, st.stack + [c], c, oname, odef), CompoundTail(s, c), t)
    ensures NamedShape(s, st, c, oname, odef, t)
  {
    var name := if oname != "" then oname else RawText(c, "compoundname");
    HeadedShape(st, c, NameCall(Attr(c, "kind"), name, Child(c, "briefdescription")), SyntaxCall(odef),
      DescriptionCalls(s, Child(c, "detaileddescription")), CompoundTail(s, c), t);
  }

  /** A claiming typedef's result: the compound's begin event and head,
      hooks that keep the stack, the compound's end event. */
  lemma TypedefUnfold(s: Settings, fuel: nat, st: State, m: Node) returns (stS: State)
    requires ClaimsCompound(m) && ClaimedId(m).Some? && ClaimedId(m).value in st.store
    requires Memberdef(s, fuel, st, m).Ok?
    ensures var c := Massage(st.store[ClaimedId(m).value]);
      && Memberdef(s, fuel, st, m).value == Pop(stS, c)
      && st.trace + [Event(c, Begin)] + CompoundHead(s, st.stack + [c], c, RawText(m, "name"), TrimmedText(m, "definition"))
           <= stS.trace
  {
    var id := ClaimedId(m).value;
    var oname, odef := RawText(m, "name"), TrimmedText(m, "definition");
    var st1 := st.(claimed := st.claimed + {id});
    var c := Massage(st.store[id]);
    var head := CompoundHead(s, st.stack + [c], c, oname, odef);
    var sa := Append(Push(Massaged(st1, id), c), head);
    var rs := Sections(s, fuel - 1, sa, Children(c, "sectiondef"));
    assert Memberdef(s, fuel, st, m) == Compound(s, fuel, st1, Some(id), oname, odef);
    assert Compound(s, fuel, st1, Some(id), oname, odef) == Compounddef(s, fuel - 1, st1, id, oname, odef);
    assert rs.Ok?;
    stS := Append(rs.value, CompoundTail(s, c));
    OpenedTrace(st1, id, c, head);
    GrowsTransitive(sa, rs.value, stS);
  }

  /** Massaging, the begin event and the head only extend the trace. */
  lemma OpenedTrace(st: State, id: string, c: Node, head: seq<Hook>)
    requires id in st.store
    ensures Append(Push(Massaged(st, id), c), head).trace == st.trace + [Event(c, Begin)] + head
  {
  }

  /** The head of a struct or union starts with its name and syntax hooks. */
  lemma NamedHead(s: Settings, stack: seq<Node>, c: Node, oname: string, odef: string)
    requires Attr(c, "kind") != Some("file")
    ensures var name := if oname != "" then oname else RawText(c, "compoundname");
      NameCall(Attr(c, "kind"), name, Child(c, "briefdescription")) + SyntaxCall(odef) <= CompoundHead(s, stack, c, oname, odef)
  {
  }

  lemma PrefixThroughHead(t: seq<Hook>, h: Hook, x: seq<Hook>, y: seq<Hook>, head: seq<Hook>, u: seq<Hook>)
    requires u != [] && x + y <= head && t + [h] + head <= u[..|u| - 1]
    ensures t + [h] + x + y <= u
  {
    assert t + [h] + x + y == (t + [h] + head)[..|t| + 1 + |x| + |y|];
  }

  /** With an identity escape and nothing for the filter to remove, the
      description hook is called exactly when the element has text. */
  lemma DescriptionShown(s: Settings, n: Node)
    requires forall x :: s.escape(x) == x
    requires Present(n) && AllKept(DescriptionFilter, n)
    ensures var r := DescriptionCalls(s, n);
      (r != [] && r[|r| - 1] == Description(n)) <==> Trimmed(n) != ""
  {
    DescribedTextIsText(s, n);
    DescriptionCallsDescribe(s, n);
  }

  lemma DescribedTextIsText(s: Settings, n: Node)
    requires forall x :: s.escape(x) == x
    requires Present(n) && AllKept(DescriptionFilter, n)
    ensures DescribedText(s, n) == Text(n)
  {
    var c := Config(KeepSpace, s.escape, map[], map[], DescriptionFilter);
    UnusedFilter(c, n);
    PlainFragmentsAreText(c.(filter := map[]), n);
    assert Some(s.escape).GetOr(Identity) == s.escape;
  }

  /** One file compound of `main()`: the output file is announced, then the
      compound is formatted with the copyright text found in it. */
  function FileStep(order: Order, escape: string -> string, fuel: nat, st: State, id: string, comp: Node): (r: Result<State, Error>)
    ensures r.Ok? ==> Grows(st, r.value)
    ensures r.Ok? ==> |r.value.trace| > |st.trace| && r.value.trace[|st.trace|] == Reset(OutputName(comp))
  {
    var copytext := Trimmed(Find(comp, Path(true, "simplesect", Some(("kind", "copyright")))));
    var st0 := Append(st, [Reset(OutputName(comp))]);
    var r := Compound(Settings(order, escape, copytext), fuel, st0, Some(id), "", "");
    if r.Ok? then
      assert st0.trace <= r.value.trace && r.value.trace[|st.trace|] == st0.trace[|st.trace|];
      r
    else r
  }

  /** `main()` over the index: every file compound, in index order, each
      announced by the name of its output file. */
  function Generate(order: Order, escape: string -> string, fuel: nat, st: State, ids: seq<string>): (r: Result<State, Error>)
    ensures r.Ok? ==> Grows(st, r.value)
    ensures r.Ok? ==> forall id :: id in ids ==> id in st.store
    decreases |ids|
  {
    if ids == [] then Ok(st)
    else if ids[0] !in st.store then Err(UnknownRef(Some(ids[0])))
    else if Attr(st.store[ids[0]], "kind") != Some("file") then Generate(order, escape, fuel, st, ids[1..])
    else
      match FileStep(order, escape, fuel, st, ids[0], st.store[ids[0]])
      case Err(e) => Err(e)
      case Ok(st1) => Generate(order, escape, fuel, st1, ids[1..])
  }
}

=== FILE: nodes.dfy ===
/** The node facade: an immutable ElementTree element and the accessor
    family of `element` (the `A`/`E`/`L`/`N`/`S`/`T` suffixes), including
    the absent sentinel that every accessor tolerates. */
module Nodes {
  import opened Base

  /** One element of the documentation tree.  As in ElementTree, the text
      that follows an element inside its parent (the "tail") is stored on
      the element itself; a missing text or tail is the empty string. */
  datatype Node = Node(
    tag: string,
    attrs: map<string, string>,
    text: string,
    tail: string,
    kids: seq<Node>)

  /** `element(None)`: a wrapper around `ET.Element("")`. */
  const Absent: Node := Node("", map[], "", "", [])

  /** `element.__bool__`: an element is truthy unless its tag is empty. */
  predicate Present(n: Node) {
    n.tag != ""
  }

  /** `Element.get(name)`: the attribute, or None. */
  function Get(n: Node, name: string): (r: Option<string>)
    ensures r.Some? <==> name in n.attrs
    ensures r.Some? ==> r.value == n.attrs[name]
  {
    if name in n.attrs then Some(n.attrs[name]) else None
  }

  /** `Element.itertext()` joined: the element's text, then every child's
      text recursively followed by that child's tail (the element's own tail
      is not part of it). */
  function Text(n: Node): string {
    n.text + KidsText(n.kids)
  }

  function KidsText(kids: seq<Node>): string {
    if kids == [] then "" else Text(kids[0]) + kids[0].tail + KidsText(kids[1..])
  }

  /** Every element strictly below `n`, in document (pre-)order. */
  function Descendants(n: Node): seq<Node> {
    KidsDescendants(n.kids)
  }

  function KidsDescendants(kids: seq<Node>): seq<Node> {
    if kids == [] then [] else [kids[0]] + Descendants(kids[0]) + KidsDescendants(kids[1..])
  }

  /** The ElementPath subset the formatter uses: `tag`, `tag[@k='v']`,
      `.//tag` and `.//tag[@k='v']`. */
  datatype Path = Path(deep: bool, tag: string, where: Option<(string, string)>)

  function ChildPath(tag: string): Path {
    Path(false, tag, None)
  }

  predicate Matches(n: Node, p: Path) {
    && n.tag == p.tag
    && (p.where.Some? ==> Get(n, p.where.value.0) == Some(p.where.value.1))
  }

  /** The elements a path ranges over, before the tag test. */
  function Candidates(n: Node, p: Path): seq<Node> {
    if p.deep then Descendants(n) else n.kids
  }

  /** The matching elements of `s`, in order. */
  function Filter(s: seq<Node>, p: Path): (r: seq<Node>)
    ensures |r| <= |s|
    ensures forall x :: x in r ==> x in s && Matches(x, p)
    ensures forall i :: 0 <= i < |s| && Matches(s[i], p) ==> s[i] in r
  {
    if s == [] then []
    else if Matches(s[0], p) then [s[0]] + Filter(s[1..], p)
    else Filter(s[1..], p)
  }

  /** The first matching element of `s`, or the sentinel. */
  function First(s: seq<Node>, p: Path): (r: Node)
    ensures r == Absent || (r in s && Matches(r, p))
    ensures p.tag != "" ==> (r == Absent <==> forall x :: x in s ==> !Matches(x, p))
  {
    if s == [] then Absent
    else if Matches(s[0], p) then s[0]
    else First(s[1..], p)
  }

  /** `Element.findall(path)`. */
  function FindAll(n: Node, p: Path): seq<Node> {
    Filter(Candidates(n, p), p)
  }

  /** `element(Element.find(path))`: the first match, or the sentinel. */
  function Find(n: Node, p: Path): Node {
    First(Candidates(n, p), p)
  }

  /** `find` and `findall` agree: `find` is the head of `findall`, and the
      sentinel exactly when `findall` is empty. */
  lemma {:induction false} FirstIsHeadOfFilter(s: seq<Node>, p: Path)
    requires p.tag != ""
    ensures Filter(s, p) == [] ==> First(s, p) == Absent
    ensures Filter(s, p) != [] ==> First(s, p) == Filter(s, p)[0]
  {
    if s != [] && !Matches(s[0], p) {
      FirstIsHeadOfFilter(s[1..], p);
    }
  }

  lemma FindIsHeadOfFindAll(n: Node, p: Path)
    requires p.tag != ""
    ensures FindAll(n, p) == [] <==> Find(n, p) == Absent
    ensures FindAll(n, p) != [] ==> Find(n, p) == FindAll(n, p)[0]
  {
    FirstIsHeadOfFilter(Candidates(n, p), p);
    if FindAll(n, p) != [] {
      assert Matches(FindAll(n, p)[0], p);
    }
  }

  /** The children not called `tag`, in order. */
  function Others(kids: seq<Node>, tag: string): (r: seq<Node>)
    ensures forall k :: k in r ==> k in kids && k.tag != tag
    ensures forall k :: k in kids && k.tag != tag ==> k in r
  {
    if kids == [] then []
    else (if kids[0].tag != tag then [kids[0]] else []) + Others(kids[1..], tag)
  }

  /** A list without the tag keeps all its elements. */
  lemma {:induction false} OthersNone(kids: seq<Node>, tag: string)
    requires forall k :: k in kids ==> k.tag != tag
    ensures Others(kids, tag) == kids
    decreases |kids|
  {
    if kids != [] {
      assert kids[0] in kids;
      OthersNone(kids[1..], tag);
      assert kids == [kids[0]] + kids[1..];
    }
  }

  /** Nothing matches in a list where nothing matches. */
  lemma {:induction false} FilterNone(s: seq<Node>, p: Path)
    requires forall x :: x in s ==> !Matches(x, p)
    ensures Filter(s, p) == []
    decreases |s|
  {
    if s != [] {
      assert s[0] in s;
      FilterNone(s[1..], p);
    }
  }

  // ----- the suffix accessors, with a plain element name -----

  /** `elem.nameA`: the attribute (None when missing); the empty name
      gives "". */
  function Attr(n: Node, name: string): (r: Option<string>)
    ensures name == "" ==> r == Some("")
    ensures name != "" ==> (r.None? <==> name !in n.attrs)
    ensures name != "" && r.Some? ==> r.value == n.attrs[name]
  {
    if name == "" then Some("") else Get(n, name)
  }

  /** `elem.nameE`: the first child called `name`, or the sentinel; the
      empty name gives the element itself. */
  function Child(n: Node, name: string): (r: Node)
    ensures name == "" ==> r == n
    ensures name != "" ==> (r == Absent <==> forall k :: k in n.kids ==> k.tag != name)
    ensures name != "" && r != Absent ==> r in n.kids && r.tag == name
  {
    if name == "" then n else Find(n, ChildPath(name))
  }

  /** `elem.nameL`: every child called `name`, in order; the empty name
      gives the one-element list of the element itself. */
  function Children(n: Node, name: string): (r: seq<Node>)
    ensures name == "" ==> r == [n]
    ensures name != "" ==> forall x :: x in r ==> x in n.kids && x.tag == name
    ensures name != "" ==> forall k :: k in n.kids && k.tag == name ==> k in r
    ensures name != "" && n.kids == [] ==> r == []
  {
    if name == "" then [n] else FindAll(n, ChildPath(name))
  }

  /** `nameL` walks the children in order, keeping each one called `name`
      once: with the empty case of `Children` this fixes both its order and
      its multiplicity. */
  lemma ChildrenCons(n: Node, k: Node, ks: seq<Node>, name: string)
    requires name != "" && n.kids == [k] + ks
    ensures Children(n, name) == (if k.tag == name then [k] else []) + Children(n.(kids := ks), name)
  {
    assert n.kids[1..] == ks;
  }

  /** `elem.nameN`: the tag of the first child called `name` (so `name`
      itself) or "" when there is none; the empty name gives the element's
      own tag. */
  function TagName(n: Node, name: string): (r: string)
    ensures name == "" ==> r == n.tag
    ensures name != "" ==> (r == "" || r == name)
    ensures name != "" ==> (r == "" <==> forall k :: k in n.kids ==> k.tag != name)
  {
    if name == "" then n.tag else Child(n, name).tag
  }

  /** The elements' texts (each without its tail), joined in order. */
  function TextOfAll(s: seq<Node>): string {
    if s == [] then "" else Text(s[0]) + TextOfAll(s[1..])
  }

  /** `elem.nameS`: the attribute `name` when there is one, otherwise the
      joined text of every child called `name`; the empty name gives the
      element's whole text. */
  function RawText(n: Node, name: string): (r: string)
    ensures name == "" ==> r == Text(n)
    ensures name != "" && name in n.attrs ==> r == n.attrs[name]
    ensures name != "" && name !in n.attrs && (forall k :: k in n.kids ==> k.tag != name)
      ==> r == ""
    ensures name != "" && name !in n.attrs ==> r == TextOfAll(Children(n, name))
  {
    if name == "" then Text(n)
    else match Get(n, name)
      case Some(v) => v
      case None => TextOfAll(Children(n, name))
  }

  /** `elem.nameT`: an attribute called `name` exactly as `nameS` gives it
      (attributes are returned before any stripping); otherwise `nameS` with
      surrounding whitespace removed. */
  function TrimmedText(n: Node, name: string): (r: string)
    ensures name != "" && name in n.attrs ==> r == n.attrs[name]
    ensures name == "" || name !in n.attrs ==> r == [] || (!IsSpace(r[0]) && !IsSpace(r[|r| - 1]))
    ensures |r| <= |RawText(n, name)|
  {
    var raw := RawText(n, name);
    if name != "" && name in n.attrs then
      assert raw == n.attrs[name];
      n.attrs[name]
    else Strip(raw)
  }

  /** The sentinel answers every accessor with a neutral value. */
  lemma AbsentIsNeutral(name: string)
    requires name != ""
    ensures !Present(Absent)
    ensures Attr(Absent, name) == None
    ensures Child(Absent, name) == Absent
    ensures Children(Absent, name) == []
    ensures TagName(Absent, name) == ""
    ensures RawText(Absent, name) == "" && TrimmedText(Absent, name) == ""
  {
  }

  // ----- `__getattr__`: dispatch on the selector's last character -----

  datatype Value =
    | AttrValue(attr: Option<string>)
    | NodeValue(node: Node)
    | ListValue(nodes: seq<Node>)
    | StrValue(str: string)

  datatype AccessError = AttributeError

  /** `getattr(elem, selector)`: the last character picks the accessor and
      the rest is the element or attribute name; any other last character
      (or an empty selector) is an `AttributeError`. */
  function Lookup(n: Node, selector: string): (r: Result<Value, AccessError>)
    ensures r.Err? <==> selector == "" || selector[|selector| - 1] !in "AELNST"
    ensures selector != "" && selector[|selector| - 1] == 'A' ==>
      r == Ok(AttrValue(Attr(n, selector[..|selector| - 1])))
    ensures selector != "" && selector[|selector| - 1] == 'E' ==>
      r == Ok(NodeValue(Child(n, selector[..|selector| - 1])))
    ensures selector != "" && selector[|selector| - 1] == 'L' ==>
      r == Ok(ListValue(Children(n, selector[..|selector| - 1])))
    ensures selector != "" && selector[|selector| - 1] == 'N' ==>
      r == Ok(StrValue(TagName(n, selector[..|selector| - 1])))
    ensures selector != "" && selector[|selector| - 1] == 'T' ==>
      r == Ok(StrValue(TrimmedText(n, selector[..|selector| - 1])))
    ensures selector != "" && selector[|selector| - 1] == 'S' ==>
      r == Ok(StrValue(RawText(n, selector[..|selector| - 1])))
  {
    if selector == "" then Err(AttributeError)
    else
      var conv := selector[|selector| - 1];
      var name := selector[..|selector| - 1];
      if conv == 'A' then Ok(AttrValue(Attr(n, name)))
      else if conv == 'E' then Ok(NodeValue(Child(n, name)))
      else if conv == 'L' then Ok(ListValue(Children(n, name)))
      else if conv == 'N' then Ok(StrValue(TagName(n, name)))
      else if conv == 'S' then Ok(StrValue(RawText(n, name)))
      else if conv == 'T' then Ok(StrValue(TrimmedText(n, name)))
      else Err(AttributeError)
  }

  /** `S` and `T` prefer an attribute of the selected name to child text,
      and both return it as it is: `T` does not strip an attribute. */
  lemma StrAccessorsPreferAttribute(n: Node, name: string)
    requires name != "" && name in n.attrs
    ensures Lookup(n, name + "S") == Ok(StrValue(n.attrs[name]))
    ensures Lookup(n, name + "T") == Lookup(n, name + "S")
  {
    assert (name + "S")[..|name|] == name;
    assert (name + "T")[..|name|] == name;
  }

  /** Without such an attribute, `T` is `S` with surrounding whitespace
      removed. */
  lemma TrimmedIsStrippedText(n: Node, name: string)
    requires name !in n.attrs
    ensures Lookup(n, name + "T") == Ok(StrValue(Strip(RawText(n, name))))
  {
    TrimmedSelector(n, name);
  }

  lemma TrimmedSelector(n: Node, name: string)
    ensures Lookup(n, name + "T") == Ok(StrValue(TrimmedText(n, name)))
  {
    var selector := name + "T";
    assert selector[..|selector| - 1] == name && selector[|selector| - 1] == 'T';
  }
}

=== FILE: ordering.dfy ===
/** The three orders a section's entries can be listed in, and the stable
    sort that realises the two keyed ones (Python's `list.sort(key=...)`,
    comparing keys as `str`). */
module Ordering {
  import opened Base
  import opened Nodes

  /** The `order` setting: "doxygen" keeps the listing order, "alpha" sorts
      by name, anything else (and a missing setting) sorts by location. */
  datatype Order = Doxygen | Alpha | Source

  function OrderOf(setting: Option<string>): (r: Order)
    ensures r == Doxygen <==> setting == Some("doxygen")
    ensures r == Alpha <==> setting == Some("alpha")
  {
    match setting
    case Some(v) =>
      if v == "doxygen" then Doxygen
      else if v == "alpha" then Alpha
      else Source
    case None => Source
  }

  /** The alphabetical key: the compound name, or the member name when the
      entry has no (or an empty) compound name. */
  function AlphaKey(n: Node): (r: string)
    ensures RawText(n, "compoundname") != "" ==> r == RawText(n, "compoundname")
    ensures RawText(n, "compoundname") == "" ==> r == RawText(n, "name")
  {
    var c := RawText(n, "compoundname");
    if c != "" then c else RawText(n, "name")
  }

  /** `"%s" % v` for an attribute that may be missing. */
  function Shown(v: Option<string>): string {
    v.GetOr("None")
  }

  /** The location key `"%s:%10s:%10s" % (file, line, column)`. */
  function SourceKey(n: Node): (r: string)
    ensures var loc := Child(n, "location");
      var file := Shown(Attr(loc, "file"));
      |r| >= |file| + 22 && r[..|file|] == file && r[|file|] == ':'
    ensures var loc := Child(n, "location");
      var file := Shown(Attr(loc, "file"));
      r[|file| + 1..] == RJust(Shown(Attr(loc, "line")), 10) + ":" + RJust(Shown(Attr(loc, "column")), 10)
  {
    var loc := Child(n, "location");
    var file := Shown(Attr(loc, "file"));
    var rest := RJust(Shown(Attr(loc, "line")), 10) + ":" + RJust(Shown(Attr(loc, "column")), 10);
    assert (file + ":" + rest)[..|file|] == file;
    assert (file + ":" + rest)[|file| + 1..] == rest;
    file + ":" + rest
  }

  /** Every pair of entries is in key order. */
  ghost predicate SortedBy<T>(key: T -> string, s: seq<T>) {
    forall i, j :: 0 <= i < j < |s| ==> LexLe(key(s[i]), key(s[j]))
  }

  /** `x` placed before the first entry whose key is not below it; an entry
      with an equal key stays after `x`. */
  function Insert<T>(key: T -> string, x: T, s: seq<T>): (r: seq<T>)
    ensures multiset(r) == multiset{x} + multiset(s)
    ensures |r| == |s| + 1
  {
    if s == [] then [x]
    else if LexLe(key(x), key(s[0])) then [x] + s
    else
      assert s == [s[0]] + s[1..];
      [s[0]] + Insert(key, x, s[1..])
  }

  /** Insertion sort: the first entry is inserted into the sorted rest. */
  function SortBy<T>(key: T -> string, s: seq<T>): (r: seq<T>)
    ensures multiset(r) == multiset(s)
    ensures |r| == |s|
  {
    if s == [] then []
    else
      assert s == [s[0]] + s[1..];
      Insert(key, s[0], SortBy(key, s[1..]))
  }

  /** Inserting into a sequence in key order keeps it in key order. */
  lemma {:induction false} InsertSorted<T>(key: T -> string, x: T, s: seq<T>)
    requires SortedBy(key, s)
    ensures SortedBy(key, Insert(key, x, s))
    decreases |s|
  {
    if s == [] {
    } else if LexLe(key(x), key(s[0])) {
      assert Insert(key, x, s) == [x] + s;
      forall k | 0 <= k < |s|
        ensures LexLe(key(x), key(s[k]))
      {
        if k > 0 {
          LexLeTransitive(key(x), key(s[0]), key(s[k]));
        }
      }
      ConsSorted(key, x, s);
    } else {
      var rest := s[1..];
      SortedTail(key, s);
      InsertSorted(key, x, rest);
      LexLeTotal(key(x), key(s[0]));
      forall k | 0 <= k < |rest|
        ensures LexLe(key(s[0]), key(rest[k]))
      {
        assert rest[k] == s[k + 1];
      }
      InsertAbove(key, s[0], x, rest);
      assert Insert(key, x, s) == [s[0]] + Insert(key, x, rest);
      ConsSorted(key, s[0], Insert(key, x, rest));
    }
  }

  lemma SortedTail<T>(key: T -> string, s: seq<T>)
    requires s != [] && SortedBy(key, s)
    ensures SortedBy(key, s[1..])
  {
    var rest := s[1..];
    forall i, j | 0 <= i < j < |rest|
      ensures LexLe(key(rest[i]), key(rest[j]))
    {
      assert rest[i] == s[i + 1] && rest[j] == s[j + 1];
    }
  }

  /** An entry whose key is below every key of a sorted sequence can lead
      it. */
  lemma ConsSorted<T>(key: T -> string, y: T, t: seq<T>)
    requires SortedBy(key, t)
    requires forall k :: 0 <= k < |t| ==> LexLe(key(y), key(t[k]))
    ensures SortedBy(key, [y] + t)
  {
    var r := [y] + t;
    forall i, j | 0 <= i < j < |r|
      ensures LexLe(key(r[i]), key(r[j]))
    {
      assert r[j] == t[j - 1];
      if i > 0 {
        assert r[i] == t[i - 1];
      }
    }
  }

  /** Inserting an entry at or above a bound keeps every entry at or above
      it. */
  lemma InsertAbove<T>(key: T -> string, y: T, x: T, s: seq<T>)
    requires LexLe(key(y), key(x))
    requires forall k :: 0 <= k < |s| ==> LexLe(key(y), key(s[k]))
    ensures forall k :: 0 <= k < |Insert(key, x, s)| ==> LexLe(key(y), key(Insert(key, x, s)[k]))
  {
    var r := Insert(key, x, s);
    forall k | 0 <= k < |r|
      ensures LexLe(key(y), key(r[k]))
    {
      assert r[k] in multiset{x} + multiset(s);
      if r[k] != x {
        assert r[k] in s;
      }
    }
  }

  /** The sort orders by key and keeps every entry exactly as often. */
  lemma {:induction false} SortBySorted<T>(key: T -> string, s: seq<T>)
    ensures SortedBy(key, SortBy(key, s))
    ensures multiset(SortBy(key, s)) == multiset(s)
    decreases |s|
  {
    if s != [] {
      SortBySorted(key, s[1..]);
      InsertSorted(key, s[0], SortBy(key, s[1..]));
    }
  }

  /** Entries whose keys are already in order are left where they are. */
  lemma {:induction false} SortedUnchanged<T>(key: T -> string, s: seq<T>)
    requires SortedBy(key, s)
    ensures SortBy(key, s) == s
    decreases |s|
  {
    if s != [] {
      var rest := s[1..];
      assert SortedBy(key, rest) by {
        forall i, j | 0 <= i < j < |rest|
          ensures LexLe(key(rest[i]), key(rest[j]))
        {
          assert rest[i] == s[i + 1] && rest[j] == s[j + 1];
        }
      }
      SortedUnchanged(key, rest);
      if rest != [] {
        assert LexLe(key(s[0]), key(s[1]));
      }
      assert s == [s[0]] + rest;
    }
  }

  // ----- stability -----

  /** The entries of `s` whose key is `k`, in order. */
  function WithKey<T>(key: T -> string, k: string, s: seq<T>): (r: seq<T>)
    ensures |r| <= |s|
  {
    if s == [] then []
    else (if key(s[0]) == k then [s[0]] else []) + WithKey(key, k, s[1..])
  }

  lemma {:induction false} LexLeReflexive(a: string)
    ensures LexLe(a, a)
    decreases |a|
  {
    if a != [] {
      LexLeReflexive(a[1..]);
    }
  }

  /** `Insert` only passes entries whose key is below `x`'s, so among the
      entries sharing a key `x` lands first. */
  lemma {:induction false} InsertWithKey<T>(key: T -> string, k: string, x: T, s: seq<T>)
    ensures WithKey(key, k, Insert(key, x, s))
      == (if key(x) == k then [x] else []) + WithKey(key, k, s)
    decreases |s|
  {
    if s == [] {
    } else if LexLe(key(x), key(s[0])) {
      assert Insert(key, x, s) == [x] + s;
      WithKeyCons(key, k, x, s);
    } else {
      LexLeReflexive(key(x));
      InsertWithKey(key, k, x, s[1..]);
      assert Insert(key, x, s) == [s[0]] + Insert(key, x, s[1..]);
      WithKeyCons(key, k, s[0], Insert(key, x, s[1..]));
      WithKeyCons(key, k, s[0], s[1..]);
      assert s == [s[0]] + s[1..];
      var a := if key(s[0]) == k then [s[0]] else [];
      var b := if key(x) == k then [x] else [];
      assert a == [] || b == [];
      Swap(a, b, WithKey(key, k, s[1..]));
    }
  }

  lemma WithKeyCons<T>(key: T -> string, k: string, y: T, t: seq<T>)
    ensures WithKey(key, k, [y] + t) == (if key(y) == k then [y] else []) + WithKey(key, k, t)
  {
    assert ([y] + t)[0] == y && ([y] + t)[1..] == t;
  }

  lemma Swap<T>(a: seq<T>, b: seq<T>, c: seq<T>)
    requires a == [] || b == []
    ensures a + (b + c) == b + (a + c)
  {
    if a == [] {
      assert a + (b + c) == b + c && b + (a + c) == b + c;
    } else {
      assert a + (b + c) == a + c && b + (a + c) == a + c;
    }
  }

  /** The sort is stable: entries with equal keys keep their listing order. */
  lemma {:induction false} SortByStable<T>(key: T -> string, k: string, s: seq<T>)
    ensures WithKey(key, k, SortBy(key, s)) == WithKey(key, k, s)
    decreases |s|
  {
    if s != [] {
      SortByStable(key, k, s[1..]);
      InsertWithKey(key, k, s[0], SortBy(key, s[1..]));
    }
  }

  // ----- the location key orders lines numerically

  predicate Digits(s: string) {
    forall i :: 0 <= i < |s| ==> '0' <= s[i] <= '9'
  }

  /** A numeral as doxygen writes line and column numbers: digits with no
      leading zero. */
  predicate Decimal(s: string) {
    s != [] && Digits(s) && (s[0] == '0' ==> |s| == 1)
  }

  function Pow10(k: nat): (r: nat)
    ensures r >= 1
  {
    if k == 0 then 1 else 10 * Pow10(k - 1)
  }

  function Digit(c: char): nat
    requires '0' <= c <= '9'
  {
    c as int - '0' as int
  }

  /** The number a string of digits denotes. */
  function Value(s: string): nat
    requires Digits(s)
  {
    if s == [] then 0 else Digit(s[0]) * Pow10(|s| - 1) + Value(s[1..])
  }

  /** `d * p` grows with `d`: the one product fact the digit lemmas need. */
  lemma MulLe(d: nat, e: nat, p: nat)
    requires d <= e
    ensures d * p <= e * p
  {
  }

  lemma {:induction false} ValueBound(s: string)
    requires Digits(s)
    ensures Value(s) < Pow10(|s|)
    decreases |s|
  {
    if s != [] {
      var p := Pow10(|s| - 1);
      ValueBound(s[1..]);
      MulLe(Digit(s[0]), 9, p);
    }
  }

  lemma {:induction false} Pow10Monotone(i: nat, j: nat)
    requires i <= j
    ensures Pow10(i) <= Pow10(j)
    decreases j
  {
    if i < j {
      Pow10Monotone(i, j - 1);
    }
  }

  /** A numeral with more digits is the larger number. */
  lemma LongerIsLarger(a: string, b: string)
    requires Decimal(a) && Decimal(b) && |a| < |b|
    ensures Value(a) < Value(b)
  {
    var p := Pow10(|b| - 1);
    ValueBound(a);
    Pow10Monotone(|a|, |b| - 1);
    assert b[0] != '0';
    MulLe(1, Digit(b[0]), p);
    assert Value(b) == Digit(b[0]) * p + Value(b[1..]);
  }

  /** A smaller leading digit makes the smaller number, whatever follows. */
  lemma LeadingDigitDecides(a: string, b: string)
    requires Digits(a) && Digits(b) && |a| == |b| && a != [] && a[0] < b[0]
    ensures Value(a) < Value(b)
  {
    var p := Pow10(|a| - 1);
    assert Value(a) == Digit(a[0]) * p + Value(a[1..]);
    assert Value(b) == Digit(b[0]) * p + Value(b[1..]);
    ValueBound(a[1..]);
    MulLe(Digit(a[0]) + 1, Digit(b[0]), p);
    assert (Digit(a[0]) + 1) * p == Digit(a[0]) * p + p;
  }

  /** Equally long strings of digits compare as the numbers they denote. */
  lemma {:induction false} DigitsCompare(a: string, b: string)
    requires Digits(a) && Digits(b) && |a| == |b|
    ensures LexLe(a, b) <==> Value(a) <= Value(b)
    decreases |a|
  {
    if a != [] {
      if a[0] == b[0] {
        var p := Pow10(|a| - 1);
        assert Value(a) == Digit(a[0]) * p + Value(a[1..]);
        assert Value(b) == Digit(b[0]) * p + Value(b[1..]);
        DigitsCompare(a[1..], b[1..]);
      } else if a[0] < b[0] {
        LeadingDigitDecides(a, b);
      } else {
        LeadingDigitDecides(b, a);
      }
    }
  }

  lemma {:induction false} LexSamePrefix(p: string, x: string, y: string)
    ensures LexLe(p + x, p + y) == LexLe(x, y)
    decreases |p|
  {
    if p != [] {
      assert (p + x)[0] == p[0] == (p + y)[0];
      assert (p + x)[1..] == p[1..] + x && (p + y)[1..] == p[1..] + y;
      assert LexLe(p + x, p + y) == LexLe(p[1..] + x, p[1..] + y);
      LexSamePrefix(p[1..], x, y);
    } else {
      assert p + x == x && p + y == y;
    }
  }

  /** Two strings of one length, the first strictly below the second, stay
      in that order whatever follows each. */
  lemma {:induction false} LexStrictExtend(u: string, v: string, x: string, y: string)
    requires |u| == |v| && !LexLe(v, u)
    ensures LexLe(u + x, v + y) && !LexLe(v + y, u + x)
    decreases |u|
  {
    if u[0] == v[0] {
      assert (u + x)[1..] == u[1..] + x && (v + y)[1..] == v[1..] + y;
      LexStrictExtend(u[1..], v[1..], x, y);
    }
  }

  /** Right-justified to ten places, numerals of at most ten digits compare
      as the numbers they denote: a shorter one is padded with spaces, which
      sort below every digit. */
  lemma PaddedOrder(a: string, b: string)
    requires Decimal(a) && Decimal(b) && |a| <= 10 && |b| <= 10
    ensures LexLe(RJust(a, 10), RJust(b, 10)) <==> Value(a) <= Value(b)
  {
    var ra, rb := RJust(a, 10), RJust(b, 10);
    if |a| == |b| {
      var sp := ra[..10 - |a|];
      assert ra == sp + a && rb == sp + b;
      LexSamePrefix(sp, a, b);
      DigitsCompare(a, b);
    } else if |a| < |b| {
      LongerIsLarger(a, b);
      PaddedBelow(a, b);
    } else {
      LongerIsLarger(b, a);
      PaddedBelow(b, a);
    }
  }

  lemma PaddedBelow(a: string, b: string)
    requires Decimal(a) && Decimal(b) && |a| < |b| <= 10
    ensures LexLe(RJust(a, 10), RJust(b, 10)) && !LexLe(RJust(b, 10), RJust(a, 10))
  {
    var ra, rb := RJust(a, 10), RJust(b, 10);
    var k := 10 - |b|;
    assert ra[..k] == rb[..k] by {
      assert forall i :: 0 <= i < k ==> ra[i] == ' ' && rb[i] == ' ';
    }
    assert rb[k] == b[0];
    LexFirstDiff(ra, rb, k);
  }

  /** Strings that agree up to `k` and differ there are ordered by that
      character. */
  lemma {:induction false} LexFirstDiff(x: string, y: string, k: nat)
    requires k < |x| && k < |y| && x[..k] == y[..k] && x[k] < y[k]
    ensures LexLe(x, y) && !LexLe(y, x)
    decreases k
  {
    if k > 0 {
      assert x[0] == x[..k][0] == y[..k][0] == y[0];
      assert x[1..][..k - 1] == x[..k][1..] && y[1..][..k - 1] == y[..k][1..];
      LexFirstDiff(x[1..], y[1..], k - 1);
    }
  }


  lemma FieldSplit(k: string, f: string, t: string)
    requires |k| > |f| && k[..|f|] == f && k[|f|] == ':' && k[|f| + 1..] == t
    ensures k == (f + ":") + t
  {
    assert k[..|f| + 1] == f + ":";
    assert k == k[..|f| + 1] + k[|f| + 1..];
  }

  /** The location key cut into its file part and the rest. */
  lemma SourceKeySplit(n: Node)
    ensures var loc := Child(n, "location");
      SourceKey(n) == (Shown(Attr(loc, "file")) + ":")
        + (RJust(Shown(Attr(loc, "line")), 10) + (":" + RJust(Shown(Attr(loc, "column")), 10)))
  {
    var loc := Child(n, "location");
    var a, b := RJust(Shown(Attr(loc, "line")), 10), RJust(Shown(Attr(loc, "column")), 10);
    assert a + ":" + b == a + (":" + b);
    FieldSplit(SourceKey(n), Shown(Attr(loc, "file")), a + ":" + b);
  }

  /** Within one file, entries sort by line number: an entry on an earlier
      line gets the strictly smaller location key, whatever the columns. */
  lemma SourceKeyLineOrder(x: Node, y: Node)
    requires Attr(Child(x, "location"), "file") == Attr(Child(y, "location"), "file")
    requires Attr(Child(x, "location"), "line").Some? && Attr(Child(y, "location"), "line").Some?
    requires var lx, ly := Attr(Child(x, "location"), "line").value, Attr(Child(y, "location"), "line").value;
      Decimal(lx) && Decimal(ly) && |lx| <= 10 && |ly| <= 10
    ensures var lx, ly := Attr(Child(x, "location"), "line").value, Attr(Child(y, "location"), "line").value;
      Value(lx) < Value(ly) ==> LexLe(SourceKey(x), SourceKey(y)) && !LexLe(SourceKey(y), SourceKey(x))
  {
    var lx, ly := Attr(Child(x, "location"), "line").value, Attr(Child(y, "location"), "line").value;
    if Value(lx) < Value(ly) {
      var p := Shown(Attr(Child(x, "location"), "file")) + ":";
      var tx := ":" + RJust(Shown(Attr(Child(x, "location"), "column")), 10);
      var ty := ":" + RJust(Shown(Attr(Child(y, "location"), "column")), 10);
      SourceKeySplit(x);
      SourceKeySplit(y);
      PaddedOrder(ly, lx);
      LexStrictExtend(RJust(lx, 10), RJust(ly, 10), tx, ty);
      LexSamePrefix(p, RJust(lx, 10) + tx, RJust(ly, 10) + ty);
      LexSamePrefix(p, RJust(ly, 10) + ty, RJust(lx, 10) + tx);
    }
  }
}

=== FILE: sink.dfy ===
/** The blank-line squashing output stream (`ostream` in doxylib.py,
    `doxystream` in doxyfmt.py; the two are the same code).  The stream is
    a state -- the buffered unterminated line and the count of consecutive
    blank lines -- threaded through a sequence of `write` calls; each call
    yields the strings it passes on to the underlying stream. */
module Sink {
  import opened Base

  /** `__tail` and `__nlct`. */
  datatype State = State(tail: string, blanks: nat)

  const Initial: State := State("", 0)

  /** The new state, and the strings handed to the underlying stream's
      `write`, in order. */
  datatype Step = Step(st: State, sent: seq<string>)

  predicate Terminated(l: string) {
    l != [] && l[|l| - 1] == '\n'
  }

  /** A blank line: nothing but spaces before its newline. */
  predicate IsBlank(l: string) {
    l == "\n" || (l != [] && l[0] == ' ' && IsBlank(l[1..]))
  }

  /** The length of the first line of `s`, its newline included. */
  function LineLen(s: string): (n: nat)
    requires s != []
    ensures 0 < n <= |s|
    ensures s[n - 1] == '\n' || n == |s|
  {
    if s[0] == '\n' || |s| == 1 then 1 else 1 + LineLen(s[1..])
  }

  /** `s.splitlines(True)` with '\n' as the only line separator. */
  function SplitLines(s: string): (r: seq<string>)
    ensures s == [] <==> r == []
    decreases |s|
  {
    if s == [] then []
    else
      var n := LineLen(s);
      [s[..n]] + SplitLines(s[n..])
  }

  lemma SplitLinesUnfold(s: string)
    requires s != []
    ensures SplitLines(s) == [s[..LineLen(s)]] + SplitLines(s[LineLen(s)..])
  {
  }

  /** The pieces rebuild the text. */
  lemma {:induction false} SplitLinesConcat(s: string)
    ensures Concat(SplitLines(s)) == s
    decreases |s|
  {
    if s != [] {
      var n := LineLen(s);
      SplitLinesConcat(s[n..]);
      SplitLinesUnfold(s);
      ConcatCons(s[..n], SplitLines(s[n..]));
      assert s == s[..n] + s[n..];
    }
  }

  /** Every piece but the last ends with a newline, and the last does too
      when the text does. */
  lemma {:induction false} SplitLinesTerminated(s: string)
    ensures forall i :: 0 <= i < |SplitLines(s)| - 1 ==> Terminated(SplitLines(s)[i])
    ensures s != [] && s[|s| - 1] == '\n' ==> Terminated(SplitLines(s)[|SplitLines(s)| - 1])
    decreases |s|
  {
    if s != [] {
      var n := LineLen(s);
      var rest := SplitLines(s[n..]);
      SplitLinesTerminated(s[n..]);
      assert SplitLines(s) == [s[..n]] + rest;
      if n < |s| {
        assert Terminated(s[..n]);
        assert s[n..][|s[n..]| - 1] == s[|s| - 1];
      }
    }
  }

  /** `ostream.write(s)`. */
  function Write(st: State, s: string): Step {
    WriteLines(st, SplitLines(s))
  }

  /** The loop of `write` over the pieces of one call: the buffered tail
      is prefixed to the first piece (prefixing the empty tail changes
      nothing, which is why the source tests it first) and then cleared. */
  function WriteLines(st: State, lines: seq<string>): (r: Step)
    ensures forall i :: 0 <= i < |r.sent| ==> Terminated(r.sent[i])
    decreases |lines|, 1
  {
    if lines == [] then Step(st, [])
    else Feed(st.blanks, st.tail + lines[0], lines[1..])
  }

  /** One piece `l`, tail already prefixed, then the remaining pieces.  An
      unterminated piece is buffered and ends the call; a blank line is
      forwarded as a bare newline unless it is the third or later in a row;
      any other line is forwarded verbatim. */
  function Feed(blanks: nat, l: string, rest: seq<string>): (r: Step)
    ensures forall i :: 0 <= i < |r.sent| ==> Terminated(r.sent[i])
    decreases |rest| + 1, 0
  {
    if !Terminated(l) then Step(State(l, blanks), [])
    else if !IsBlank(l) then
      var r := WriteLines(State("", 1), rest);
      Step(r.st, [l] + r.sent)
    else
      var r := WriteLines(State("", blanks + 1), rest);
      if 2 < blanks + 1 then r
      else Step(r.st, ["\n"] + r.sent)
  }

  /** No three newlines in a row leave the stream, and two only at the
      very start of an untouched stream: after a non-blank line at most
      one blank line is forwarded. */
  lemma {:induction false} BlanksSquashed(st: State, lines: seq<string>)
    ensures var r := WriteLines(st, lines);
      && (st.blanks >= 2 ==> r.sent == [] || r.sent[0] != "\n")
      && forall i :: (0 <= i < |r.sent| - 1 && r.sent[i] == "\n" && r.sent[i + 1] == "\n"
           ==> i == 0 && st.blanks == 0)
    decreases |lines|
  {
    if lines != [] {
      var l := st.tail + lines[0];
      if Terminated(l) {
        var n := if IsBlank(l) then st.blanks + 1 else 1;
        var r := WriteLines(State("", n), lines[1..]);
        BlanksSquashed(State("", n), lines[1..]);
        assert WriteLines(st, lines) == Feed(st.blanks, l, lines[1..]);
        var out := Feed(st.blanks, l, lines[1..]).sent;
        if !IsBlank(l) {
          assert l != "\n";
          assert out == [l] + r.sent;
        } else if 2 < n {
          assert out == r.sent;
        } else {
          assert out == ["\n"] + r.sent;
          forall i | 0 < i < |out| - 1
            ensures !(out[i] == "\n" && out[i + 1] == "\n")
          {
            assert out[i] == r.sent[i - 1] && out[i + 1] == r.sent[i];
          }
        }
      }
    }
  }

  /** `IsBlank` is the source's test `"\n" == l.lstrip(" ")`, so a blank
      line forwarded as the stripped `t` is a bare newline. */
  lemma {:induction false} IsBlankIsLStripTest(l: string)
    ensures IsBlank(l) <==> LStripChar(l, ' ') == "\n"
    decreases |l|
  {
    if l != [] && l[0] == ' ' {
      IsBlankIsLStripTest(l[1..]);
    }
  }

  // ----- chunking: the buffered tail makes `write` insensitive to how the
  // ----- text is cut into calls

  /** The length of `s` up to and including its last newline. */
  function CompleteLen(s: string): (n: nat)
    ensures n <= |s|
    ensures n == 0 || s[n - 1] == '\n'
    ensures forall j :: n <= j < |s| ==> s[j] != '\n'
  {
    if s == [] then 0
    else if s[|s| - 1] == '\n' then |s|
    else CompleteLen(s[..|s| - 1])
  }

  lemma {:induction false} LineLenOfTerminated(x: string, y: string)
    requires x != [] && x[|x| - 1] == '\n'
    ensures LineLen(x + y) == LineLen(x)
    decreases |x|
  {
    if x[0] != '\n' {
      assert (x + y)[1..] == x[1..] + y;
      LineLenOfTerminated(x[1..], y);
    }
  }

  lemma {:induction false} LineLenAfterPrefix(u: string, b: string)
    requires forall j :: 0 <= j < |u| ==> u[j] != '\n'
    requires b != []
    ensures LineLen(u + b) == |u| + LineLen(b)
    decreases |u|
  {
    if u == [] {
      assert u + b == b;
    } else {
      assert (u + b)[1..] == u[1..] + b;
      LineLenAfterPrefix(u[1..], b);
    }
  }

  /** Splitting after a newline splits the two halves independently. */
  lemma CutAfterPrefix(x: string, y: string, n: nat)
    requires 0 < n <= |x| && x[|x| - 1] == '\n'
    ensures (x + y)[..n] == x[..n] && (x + y)[n..] == x[n..] + y
    ensures x[n..] == [] || x[n..][|x[n..]| - 1] == '\n'
  {
  }

  lemma {:induction false} SplitAppend(x: string, y: string)
    requires x == [] || x[|x| - 1] == '\n'
    ensures SplitLines(x + y) == SplitLines(x) + SplitLines(y)
    decreases |x|
  {
    if x == [] {
      assert x + y == y;
    } else {
      var n := LineLen(x);
      LineLenOfTerminated(x, y);
      CutAfterPrefix(x, y, n);
      SplitAppend(x[n..], y);
      var h := [x[..n]];
      assert SplitLines(x + y) == h + (SplitLines(x[n..]) + SplitLines(y));
      assert SplitLines(x) == h + SplitLines(x[n..]);
      AppendAssoc(h, SplitLines(x[n..]), SplitLines(y));
    }
  }

  /** A newline-free prefix joins the first piece of what follows it. */
  lemma SplitUnterminated(u: string, b: string)
    requires forall j :: 0 <= j < |u| ==> u[j] != '\n'
    ensures b == [] && u == [] ==> SplitLines(u + b) == []
    ensures b == [] && u != [] ==> SplitLines(u + b) == [u]
    ensures b != [] ==> SplitLines(u + b) == [u + SplitLines(b)[0]] + SplitLines(b)[1..]
  {
    if b == [] {
      assert u + b == u;
      if u != [] {
        NoNewlineLen(u);
        SplitWhole(u);
      }
    } else {
      SplitPrefixed(u, b);
    }
  }

  lemma {:induction false} NoNewlineLen(u: string)
    requires u != [] && forall j :: 0 <= j < |u| ==> u[j] != '\n'
    ensures LineLen(u) == |u|
    decreases |u|
  {
    if |u| > 1 {
      NoNewlineLen(u[1..]);
    }
  }

  lemma SplitWhole(u: string)
    requires u != [] && LineLen(u) == |u|
    ensures SplitLines(u) == [u]
  {
    assert u[..|u|] == u;
    assert u[|u|..] == [];
  }

  lemma HeadTail<T>(s: seq<T>, h: T, t: seq<T>)
    requires s == [h] + t
    ensures s[0] == h && s[1..] == t
  {
  }

  lemma PrefixSlices(u: string, b: string, n: nat)
    requires n <= |b|
    ensures (u + b)[..|u| + n] == u + b[..n] && (u + b)[|u| + n..] == b[n..]
  {
  }

  lemma SplitPrefixed(u: string, b: string)
    requires forall j :: 0 <= j < |u| ==> u[j] != '\n'
    requires b != []
    ensures SplitLines(u + b) == [u + SplitLines(b)[0]] + SplitLines(b)[1..]
  {
    var n := LineLen(b);
    LineLenAfterPrefix(u, b);
    var ub := u + b;
    PrefixSlices(u, b, n);
    SplitLinesUnfold(ub);
    SplitLinesUnfold(b);
    var rest := SplitLines(b[n..]);
    HeadTail(SplitLines(b), b[..n], rest);
    assert SplitLines(ub) == [u + b[..n]] + rest;
  }

  lemma {:induction false} WriteLinesAppend(st: State, xs: seq<string>, ys: seq<string>)
    requires forall i :: 0 <= i < |xs| ==> Terminated(xs[i])
    ensures var r1 := WriteLines(st, xs);
            var r2 := WriteLines(r1.st, ys);
            WriteLines(st, xs + ys) == Step(r2.st, r1.sent + r2.sent)
    decreases |xs|
  {
    if xs == [] {
      assert xs + ys == ys;
    } else {
      var l := st.tail + xs[0];
      assert (xs + ys)[0] == xs[0];
      assert (xs + ys)[1..] == xs[1..] + ys;
      assert Terminated(l);
      var n := if IsBlank(l) then st.blanks + 1 else 1;
      WriteLinesAppend(State("", n), xs[1..], ys);
    }
  }

  lemma WriteLinesUnterminated(t: string, n: nat, u: string, b: string)
    requires forall j :: 0 <= j < |u| ==> u[j] != '\n'
    ensures WriteLines(State(t, n), SplitLines(u + b)) == WriteLines(State(t + u, n), SplitLines(b))
  {
    if b == [] {
      BufferedOnly(t, n, u);
    } else {
      BufferedJoins(t, n, u, b);
    }
  }

  lemma BufferedOnly(t: string, n: nat, u: string)
    requires forall j :: 0 <= j < |u| ==> u[j] != '\n'
    ensures WriteLines(State(t, n), SplitLines(u + [])) == WriteLines(State(t + u, n), SplitLines([]))
  {
    SplitUnterminated(u, []);
    assert SplitLines([]) == [];
    if u == [] {
      assert t + u == t;
    } else {
      WriteLinesCons(State(t, n), u, []);
      assert !Terminated(t + u);
    }
  }

  lemma BufferedJoins(t: string, n: nat, u: string, b: string)
    requires forall j :: 0 <= j < |u| ==> u[j] != '\n'
    requires b != []
    ensures WriteLines(State(t, n), SplitLines(u + b)) == WriteLines(State(t + u, n), SplitLines(b))
  {
    SplitUnterminated(u, b);
    var ls := SplitLines(b);
    var b0, rest := ls[0], ls[1..];
    assert ls == [b0] + rest;
    WriteLinesCons(State(t, n), u + b0, rest);
    WriteLinesCons(State(t + u, n), b0, rest);
    AppendAssoc(t, u, b0);
  }

  lemma WriteLinesCons(st: State, l: string, rest: seq<string>)
    ensures WriteLines(st, [l] + rest) == Feed(st.blanks, st.tail + l, rest)
  {
    assert ([l] + rest)[0] == l && ([l] + rest)[1..] == rest;
  }

  /** Writing `a` and then `b` forwards exactly what writing `a + b` at once
      forwards, and leaves the same state: only whole lines leave the
      stream, whatever the cut. */
  lemma WriteAfterLines(st: State, x: string, v: string)
    requires x == [] || x[|x| - 1] == '\n'
    ensures var r0 := WriteLines(st, SplitLines(x));
            var r := WriteLines(r0.st, SplitLines(v));
            Write(st, x + v) == Step(r.st, r0.sent + r.sent)
  {
    SplitAppend(x, v);
    SplitLinesTerminated(x);
    WriteLinesAppend(st, SplitLines(x), SplitLines(v));
  }

  lemma WriteIsChunkInvariant(st: State, a: string, b: string)
    ensures var r1 := Write(st, a);
            var r2 := Write(r1.st, b);
            Write(st, a + b) == Step(r2.st, r1.sent + r2.sent)
  {
    var k := CompleteLen(a);
    var x, u := a[..k], a[k..];
    assert a == x + u;
    assert a + b == x + (u + b);
    forall j | 0 <= j < |u|
      ensures u[j] != '\n'
    {
      assert u[j] == a[k + j];
    }
    var r0 := WriteLines(st, SplitLines(x));
    var mid := State(r0.st.tail + u, r0.st.blanks);
    var r1 := Write(st, a);
    assert r1 == Step(mid, r0.sent) by {
      WriteAfterLines(st, x, u);
      WriteLinesUnterminated(r0.st.tail, r0.st.blanks, u, "");
      assert u + "" == u;
      assert SplitLines("") == [];
    }
    var r2 := Write(mid, b);
    assert Write(st, a + b) == Step(r2.st, r0.sent + r2.sent) by {
      WriteAfterLines(st, x, u + b);
      WriteLinesUnterminated(r0.st.tail, r0.st.blanks, u, b);
    }
  }

  /** Without a newline nothing is forwarded: the text joins the buffered
      tail, which is never emitted on its own. */
  lemma UnterminatedIsBuffered(st: State, s: string)
    requires forall j :: 0 <= j < |s| ==> s[j] != '\n'
    ensures Write(st, s) == Step(State(st.tail + s, st.blanks), [])
  {
    WriteLinesUnterminated(st.tail, st.blanks, s, "");
    assert s + "" == s;
    assert st.tail + s == (st.tail + s) + "";
  }

  // ----- the documented examples -----

  /** A line with its only newline at the end is one piece. */
  lemma SplitLine(l: string, s: string)
    requires Terminated(l)
    requires forall j :: 0 <= j < |l| - 1 ==> l[j] != '\n'
    ensures SplitLines(l + s) == [l] + SplitLines(s)
  {
    var u := l[..|l| - 1];
    assert l == u + "\n";
    assert l + s == u + ("\n" + s);
    LineLenAfterPrefix(u, "\n" + s);
    assert (l + s)[..|l|] == l;
    assert (l + s)[|l|..] == s;
  }

  /** A single non-blank line: terminated, with no other newline and no
      leading space. */
  predicate TextLine(l: string) {
    && Terminated(l) && l[0] != ' ' && l != "\n"
    && forall j :: 0 <= j < |l| - 1 ==> l[j] != '\n'
  }

  lemma SquashableLines(x: string, y: string)
    requires TextLine(x) && TextLine(y)
    ensures SplitLines(x + "\n\n\n" + y) == [x, "\n", "\n", "\n", y]
  {
    var e := "\n";
    SplitSingle(y);
    ConsLines(e, y, [y]);
    ConsLines(e, e + y, [e] + [y]);
    ConsLines(e, e + (e + y), [e] + ([e] + [y]));
    ConsLines(x, e + (e + (e + y)), [e] + ([e] + ([e] + [y])));
    NewlineRunNested(x, y);
    SingletonsNested(x, e, e, e, y);
  }

  lemma SplitSingle(l: string)
    requires TextLine(l)
    ensures SplitLines(l) == [l]
  {
    SplitLine(l, "");
    assert l + "" == l;
  }

  lemma ConsLines(l: string, s: string, ls: seq<string>)
    requires Terminated(l) && forall j :: 0 <= j < |l| - 1 ==> l[j] != '\n'
    requires SplitLines(s) == ls
    ensures SplitLines(l + s) == [l] + ls
  {
    SplitLine(l, s);
  }

  /** Three newlines between two texts, written as three one-character
      pieces. */
  lemma NewlineRunNested(x: string, y: string)
    ensures x + "\n\n\n" + y == x + ("\n" + ("\n" + ("\n" + y)))
  {
    assert "\n\n\n" + y == "\n" + ("\n" + ("\n" + y));
  }

  /** Five one-element sequences joined from the right are the
      five-element list. */
  lemma SingletonsNested<T>(a: T, b: T, c: T, d: T, e: T)
    ensures [a] + ([b] + ([c] + ([d] + [e]))) == [a, b, c, d, e]
  {
  }

  /** A blank line -- spaces allowed before its newline -- arriving after
      `n` blank lines in a row: a bare newline is forwarded for the first
      two of a run, nothing for the rest. */
  lemma BlankStep(n: nat, l: string, rest: seq<string>)
    requires IsBlank(l)
    ensures WriteLines(State("", n), [l] + rest).sent
      == (if n < 2 then ["\n"] else []) + WriteLines(State("", n + 1), rest).sent
  {
    BlankTerminated(l);
    assert "" + l == l;
    assert ([l] + rest)[1..] == rest;
  }

  lemma {:induction false} BlankTerminated(l: string)
    requires IsBlank(l)
    ensures Terminated(l)
    decreases |l|
  {
    if l != "\n" {
      BlankTerminated(l[1..]);
      assert l[|l| - 1] == l[1..][|l[1..]| - 1];
    }
  }

  // ----- what gets through: every non-blank line, in order

  /** The lines of `ls` that are not blank, in order. */
  function NonBlank(ls: seq<string>): (r: seq<string>)
    ensures |r| <= |ls|
    ensures forall i :: 0 <= i < |r| ==> !IsBlank(r[i])
  {
    if ls == [] then []
    else (if IsBlank(ls[0]) then [] else [ls[0]]) + NonBlank(ls[1..])
  }

  lemma NonBlankCons(l: string, ls: seq<string>)
    ensures NonBlank([l] + ls) == (if IsBlank(l) then [] else [l]) + NonBlank(ls)
  {
    assert ([l] + ls)[1..] == ls;
  }

  /** Fed whole lines, the stream forwards exactly their non-blank lines,
      in order and unchanged, and every blank line it forwards is a bare
      newline; nothing is left buffered. */
  lemma {:induction false} NonBlankKept(st: State, lines: seq<string>)
    requires st.tail == ""
    requires forall i :: 0 <= i < |lines| ==> Terminated(lines[i])
    ensures var r := WriteLines(st, lines);
      && NonBlank(r.sent) == NonBlank(lines)
      && (forall i :: 0 <= i < |r.sent| && IsBlank(r.sent[i]) ==> r.sent[i] == "\n")
      && r.st.tail == ""
    decreases |lines|
  {
    if lines != [] {
      var l := lines[0];
      assert st.tail + l == l;
      assert Terminated(l);
      var n := if IsBlank(l) then st.blanks + 1 else 1;
      var r := WriteLines(State("", n), lines[1..]);
      NonBlankKept(State("", n), lines[1..]);
      assert WriteLines(st, lines) == Feed(st.blanks, l, lines[1..]);
      NonBlankCons(l, lines[1..]);
      assert [l] + lines[1..] == lines;
      var out := Feed(st.blanks, l, lines[1..]).sent;
      if !IsBlank(l) {
        assert out == [l] + r.sent;
        NonBlankCons(l, r.sent);
      } else if n <= 2 {
        assert out == ["\n"] + r.sent;
        assert IsBlank("\n");
        NonBlankCons("\n", r.sent);
      }
    }
  }

  /** One whole write of newline-terminated text to a fresh stream: what
      comes out, blank lines aside, is the text's non-blank lines in order,
      and a blank line comes out only as a bare newline. */
  lemma WriteKeepsText(s: string)
    requires s == [] || s[|s| - 1] == '\n'
    ensures var r := Write(Initial, s);
      && NonBlank(r.sent) == NonBlank(SplitLines(s))
      && (forall i :: 0 <= i < |r.sent| && IsBlank(r.sent[i]) ==> r.sent[i] == "\n")
      && r.st == State("", r.st.blanks)
  {
    SplitLinesTerminated(s);
    NonBlankKept(Initial, SplitLines(s));
  }

  /** A non-blank line, forwarded verbatim. */
  lemma TextStep(n: nat, l: string, rest: seq<string>)
    requires TextLine(l)
    ensures WriteLines(State("", n), [l] + rest).sent == [l] + WriteLines(State("", 1), rest).sent
  {
    assert "" + l == l;
    assert ([l] + rest)[1..] == rest;
    assert !IsBlank(l);
  }

  /** Three blank lines between two lines of text leave the stream as
      one. */
  lemma SquashExample(x: string, y: string)
    requires TextLine(x) && TextLine(y)
    ensures Write(Initial, x + "\n\n\n" + y).sent == [x, "\n", y]
  {
    SquashableLines(x, y);
    SquashedLines(x, y);
  }

  lemma SquashedLines(x: string, y: string)
    requires TextLine(x) && TextLine(y)
    ensures WriteLines(State("", 0), [x, "\n", "\n", "\n", y]).sent == [x, "\n", y]
  {
    var e := "\n";
    var l3 := [e] + [y];
    var l2 := [e] + l3;
    var l1 := [e] + l2;
    SingletonsNested(x, e, e, e, y);
    TextStep(0, x, l1);
    BlankStep(1, e, l2);
    BlankStep(2, e, l3);
    BlankStep(3, e, [y]);
    assert [y] == [y] + [];
    TextStep(4, y, []);
    assert WriteLines(State("", 4), [y]).sent == [y];
    assert WriteLines(State("", 2), l2).sent == [y];
    assert [x] + ([e] + [y]) == [x, e, y];
  }

  // ----- a sequence of writes -----

  /** Successive `write` calls on one stream, threading its state; the
      strings forwarded by all of them, in order. */
  function WriteAll(st: State, ss: seq<string>): (r: Step)
    ensures forall i :: 0 <= i < |r.sent| ==> Terminated(r.sent[i])
    decreases |ss|
  {
    if ss == [] then Step(st, [])
    else
      var r1 := Write(st, ss[0]);
      var r2 := WriteAll(r1.st, ss[1..]);
      Step(r2.st, r1.sent + r2.sent)
  }

  /** However the text is cut into writes, the stream forwards what one
      write of the whole text forwards. */
  lemma {:induction false} WriteAllIsOneWrite(st: State, ss: seq<string>)
    ensures WriteAll(st, ss) == Write(st, Concat(ss))
    decreases |ss|
  {
    if ss == [] {
      assert SplitLines("") == [];
    } else {
      WriteAllIsOneWrite(Write(st, ss[0]).st, ss[1..]);
      WriteIsChunkInvariant(st, ss[0], Concat(ss[1..]));
    }
  }

  lemma TwoWritesAreOne()
    ensures WriteAll(Initial, ["x\ny", "z\n"]) == Write(Initial, "x\nyz\n")
  {
    WriteAllIsOneWrite(Initial, ["x\ny", "z\n"]);
    ConcatTwo("x\ny", "z\n");
    assert "x\ny" + "z\n" == "x\nyz\n";
  }

  lemma ConcatTwo(a: string, b: string)
    ensures Concat([a, b]) == a + b
  {
    assert [a, b] == [a] + [b];
    ConcatCons(a, [b]);
    ConcatCons(b, []);
    assert b + "" == b;
  }

  lemma JoinedLines()
    ensures SplitLines("x\nyz\n") == ["x\n", "yz\n"]
  {
    assert TextLine("yz\n") && TextLine("x\n");
    SplitSingle("yz\n");
    ConsLines("x\n", "yz\n", ["yz\n"]);
    assert "x\n" + "yz\n" == "x\nyz\n";
    assert ["x\n"] + ["yz\n"] == ["x\n", "yz\n"];
  }

  lemma JoinedForwarded()
    ensures Write(Initial, "x\nyz\n").sent == ["x\n", "yz\n"]
  {
    JoinedLines();
    TwoTextLines(0, "x\n", "yz\n");
  }

  /** Two lines of text pass unchanged, whatever came before. */
  lemma TwoTextLines(n: nat, a: string, b: string)
    requires TextLine(a) && TextLine(b)
    ensures WriteLines(State("", n), [a, b]).sent == [a, b]
  {
    assert [a, b] == [a] + [b];
    TextStep(n, a, [b]);
    assert [b] == [b] + [];
    TextStep(1, b, []);
  }

  /** "x\ny" and then "z\n": the unterminated "y" waits for the next write
      and leaves joined to it. */
  lemma TailJoinsNextWrite()
    ensures WriteAll(Initial, ["x\ny", "z\n"]).sent == ["x\n", "yz\n"]
    ensures Concat(WriteAll(Initial, ["x\ny", "z\n"]).sent) == "x\nyz\n"
  {
    TwoWritesAreOne();
    JoinedForwarded();
    ConcatTwo("x\n", "yz\n");
    assert "x\n" + "yz\n" == "x\nyz\n";
  }
}

=== FILE: template.dfy ===
/** The line translator of the Python Template Language: a line whose
    first non-blank character is `:` is output text, in which `${expr}`
    marks an expression; every other line is Python code kept verbatim.
    Instead of Python source the translator here yields the statements a
    copy line turns into. */
module Template {
  import opened Base

  /** One statement of a copy line: write a literal, or write the string
      value of an expression. */
  datatype Stmt = Literal(text: string) | Expr(code: string)

  /** A translated line: code kept as is, or the indentation of a copy line
      and the statements it stands for, joined by `;` in the output. */
  datatype OutLine = Verbatim(line: string) | Copy(indent: string, stmts: seq<Stmt>)

  // ----- the expression pattern `\$\{([^}]+)\}` -----

  /** The first `}` at or after `k`. */
  function CloseFrom(s: string, k: nat): (r: Option<nat>)
    requires k <= |s|
    ensures r.Some? ==> k <= r.value < |s| && s[r.value] == '}'
    ensures r.Some? ==> forall m :: k <= m < r.value ==> s[m] != '}'
    ensures r.None? ==> forall m :: k <= m < |s| ==> s[m] != '}'
    decreases |s| - k
  {
    if k == |s| then None
    else if s[k] == '}' then Some(k)
    else CloseFrom(s, k + 1)
  }

  /** Where a match starting at `i` ends (the index of its `}`): `${`, at
      least one character other than `}`, then `}`. */
  function MatchEnd(s: string, i: nat): Option<nat>
    requires i <= |s|
  {
    if i + 1 < |s| && s[i] == '$' && s[i + 1] == '{' then
      match CloseFrom(s, i + 2)
      case Some(j) => if j > i + 2 then Some(j) else None
      case None => None
    else None
  }

  predicate HasMatch(s: string, i: nat)
    requires i <= |s|
  {
    MatchEnd(s, i).Some?
  }

  /** A text with no expression in it. */
  predicate Plain(s: string) {
    forall i :: 0 <= i <= |s| ==> !HasMatch(s, i)
  }

  /** The leftmost match at or after `k`, as the regular-expression search
      finds it. */
  function Leftmost(s: string, k: nat): (r: Option<nat>)
    requires k <= |s|
    ensures r.Some? ==> k <= r.value <= |s| && HasMatch(s, r.value)
    ensures r.Some? ==> forall m :: k <= m < r.value ==> !HasMatch(s, m)
    ensures r.None? ==> forall m :: k <= m <= |s| ==> !HasMatch(s, m)
    decreases |s| - k
  {
    if HasMatch(s, k) then Some(k)
    else if k == |s| then None
    else Leftmost(s, k + 1)
  }

  /** `template_expr_re.split(s)`: literal, expression, literal, ...,
      literal -- always an odd number of pieces, empty ones included. */
  function Split(s: string): (r: seq<string>)
    ensures |r| % 2 == 1
    decreases |s|
  {
    match Leftmost(s, 0)
    case None => [s]
    case Some(i) =>
      var j := MatchEnd(s, i).value;
      [s[..i], s[i + 2..j]] + Split(s[j + 1..])
  }

  /** The inverse of `Split`: expressions wrapped back into `${...}`. */
  function Rejoin(ps: seq<string>): string
    requires |ps| % 2 == 1
  {
    if |ps| == 1 then ps[0]
    else ps[0] + "${" + ps[1] + "}" + Rejoin(ps[2..])
  }

  /** `enumerate(...) if p`: the pieces at even positions become literals,
      those at odd positions expressions, and empty pieces are dropped. */
  function Stmts(ps: seq<string>): seq<Stmt>
    requires |ps| % 2 == 1
  {
    (if ps[0] != "" then [Literal(ps[0])] else [])
    + (if |ps| == 1 then []
       else (if ps[1] != "" then [Expr(ps[1])] else []) + Stmts(ps[2..]))
  }

  /** The template text a statement list comes from: each expression
      written back as `${code}`. */
  function Source(stmts: seq<Stmt>): string {
    if stmts == [] then ""
    else
      (match stmts[0]
       case Literal(t) => t
       case Expr(e) => "${" + e + "}")
      + Source(stmts[1..])
  }

  /** The output a statement list writes, given the string value of every
      expression. */
  function Render(stmts: seq<Stmt>, value: string -> string): string {
    if stmts == [] then ""
    else
      (match stmts[0]
       case Literal(t) => t
       case Expr(e) => value(e))
      + Render(stmts[1..], value)
  }

  // ----- the copy pattern `^(\s*): ?(.*)` with DOTALL -----

  /** A copy line: only whitespace before its first `:`. */
  predicate IsCopy(line: string) {
    var rest := LStrip(line);
    rest != [] && rest[0] == ':'
  }

  /** The whitespace a line starts with. */
  function Indent(line: string): (r: string)
    ensures |r| <= |line| && AllSpace(r) && line[..|r|] == r
  {
    line[..|line| - |LStrip(line)|]
  }

  /** The text a copy line copies: after the `:` and at most one space. */
  function CopiedText(line: string): string
    requires IsCopy(line)
  {
    var body := LStrip(line)[1..];
    if body != [] && body[0] == ' ' then body[1..] else body
  }

  /** `template_translate` on one line. */
  function Translate(line: string): (r: OutLine)
    ensures r.Verbatim? <==> !IsCopy(line)
    ensures r.Verbatim? ==> r.line == line
    ensures r.Copy? ==> |r.indent| < |line| && line[..|r.indent|] == r.indent
    ensures r.Copy? ==> AllSpace(r.indent) && line[|r.indent|] == ':'
  {
    if IsCopy(line) then Copy(Indent(line), Stmts(Split(CopiedText(line))))
    else Verbatim(line)
  }

  /** `template_translate(source)`: every line of the template yields
      exactly one translated line, in order; code lines are kept verbatim. */
  function TranslateSource(source: seq<string>): (r: seq<OutLine>)
    ensures |r| == |source|
    ensures forall i :: 0 <= i < |source| ==> (r[i].Verbatim? <==> !IsCopy(source[i]))
    ensures forall i :: 0 <= i < |source| && r[i].Verbatim? ==> r[i].line == source[i]
  {
    if source == [] then [] else [Translate(source[0])] + TranslateSource(source[1..])
  }

  // ----- properties -----

  /** `IsCopy` agrees with the reading "some whitespace, then a colon". */
  lemma IsCopyIffColonAfterSpace(line: string, k: nat)
    requires k < |line| && AllSpace(line[..k]) && line[k] == ':'
    ensures IsCopy(line)
    ensures Translate(line).Copy? && Translate(line).indent == line[..k]
  {
    LStripAfterSpaces(line, k);
    assert LStrip(line[k..]) == line[k..];
  }

  lemma {:induction false} SplitRejoins(s: string)
    ensures Rejoin(Split(s)) == s
    decreases |s|
  {
    match Leftmost(s, 0)
    case None =>
    case Some(i) =>
      var j := MatchEnd(s, i).value;
      var r := Split(s[j + 1..]);
      SplitRejoins(s[j + 1..]);
      assert Split(s) == [s[..i], s[i + 2..j]] + r;
      assert (([s[..i], s[i + 2..j]] + r))[2..] == r;
      assert s[i..i + 2] == "${";
      assert s == s[..i] + "${" + s[i + 2..j] + "}" + s[j + 1..];
  }

  /** Every expression piece is non-empty and holds no `}`. */
  lemma {:induction false} SplitExpressions(s: string)
    ensures forall t :: 0 <= t < |Split(s)| && t % 2 == 1 ==>
      Split(s)[t] != "" && '}' !in Split(s)[t]
    decreases |s|
  {
    match Leftmost(s, 0)
    case None =>
    case Some(i) =>
      var j := MatchEnd(s, i).value;
      var r := Split(s[j + 1..]);
      SplitExpressions(s[j + 1..]);
      var ps := [s[..i], s[i + 2..j]] + r;
      assert Split(s) == ps;
      forall t | 0 <= t < |ps| && t % 2 == 1
        ensures ps[t] != "" && '}' !in ps[t]
      {
        if t == 1 {
          forall m | 0 <= m < |ps[1]|
            ensures ps[1][m] != '}'
          {
            assert ps[1][m] == s[i + 2 + m];
          }
        } else {
          assert ps[t] == r[t - 2];
        }
      }
  }

  /** A match inside a prefix is a match of the whole text. */
  lemma MatchInPrefix(s: string, n: nat, k: nat)
    requires k <= n <= |s|
    requires HasMatch(s[..n], k)
    ensures HasMatch(s, k)
  {
    var p := s[..n];
    var j := CloseFrom(p, k + 2).value;
    assert p[j] == s[j];
    forall m | k + 2 <= m < j
      ensures s[m] != '}'
    {
      assert p[m] == s[m];
    }
    var j' := CloseFrom(s, k + 2).value;
    assert j' == j;
  }

  /** A match inside a suffix is a match of the whole text, shifted. */
  lemma MatchInSuffix(s: string, n: nat, k: nat)
    requires n <= |s| && k <= |s| - n
    requires HasMatch(s[n..], k)
    ensures HasMatch(s, n + k)
  {
    var q := s[n..];
    var j := CloseFrom(q, k + 2).value;
    assert q[j] == s[n + j];
    forall m | n + k + 2 <= m < n + j
      ensures s[m] != '}'
    {
      assert q[m - n] == s[m];
    }
    var j' := CloseFrom(s, n + k + 2).value;
    assert j' == n + j;
  }

  /** The literal pieces hold no expression: the split takes every match,
      leftmost first. */
  lemma {:induction false} SplitLiterals(s: string)
    ensures forall t :: 0 <= t < |Split(s)| && t % 2 == 0 ==> Plain(Split(s)[t])
    decreases |s|
  {
    match Leftmost(s, 0)
    case None =>
      assert Split(s) == [s];
    case Some(i) =>
      var j := MatchEnd(s, i).value;
      var r := Split(s[j + 1..]);
      SplitLiterals(s[j + 1..]);
      var ps := [s[..i], s[i + 2..j]] + r;
      assert Split(s) == ps;
      forall k | 0 <= k <= i
        ensures !HasMatch(s[..i], k)
      {
        if HasMatch(s[..i], k) {
          MatchInPrefix(s, i, k);
        }
      }
      forall t | 0 <= t < |ps| && t % 2 == 0
        ensures Plain(ps[t])
      {
        if t > 0 {
          assert ps[t] == r[t - 2];
        }
      }
  }

  /** The statements write back exactly what was split, empty pieces
      dropped. */
  lemma {:induction false} StmtsSource(ps: seq<string>)
    requires |ps| % 2 == 1
    requires forall t :: 0 <= t < |ps| && t % 2 == 1 ==> ps[t] != ""
    ensures Source(Stmts(ps)) == Rejoin(ps)
    decreases |ps|
  {
    var lead := if ps[0] != "" then [Literal(ps[0])] else [];
    SourceLead(ps[0]);
    if |ps| > 1 {
      var rest := ps[2..];
      forall t | 0 <= t < |rest| && t % 2 == 1
        ensures rest[t] != ""
      {
        assert rest[t] == ps[t + 2];
      }
      StmtsSource(rest);
      var tail := Stmts(rest);
      assert Stmts(ps) == lead + ([Expr(ps[1])] + tail);
      SourceAppend(lead, [Expr(ps[1])] + tail);
      SourceCons(Expr(ps[1]), tail);
      AppendAssoc(ps[0], "${" + ps[1] + "}", Rejoin(rest));
    } else {
      assert Stmts(ps) == lead + [];
      SourceAppend(lead, []);
    }
  }

  lemma SourceLead(t: string)
    ensures Source(if t != "" then [Literal(t)] else []) == t
  {
    if t != "" {
      assert [Literal(t)][1..] == [];
    }
  }

  lemma SourceCons(e: Stmt, tail: seq<Stmt>)
    requires e.Expr?
    ensures Source([e] + tail) == "${" + e.code + "}" + Source(tail)
  {
    assert ([e] + tail)[0] == e;
    assert ([e] + tail)[1..] == tail;
  }

  lemma SourceAppend(a: seq<Stmt>, b: seq<Stmt>)
    ensures Source(a + b) == Source(a) + Source(b)
  {
    if a == [] {
      assert a + b == b;
    } else {
      assert (a + b)[0] == a[0];
      assert (a + b)[1..] == a[1..] + b;
      SourceAppend(a[1..], b);
    }
  }

  /** A copy line is its indentation, the colon, at most one space, and
      the copied text. */
  lemma CopyLineShape(line: string)
    requires IsCopy(line)
    ensures line == Indent(line) + ":" + CopiedText(line) || line == Indent(line) + ": " + CopiedText(line)
  {
    var rest := LStrip(line);
    var indent := Indent(line);
    IndentThenRest(line);
    CopiedRest(line);
    if rest == ":" + CopiedText(line) {
      AppendAssoc(indent, ":", CopiedText(line));
    } else {
      AppendAssoc(indent, ": ", CopiedText(line));
    }
  }

  lemma IndentThenRest(line: string)
    ensures line == Indent(line) + LStrip(line)
  {
    var p := |line| - |LStrip(line)|;
    assert line == line[..p] + line[p..];
  }

  lemma CopiedRest(line: string)
    requires IsCopy(line)
    ensures LStrip(line) == ":" + CopiedText(line) || LStrip(line) == ": " + CopiedText(line)
  {
    var rest := LStrip(line);
    var body := rest[1..];
    assert rest == ":" + body;
    if body != [] && body[0] == ' ' {
      assert body == " " + body[1..];
    }
  }

  /** Round trip: a copy line is rebuilt from its indentation and its
      statements, up to the one optional space after the colon. */
  lemma TranslateRoundTrip(line: string)
    requires IsCopy(line)
    ensures Translate(line).Copy?
    ensures var r := Translate(line);
      line == r.indent + ":" + Source(r.stmts) || line == r.indent + ": " + Source(r.stmts)
  {
    var text := CopiedText(line);
    SplitRejoins(text);
    SplitExpressions(text);
    StmtsSource(Split(text));
    CopyLineShape(line);
  }

  /** Every copy line's statements are well formed: literals are non-empty
      and free of `${...}`, expressions are non-empty and free of `}`. */
  lemma {:induction false} StmtsWellFormed(ps: seq<string>)
    requires |ps| % 2 == 1
    requires forall t :: 0 <= t < |ps| && t % 2 == 0 ==> Plain(ps[t])
    requires forall t :: 0 <= t < |ps| && t % 2 == 1 ==> ps[t] != "" && '}' !in ps[t]
    ensures forall m :: 0 <= m < |Stmts(ps)| && Stmts(ps)[m].Literal? ==>
      Stmts(ps)[m].text != "" && Plain(Stmts(ps)[m].text)
    ensures forall m :: 0 <= m < |Stmts(ps)| && Stmts(ps)[m].Expr? ==>
      Stmts(ps)[m].code != "" && '}' !in Stmts(ps)[m].code
    decreases |ps|
  {
    if |ps| > 1 {
      var rest := ps[2..];
      forall t | 0 <= t < |rest|
        ensures rest[t] == ps[t + 2]
      {
      }
      StmtsWellFormed(rest);
    }
  }

  lemma CopyStmtsWellFormed(line: string)
    requires IsCopy(line)
    ensures var r := Translate(line);
      && (forall m :: 0 <= m < |r.stmts| && r.stmts[m].Literal? ==>
            r.stmts[m].text != "" && Plain(r.stmts[m].text))
      && (forall m :: 0 <= m < |r.stmts| && r.stmts[m].Expr? ==>
            r.stmts[m].code != "" && '}' !in r.stmts[m].code)
  {
    var text := CopiedText(line);
    SplitLiterals(text);
    SplitExpressions(text);
    StmtsWellFormed(Split(text));
  }

  // ----- the trailing newline (DOTALL) -----

  lemma {:induction false} SplitLastPiece(s: string)
    requires s != [] && s[|s| - 1] != '}'
    ensures var ps := Split(s);
      ps[|ps| - 1] != [] && ps[|ps| - 1][|ps[|ps| - 1]| - 1] == s[|s| - 1]
    decreases |s|
  {
    match Leftmost(s, 0)
    case None =>
    case Some(i) =>
      var j := MatchEnd(s, i).value;
      var q := s[j + 1..];
      assert q != [] && q[|q| - 1] == s[|s| - 1];
      SplitLastPiece(q);
      var ps := [s[..i], s[i + 2..j]] + Split(q);
      assert Split(s) == ps;
      assert ps[|ps| - 1] == Split(q)[|Split(q)| - 1];
  }

  lemma {:induction false} StmtsLast(ps: seq<string>)
    requires |ps| % 2 == 1 && ps[|ps| - 1] != ""
    ensures Stmts(ps) != [] && Stmts(ps)[|Stmts(ps)| - 1] == Literal(ps[|ps| - 1])
    decreases |ps|
  {
    if |ps| > 1 {
      var rest := ps[2..];
      assert rest[|rest| - 1] == ps[|ps| - 1];
      StmtsLast(rest);
    }
  }

  /** The statements end by writing a literal whose last character is a
      newline. */
  predicate EndsWithNewline(stmts: seq<Stmt>) {
    && stmts != [] && stmts[|stmts| - 1].Literal?
    && var t := stmts[|stmts| - 1].text; t != [] && t[|t| - 1] == '\n'
  }

  /** The copy pattern's `.*` takes the line's newline too, so a copy line
      that ends with a newline ends with a literal that writes it. */
  lemma TrailingNewlineIsLiteral(line: string)
    requires IsCopy(line) && line[|line| - 1] == '\n'
    ensures Translate(line).Copy? && EndsWithNewline(Translate(line).stmts)
  {
    var text := CopiedText(line);
    CopiedTextEnd(line);
    EndsWithLiteral(text);
  }

  lemma EndsWithLiteral(text: string)
    requires text != [] && text[|text| - 1] == '\n'
    ensures EndsWithNewline(Stmts(Split(text)))
  {
    SplitLastPiece(text);
    LiteralLast(Split(text));
  }

  lemma LiteralLast(ps: seq<string>)
    requires |ps| % 2 == 1
    requires var last := ps[|ps| - 1]; last != "" && last[|last| - 1] == '\n'
    ensures EndsWithNewline(Stmts(ps))
  {
    StmtsLast(ps);
  }

  /** The copied text runs to the end of the line. */
  lemma CopiedTextEnd(line: string)
    requires IsCopy(line)
    ensures CopiedText(line) != [] ==> CopiedText(line)[|CopiedText(line)| - 1] == line[|line| - 1]
    ensures line[|line| - 1] != ':' && line[|line| - 1] != ' ' ==> CopiedText(line) != []
  {
    var rest := LStrip(line);
    var text := CopiedText(line);
    CopiedRest(line);
    assert rest[|rest| - 1] == line[|line| - 1];
    if text != [] {
      assert rest[|rest| - 1] == text[|text| - 1];
    }
  }

  // ----- rendering -----

  /** Text without `${...}` is copied verbatim, whatever the expressions
      would have produced. */
  lemma PlainTextCopiedVerbatim(line: string, value: string -> string)
    requires IsCopy(line) && Plain(CopiedText(line))
    ensures Render(Translate(line).stmts, value) == CopiedText(line)
  {
    var text := CopiedText(line);
    assert Leftmost(text, 0).None?;
    assert Split(text) == [text];
    assert Translate(line).stmts == Stmts([text]);
    if text != "" {
      assert Stmts([text]) == [Literal(text)];
      assert Render([Literal(text)], value) == text + Render([], value);
    }
  }

  /** Writing every expression back as its own placeholder reproduces the
      template text: rendering and `Source` agree. */
  lemma {:induction false} RenderPlaceholders(stmts: seq<Stmt>)
    ensures Render(stmts, e => "${" + e + "}") == Source(stmts)
    decreases |stmts|
  {
    if stmts != [] {
      RenderPlaceholders(stmts[1..]);
    }
  }

  /** A translated copy line, run with every expression written back as its
      placeholder, writes exactly the template text it was translated from. */
  lemma CopyLineRendersBack(line: string)
    requires IsCopy(line)
    ensures Render(Translate(line).stmts, e => "${" + e + "}") == CopiedText(line)
  {
    var text := CopiedText(line);
    SplitRejoins(text);
    SplitExpressions(text);
    StmtsSource(Split(text));
    RenderPlaceholders(Stmts(Split(text)));
  }

  // ----- the two-line example -----

  const ValueLine: string := ": value is ${x}\n"

  lemma ValueLineSplit()
    ensures Split("value is ${x}\n") == ["value is ", "x", "\n"]
  {
    var text := "value is ${x}\n";
    assert CloseFrom(text, 11) == Some(12);
    assert MatchEnd(text, 9) == Some(12);
    assert forall m :: 0 <= m < 9 ==> !HasMatch(text, m);
    assert Leftmost(text, 0) == Some(9);
    assert text[..9] == "value is " && text[11..12] == "x" && text[13..] == "\n";
    assert Leftmost("\n", 0) == None;
    assert Split("\n") == ["\n"];
    assert Split(text) == [text[..9], text[11..12]] + Split(text[13..]);
    assert ["value is ", "x"] + ["\n"] == ["value is ", "x", "\n"];
  }

  const ValueStmts: seq<Stmt> := [Literal("value is "), Expr("x"), Literal("\n")]

  /** An unindented copy line with a space after its colon. */
  lemma TranslateColonSpace(text: string)
    ensures Translate(": " + text) == Copy("", Stmts(Split(text)))
  {
    var line := ": " + text;
    assert !IsSpace(line[0]);
    assert LStrip(line) == line;
    assert line[1..] == " " + text;
    assert (" " + text)[1..] == text;
  }

  /** An unindented line that does not start with a colon is code. */
  lemma TranslateCode(line: string)
    requires line != [] && !IsSpace(line[0]) && line[0] != ':'
    ensures Translate(line) == Verbatim(line)
  {
    assert LStrip(line) == line;
  }

  /** A literal, an expression and a literal, none of them empty. */
  lemma StmtsOfThree(a: string, e: string, b: string)
    requires a != "" && e != "" && b != ""
    ensures Stmts([a, e, b]) == [Literal(a), Expr(e), Literal(b)]
  {
    assert [a, e, b][2..] == [b];
  }

  lemma ValueLineTranslated()
    ensures Translate(ValueLine) == Copy("", ValueStmts)
  {
    assert ValueLine == ": " + "value is ${x}\n";
    TranslateColonSpace("value is ${x}\n");
    ValueLineSplit();
    StmtsOfThree("value is ", "x", "\n");
  }

  lemma TranslateTwo(a: string, b: string)
    ensures TranslateSource([a, b]) == [Translate(a), Translate(b)]
  {
    assert [a, b][1..] == [b];
  }

  lemma RenderThree(a: string, e: string, b: string, value: string -> string)
    ensures Render([Literal(a), Expr(e), Literal(b)], value) == a + value(e) + b
  {
    var ss := [Literal(a), Expr(e), Literal(b)];
    assert ss[1..] == [Expr(e), Literal(b)];
    assert ss[1..][1..] == [Literal(b)];
    assert [Literal(b)][1..] == [];
    assert Render([Literal(b)], value) == b;
    assert Render(ss[1..], value) == value(e) + b;
  }

  /** `x = 1` stays code; the copy line writes the literal, the value of
      `x` and the newline ... */
  lemma ValueExample()
    ensures TranslateSource(["x = 1\n", ValueLine]) == [Verbatim("x = 1\n"), Copy("", ValueStmts)]
  {
    TranslateCode("x = 1\n");
    ValueLineTranslated();
    TranslateTwo("x = 1\n", ValueLine);
  }

  /** ... so with `x` bound to 1 it writes "value is 1" and the newline. */
  lemma ValueRendered()
    ensures Render(ValueStmts, e => if e == "x" then "1" else "") == "value is 1\n"
  {
    RenderThree("value is ", "x", "\n", e => if e == "x" then "1" else "");
  }
}

=== FILE: textmap.dfy ===
/** The recursive text extractor (`itermaptext` and `element.Maptext`).
    The two copies of the extractor differ only in how they treat each
    text and tail piece: one keeps whitespace and honours a `%T` rule
    prefix, the other strips every piece; `Mode` selects between them. */
module TextMap {
  import opened Base
  import opened Nodes

  datatype Mode =
    | KeepSpace   // the whitespace-preserving extractor, with `%T`
    | StripAll    // the extractor that strips every text and tail

  /** A formatting rule: the Python format string `before + "%s" + after`,
      with `lstrip` standing for a leading `%T`. */
  datatype Rule = Rule(lstrip: bool, before: string, after: string)

  /** A rule table entry: a fixed format, or a callable of the element. */
  datatype RuleSpec = Fixed(rule: Rule) | PerNode(pick: Node -> Rule)

  /** A filter table entry: a truth value, or a callable of the element. */
  datatype Keep = Always(keep: bool) | When(test: Node -> bool)

  datatype Config = Config(
    mode: Mode,
    escape: string -> string,
    textmap: map<string, RuleSpec>,
    tailmap: map<string, RuleSpec>,
    filter: map<string, Keep>)

  function Identity(s: string): string {
    s
  }

  function RuleFor(spec: RuleSpec, n: Node): Rule {
    match spec
    case Fixed(r) => r
    case PerNode(pick) => pick(n)
  }

  /** Whether the filter admits child `k`; tags absent from the filter are
      admitted. */
  predicate Kept(filter: map<string, Keep>, k: Node) {
    if k.tag in filter then
      match filter[k.tag]
      case Always(b) => b
      case When(test) => test(k)
    else true
  }

  /** A text or tail piece as the extractor sees it before any rule. */
  function Prepared(mode: Mode, raw: string): string {
    if mode == StripAll then Strip(raw) else raw
  }

  /** The fragments one text (or tail) piece of `n` contributes, under the
      rule table `rules` keyed by `n`'s tag. */
  function Piece(c: Config, rules: map<string, RuleSpec>, n: Node, raw: string): (r: seq<string>)
    ensures n.tag in rules ==> |r| == 1
    ensures n.tag !in rules ==> (r == [] <==> Prepared(c.mode, raw) == "")
    ensures n.tag !in rules && r != [] ==> r == [c.escape(Prepared(c.mode, raw))]
    ensures c.mode == StripAll && n.tag !in rules ==> (r == [] <==> AllSpace(raw))
    ensures c.mode == KeepSpace && n.tag in rules && RuleFor(rules[n.tag], n).lstrip ==>
      var f := RuleFor(rules[n.tag], n);
      r == [f.before + c.escape(LStrip(raw)) + f.after]
    ensures n.tag in rules && !(c.mode == KeepSpace && RuleFor(rules[n.tag], n).lstrip) ==>
      var f := RuleFor(rules[n.tag], n);
      r == [f.before + c.escape(Prepared(c.mode, raw)) + f.after]
  {
    StripEmptyIffAllSpace(raw);
    var t := Prepared(c.mode, raw);
    if n.tag in rules then
      var f := RuleFor(rules[n.tag], n);
      var t' := if c.mode == KeepSpace && f.lstrip then LStrip(t) else t;
      [f.before + c.escape(t') + f.after]
    else if t != "" then [c.escape(t)]
    else []
  }

  /** `itermaptext(elem, ...)`: pre-order; the element's text, then for
      every admitted child its fragments followed by its tail. */
  function Fragments(c: Config, n: Node): seq<string> {
    Piece(c, c.textmap, n, n.text) + KidsFragments(c, n.kids)
  }

  function KidsFragments(c: Config, kids: seq<Node>): seq<string> {
    if kids == [] then []
    else
      var k := kids[0];
      (if Kept(c.filter, k) then Fragments(c, k) + Piece(c, c.tailmap, k, k.tail) else [])
      + KidsFragments(c, kids[1..])
  }

  /** `element.Maptext(escape, textmap, tailmap, filter)`: the joined
      fragments, or "" for the sentinel; a missing escape is the identity. */
  function Maptext(n: Node, mode: Mode, escape: Option<string -> string>,
                   textmap: map<string, RuleSpec>, tailmap: map<string, RuleSpec>,
                   filter: map<string, Keep>): (r: string)
    ensures !Present(n) ==> r == ""
  {
    if n.tag == "" then ""
    else Concat(Fragments(Config(mode, escape.GetOr(Identity), textmap, tailmap, filter), n))
  }

  // ----- properties -----

  /** A configuration that neither formats, filters nor escapes. */
  ghost predicate Plain(c: Config) {
    && c.textmap == map[] && c.tailmap == map[] && c.filter == map[]
    && forall s :: c.escape(s) == s
  }

  lemma KidsFragmentsAppend(c: Config, a: seq<Node>, b: seq<Node>)
    ensures KidsFragments(c, a + b) == KidsFragments(c, a) + KidsFragments(c, b)
  {
    if a == [] {
      assert a + b == b;
    } else {
      assert (a + b)[0] == a[0];
      assert (a + b)[1..] == a[1..] + b;
      KidsFragmentsAppend(c, a[1..], b);
    }
  }

  /** A child the filter rejects contributes nothing: neither its subtree
      nor its tail. */
  lemma RejectedChildContributesNothing(c: Config, pre: seq<Node>, k: Node, post: seq<Node>)
    requires !Kept(c.filter, k)
    ensures KidsFragments(c, pre + [k] + post) == KidsFragments(c, pre + post)
  {
    KidsFragmentsAppend(c, pre + [k], post);
    KidsFragmentsAppend(c, pre, [k]);
    KidsFragmentsAppend(c, pre, post);
    assert KidsFragments(c, [k]) == [] by {
      assert [k][1..] == [];
    }
  }

  /** With no rules, no filter and the identity escape, the whitespace-
      keeping extractor reproduces the element's text in document order. */
  lemma {:induction false} PlainFragmentsAreText(c: Config, n: Node)
    requires Plain(c) && c.mode == KeepSpace
    ensures Concat(Fragments(c, n)) == Text(n)
    decreases n, 1
  {
    var lead := Piece(c, c.textmap, n, n.text);
    assert Concat(lead) == n.text by {
      if lead != [] {
        assert lead == [n.text];
        assert Concat(lead) == n.text + Concat([]);
      }
    }
    PlainKidsFragmentsAreText(c, n.kids);
    ConcatAppend(lead, KidsFragments(c, n.kids));
  }

  lemma {:induction false} PlainKidsFragmentsAreText(c: Config, kids: seq<Node>)
    requires Plain(c) && c.mode == KeepSpace
    ensures Concat(KidsFragments(c, kids)) == KidsText(kids)
    decreases kids, 0
  {
    if kids != [] {
      var k := kids[0];
      var tail := Piece(c, c.tailmap, k, k.tail);
      assert Concat(tail) == k.tail by {
        if tail != [] {
          assert tail == [k.tail];
          assert Concat(tail) == k.tail + Concat([]);
        }
      }
      PlainFragmentsAreText(c, k);
      PlainKidsFragmentsAreText(c, kids[1..]);
      ConcatAppend(Fragments(c, k), tail);
      ConcatAppend(Fragments(c, k) + tail, KidsFragments(c, kids[1..]));
    }
  }

  /** The stripping extractor's reference reading: every text and tail
      piece stripped, in document order. */
  function StrippedText(n: Node): string {
    Strip(n.text) + KidsStrippedText(n.kids)
  }

  function KidsStrippedText(kids: seq<Node>): string {
    if kids == [] then "" else StrippedText(kids[0]) + Strip(kids[0].tail) + KidsStrippedText(kids[1..])
  }

  /** With no rules, no filter and the identity escape, the stripping
      extractor concatenates the stripped pieces in document order. */
  lemma {:induction false} PlainStrippedFragments(c: Config, n: Node)
    requires Plain(c) && c.mode == StripAll
    ensures Concat(Fragments(c, n)) == StrippedText(n)
    decreases n, 1
  {
    var lead := Piece(c, c.textmap, n, n.text);
    assert Concat(lead) == Strip(n.text) by {
      if lead != [] {
        assert lead == [Strip(n.text)];
        assert Concat(lead) == Strip(n.text) + Concat([]);
      }
    }
    PlainKidsStrippedFragments(c, n.kids);
    ConcatAppend(lead, KidsFragments(c, n.kids));
  }

  lemma {:induction false} PlainKidsStrippedFragments(c: Config, kids: seq<Node>)
    requires Plain(c) && c.mode == StripAll
    ensures Concat(KidsFragments(c, kids)) == KidsStrippedText(kids)
    decreases kids, 0
  {
    if kids != [] {
      var k := kids[0];
      var tail := Piece(c, c.tailmap, k, k.tail);
      assert Concat(tail) == Strip(k.tail) by {
        if tail != [] {
          assert tail == [Strip(k.tail)];
          assert Concat(tail) == Strip(k.tail) + Concat([]);
        }
      }
      PlainStrippedFragments(c, k);
      PlainKidsStrippedFragments(c, kids[1..]);
      ConcatAppend(Fragments(c, k), tail);
      ConcatAppend(Fragments(c, k) + tail, KidsFragments(c, kids[1..]));
    }
  }

  /** The stripped pieces are all empty exactly when the whole text is
      blank. */
  lemma {:induction false} StrippedEmptyIffBlank(n: Node)
    ensures StrippedText(n) == "" <==> AllSpace(Text(n))
    decreases n, 1
  {
    KidsStrippedEmptyIffBlank(n.kids);
    StripEmptyIffAllSpace(n.text);
    AllSpaceConcat(n.text, KidsText(n.kids));
  }

  lemma {:induction false} KidsStrippedEmptyIffBlank(kids: seq<Node>)
    ensures KidsStrippedText(kids) == "" <==> AllSpace(KidsText(kids))
    decreases kids, 0
  {
    if kids != [] {
      var k := kids[0];
      StrippedEmptyIffBlank(k);
      KidsStrippedEmptyIffBlank(kids[1..]);
      StripEmptyIffAllSpace(k.tail);
      AllSpaceConcat(Text(k), k.tail);
      AllSpaceConcat(Text(k) + k.tail, KidsText(kids[1..]));
    }
  }

  /** Every element below `n` passes the filter. */
  ghost predicate AllKept(filter: map<string, Keep>, n: Node) {
    forall k :: k in n.kids ==> Kept(filter, k) && AllKept(filter, k)
  }

  /** A filter that rejects nothing in the subtree changes nothing. */
  lemma {:induction false} UnusedFilter(c: Config, n: Node)
    requires AllKept(c.filter, n)
    ensures Fragments(c, n) == Fragments(c.(filter := map[]), n)
    decreases n, 1
  {
    UnusedFilterKids(c, n, n.kids);
  }

  lemma {:induction false} UnusedFilterKids(c: Config, n: Node, kids: seq<Node>)
    requires forall k :: k in kids ==> k in n.kids
    requires AllKept(c.filter, n)
    ensures KidsFragments(c, kids) == KidsFragments(c.(filter := map[]), kids)
    decreases n, 0, |kids|
  {
    if kids != [] {
      var k := kids[0];
      assert k in n.kids;
      UnusedFilter(c, k);
      UnusedFilterKids(c, n, kids[1..]);
    }
  }

  // ----- the `<p>Hello <b>World</b>!</p>` example -----

  const World: Node := Node("b", map[], "World", "!", [])
  const HelloWorld: Node := Node("p", map[], "Hello ", "", [World])

  lemma HelloWorldFragments()
    ensures Fragments(Config(KeepSpace, Identity, map[], map[], map[]), HelloWorld)
      == ["Hello ", "World", "!"]
    ensures Maptext(HelloWorld, KeepSpace, None, map[], map[], map[]) == "Hello World!"
  {
    var plain := Config(KeepSpace, Identity, map[], map[], map[]);
    var b := HelloWorld.kids[0];
    assert Fragments(plain, b) == ["World"] by {
      assert Piece(plain, map[], b, "World") == ["World"];
      assert KidsFragments(plain, []) == [];
    }
    assert Piece(plain, map[], b, "!") == ["!"];
    assert KidsFragments(plain, HelloWorld.kids) == ["World", "!"] by {
      assert HelloWorld.kids[1..] == [];
    }
    assert Piece(plain, map[], HelloWorld, "Hello ") == ["Hello "];
    assert Concat(["Hello ", "World", "!"]) == "Hello World!" by {
      assert Concat(["!"]) == "!" + Concat([]);
      assert Concat(["World", "!"]) == "World" + Concat(["!"]);
    }
  }

  lemma HelloWorldFiltered()
    ensures Fragments(Config(KeepSpace, Identity, map[], map[], map["b" := Always(false)]), HelloWorld)
      == ["Hello "]
  {
    var c := Config(KeepSpace, Identity, map[], map[], map["b" := Always(false)]);
    assert !Kept(c.filter, HelloWorld.kids[0]);
    assert KidsFragments(c, HelloWorld.kids) == [] by {
      assert HelloWorld.kids[1..] == [];
    }
    assert Piece(c, map[], HelloWorld, "Hello ") == ["Hello "];
  }

  /** A text rule for `b` wraps its text: `{"b": "*%s*"}` gives
      "Hello *World*!". */
  lemma HelloWorldStarred()
    ensures Maptext(HelloWorld, KeepSpace, None, map["b" := Fixed(Rule(false, "*", "*"))], map[], map[])
      == "Hello *World*!"
  {
    var c := Config(KeepSpace, Identity, map["b" := Fixed(Rule(false, "*", "*"))], map[], map[]);
    var b := HelloWorld.kids[0];
    assert Fragments(c, b) == ["*World*"] by {
      assert b.tag in c.textmap && RuleFor(c.textmap[b.tag], b) == Rule(false, "*", "*");
      assert "*" + c.escape("World") + "*" == "*World*";
      assert Piece(c, c.textmap, b, "World") == ["*World*"];
      assert KidsFragments(c, []) == [];
    }
    assert Piece(c, map[], b, "!") == ["!"];
    assert KidsFragments(c, HelloWorld.kids) == ["*World*", "!"] by {
      assert HelloWorld.kids[1..] == [];
    }
    assert Piece(c, c.textmap, HelloWorld, "Hello ") == ["Hello "];
    assert Fragments(c, HelloWorld) == ["Hello ", "*World*", "!"];
    assert Concat(["Hello ", "*World*", "!"]) == "Hello *World*!" by {
      assert Concat(["!"]) == "!" + Concat([]);
      assert Concat(["*World*", "!"]) == "*World*" + Concat(["!"]);
    }
  }

  lemma StrippedWorld()
    ensures StrippedText(World) == "World"
  {
    StripKeeps("World");
    assert KidsStrippedText([]) == "";
  }

  lemma StrippedBang()
    ensures Strip("!") == "!"
  {
    StripKeeps("!");
  }

  lemma StrippedHello()
    ensures Strip("Hello ") == "Hello"
  {
    assert "Hello "[..5] == "Hello";
    assert RStrip("Hello ") == RStrip("Hello");
    StripKeeps("Hello");
  }

  lemma HelloWorldStripped()
    ensures Maptext(HelloWorld, StripAll, None, map[], map[], map[]) == "HelloWorld!"
  {
    var c := Config(StripAll, Identity, map[], map[], map[]);
    assert Maptext(HelloWorld, StripAll, None, map[], map[], map[]) == Concat(Fragments(c, HelloWorld));
    PlainStrippedFragments(c, HelloWorld);
    StrippedHello();
    StrippedWorld();
    StrippedBang();
    assert KidsStrippedText(HelloWorld.kids) == "World!" by {
      assert HelloWorld.kids[1..] == [];
      assert KidsStrippedText([]) == "";
    }
  }
}
